=== FILE: README.md ===
# Aerospike Ruby client: cluster topology bookkeeping, modelled in Dafny

This project models the part of the Aerospike Ruby client that keeps track of
the server cluster:

- **The wire-string parsers:**
  - the character cursor `Utils::StringParser`;
  - the peer-list parser for `generation,defaultPort,[[name,tls,[host[:port],...]],...]`, in both of its revisions (`Peers::Parse` and the older `Cluster::Peer::Parse`);
  - the seed-host parser `Host::Parse`;
  - the build-version test of `NodeValidator`.
- **Node state:** health, the active flag, the failure and reference counters, the responded flag, aliases, equality by name, and the change-detecting `Generation` counter.
- **The per-cycle working set `Peers` and the refresh steps:**
  - reset and failure accounting;
  - the info refresh with its name, cluster-name and generation checks;
  - the peers refresh;
  - the legacy friends (services) refresh.
- **The cluster:**
  - routing (`get_node`, `random_node`);
  - the graduated removal policy;
  - alias handling;
  - seeding and duplicate-name handling;
  - the copy-on-write updates of the node array;
  - the feature intersection;
  - the gating of one tend cycle.
- **Batch key grouping:** `BatchNodeIndex.generate_list`.

Each Ruby file becomes one Dafny module:

- Objects whose fields the source updates in place are classes with `modifies` frames:
  - `Generation` and `Node`;
  - `Peers`, `Cluster` and `NodeValidator`;
  - `StringParser` and `BatchNodeIndex`.
- The parsers' grammar, the removal policy and the batch grouping have pure specification functions. The methods are proved against these functions.
- Everything the client gets from the network is a parameter:
  - the info reply (`InfoMap`, or a function from the requested commands to a `Probe`);
  - the fetched peer list;
  - node validation (`Validator`, from a host to a validated identity or an error);
  - the key-to-partition function.
- Ruby exceptions are values of `Base.Error`. `rescue ::Aerospike::Exceptions::Aerospike` catches exactly the errors for which `IsAerospike()` holds; a bare `rescue => e` catches all of them.

Where the files of this revision do not fit together, the model does the following:

- **Partition generation.** lib/aerospike/node.rb:44 stores `partition_generation` as a plain atomic integer. The verify and reset steps use it as a `Generation` (lib/aerospike/node/generation.rb). The model gives each node a `Generation`.
- **Missing node methods.** `reset_reference_count!`, `increase_reference_count!` and `reset_responded!` are called by the refresh code but not defined in lib/aerospike/node.rb. They are modelled as setting the counter to 0, adding 1 and clearing the flag.
- **`PartitionGeneration` arity.** lib/aerospike/node/refresh/info.rb:17,20 call `Verify::PartitionGeneration` with three arguments; it takes two. `NodeRefresh.Info` models the two-argument call, and `NodeRefresh.InfoAsWritten` models the code as written (see Findings).
- **Node validator rebinding.** lib/aerospike/node/refresh/peers.rb:30 rebinds the local `node`, so later validations and the final peers-generation write use the newest node. This is modelled as written (`last` in `NodeRefresh.RefreshPeers`).
- **Peers gating.** lib/aerospike/cluster.rb:255 writes `peers.use_peers.value = false`, but `use_peers` holds a plain boolean, which has no `value=`. `Tending.Tend` models the intended assignment (`Tending.StartCycle`), and `Tending.StartCycleAsWritten` models the code as written (see Findings).
- **Missing node readers.** `Node` (lib/aerospike/node.rb:23) has no `tend_connection`, `host`, `timeout` or `aliases` reader; it has `get_host` and `get_aliases`. `Cluster` has no `nodes_map`. The model repairs each use as follows:
  - `node.tend_connection` (lib/aerospike/node/refresh/peers.rb:11) is the connection the fetched peer list comes over; the list is an input. `NodeRefresh.RefreshPeersAsWritten` models the call as written (see Findings).
  - `node.host` (lib/aerospike/node/refresh/peers.rb:22) is the node's host, as `get_host` returns it.
  - `node.timeout` (lib/aerospike/node/refresh/friends.rb:39) is left to the validator. `NodeRefresh.PrepareAsWritten` models the call as written.
  - `node.aliases << host` (lib/aerospike/node/refresh/friends.rb:49,57) appends to the node's aliases.
  - `node.cluster.nodes_map[nv.name]` (lib/aerospike/node/refresh/friends.rb:53) is a lookup by name among the cluster's nodes.
  - `cluster.aliases[host.to_s] = node` (lib/aerospike/node/refresh/friends.rb:59) names an undefined local; it is the cluster's alias map, keyed by the host.
- **Private cluster methods.** lib/aerospike/cluster.rb:224 makes every method after it private, among them `add_alias` (line 411), `create_node` (line 463) and `find_node_by_name` (line 608). Four call sites use an explicit receiver, which Ruby refuses with NoMethodError: `cluster.find_node_by_name` (lib/aerospike/cluster/find_node.rb:9), `node.cluster.create_node` (lib/aerospike/node/refresh/peers.rb:30 and lib/aerospike/node/refresh/friends.rb:71) and `node.cluster.add_alias` (lib/aerospike/node/refresh/friends.rb:67). The model treats the three as callable. `FindNode.CallAsWritten` models the lookup as written (see Findings); the other three sites sit behind the as-written failures at peers.rb:11 and friends.rb:23,35-43.
- **Seed and alias returns.** `SeedNodes` and `GenerateList` return the created nodes and the routed nodes as extra results. They only name what the contract speaks about.

## Model

Plain readers and lookups whose contracts only restate one Ruby expression have no row of their own: `Base.Get`, `StringParsing.CharAt`, `StringParsing.StringParser.Current`, `NodeState.Generation.Eql`, `NodeState.Node.Unhealthy`, `NodeState.Node.SupportsFeature`, `WorkingSet.Peers.FindNodeByName`, `NodeRefresh.EntryHosts`, `NodeRefresh.Commands`, `ClusterState.RubyAt`, `ClusterState.Cluster.Connected`, `ClusterState.Cluster.SupportsFeature`, `ClusterState.Cluster.FindAlias`, `ClusterState.Cluster.InPartitionMap`, `ClusterState.FindNodeName` and `ClusterState.NodeExists`. Elementwise maps have none either: `ClusterState.Names`, `NodeRefresh.PeerNames`, `WorkingSet.ValuesOf` and `BatchIndex.Views`. The operations that use them carry the properties.

| member | source | states |
|---|---|---|
| Base.ToIOfDigits | lib/aerospike/node/verify/partition_generation.rb:15 | `to_i` of a non-empty digit string is its decimal value |
| Base.SplitJoin | lib/aerospike/node/refresh/friends.rb:17 | Ruby's `split(c)` returns separator-free fields with a non-empty last field unchanged after joining them with `c` |
| Base.DigitPrefixLength | lib/aerospike/node/verify/partition_generation.rb:15 | the digit run `to_i` reads: all digits, stopped by a non-digit or the end |
| Base.DropTrailingEmpty | lib/aerospike/host/parse.rb:17 | `split` drops only trailing empty fields and leaves the result ending in a non-empty one |
| Base.FieldsHaveNoSeparator | lib/aerospike/host/parse.rb:17 | no field of a split contains the separator |
| Base.FieldsOfJoin | lib/aerospike/host/parse.rb:17 | separator-free fields joined and split again come back unchanged, trailing empty ones included |
| Base.JoinFields | lib/aerospike/node/refresh/friends.rb:17 | joining every field between separators back with the separator gives the input |
| StringParsing.FindFrom | lib/aerospike/utils/string_parser.rb:22-26 | a found index is at or after the start and holds `c` |
| StringParsing.StringParser.constructor | lib/aerospike/utils/string_parser.rb:7-9 | the cursor starts at position 0 of the given string |
| StringParsing.StringParser.Expect | lib/aerospike/utils/string_parser.rb:16-18 | consumes exactly one character (none at the end); succeeds exactly when that character is `c`, otherwise a parse error, also at the end |
| StringParsing.StringParser.ReadUntil | lib/aerospike/utils/string_parser.rb:20-28 | when `c` occurs ahead: exactly the text before its next occurrence, with the cursor just past it; when it does not, the endless nil-appending loop is reported as `Diverges`; the cursor never moves back |
| StringParsing.StringParser.Step | lib/aerospike/utils/string_parser.rb:30-32 | advances by `count` characters, clamped at the end; never fails |
| StringParsing.FindFromSkips | lib/aerospike/utils/string_parser.rb:22-26 | the text `read_until` passes over holds no `c` |
| StringParsing.FindFromFirst | lib/aerospike/utils/string_parser.rb:22-24 | the first `c` met by a left-to-right scan is the occurrence the specification names |
| PeerGrammar.LastIndexBefore | lib/aerospike/peers/parse.rb:12 | the last `]` before a bound: there is no `]` after it (the greedy `(.*)\]`) |
| PeerGrammar.LineEnd | lib/aerospike/peers/parse.rb:12 | the end of the line: `.` never crosses a newline |
| PeerGrammar.MatchBaseAt | lib/aerospike/peers/parse.rb:12 | a match gives a non-empty digit generation and an all-digit port |
| PeerGrammar.MatchBase | lib/aerospike/peers/parse.rb:24-29 | the leftmost match of the regular expression, with the same digit guarantees |
| PeerGrammar.ExpectAt | lib/aerospike/utils/string_parser.rb:16-18 | the grammar's `expect`: the position after `c`, within the string |
| PeerGrammar.ReadUntilAt | lib/aerospike/utils/string_parser.rb:20-28 | the grammar's `read_until`: consumes at least the delimiter |
| PeerGrammar.Derive | lib/aerospike/peers/parse.rb:31-73 | the five mutually calling routines (`parse_host`, the `parse_hosts` loop, `parse_hosts`, `parse_peer`, the `parse_peers` loop); every successful rule consumes at least one character and yields the tree its rule calls for |
| PeerGrammar.HostListRound | lib/aerospike/peers/parse.rb:57-62 | one round of the host loop: an error ends it, a following `,` continues it, anything else ends it with the lists read |
| PeerGrammar.PeerListRound | lib/aerospike/peers/parse.rb:35-39 | peers are read while the character after a peer is `,`; parsing stops at the first peer not followed by one |
| PeerGrammar.ResponseFields | lib/aerospike/peers/parse.rb:18-19 | `generation` is the value of the first digit group; `port_default` is nil exactly when the second group is empty, else its value (both revisions) |
| PeerGrammar.NoMatchFails | lib/aerospike/peers/parse.rb:24-29 | input with no match never yields a partial result: a parse error in the newer revision, NoMethodError in the older one |
| PeerGrammar.NoMatchFrom | lib/aerospike/peers/parse.rb:25 | when no position from `from` on matches, the leftmost-match search finds nothing |
| PeerGrammar.PeerAt | lib/aerospike/peers/parse.rb:43-51 | a parsed peer consumes at least one character and stays within the string |
| PeerGrammar.IPv6HostRejected | lib/aerospike/peers/parse.rb:67-68 | a host list opening with `[` is a parse error in the newer revision and never one in the older |
| PeerGrammar.UnguardedHostListNoParseError | lib/aerospike/cluster/peer/parse.rb:57-63 | without the guard the host loop can fail only by running off the end |
| PeerGrammar.HostsAreOneList | lib/aerospike/peers/parse.rb:57-72 | in the usual layout `hosts` is a one-element list wrapping the `,`/`:`-split entries, each carrying the peer's TLS name; both revisions agree |
| PeerGrammar.PeerFields | lib/aerospike/peers/parse.rb:44-50 | a peer's name and TLS name are the raw text up to the first and second `,` (an empty TLS name stays empty), followed by the host lists and `]` |
| PeerGrammar.EmptyPeerSection | lib/aerospike/peers/parse.rb:32 | `"1,,[]"` gives generation 1, nil port and no peers in both revisions |
| PeerGrammar.InvalidResponse | lib/aerospike/cluster/peer/parse.rb:12-20 | `",,"` gives a parse error in the newer revision and NoMethodError in the older |
| PeersParse.ParseHost | lib/aerospike/peers/parse.rb:66-73 | the cursor method computes exactly the grammar's `parse_host` and leaves the cursor where it says |
| PeersParse.ParseHosts | lib/aerospike/peers/parse.rb:53-55 | agrees with the grammar's `parse_hosts`, including the unread immediate `]` |
| PeersParse.ParseHostList | lib/aerospike/peers/parse.rb:57-63 | the host loop agrees with the grammar's loop |
| PeersParse.ParsePeer | lib/aerospike/peers/parse.rb:43-51 | agrees with the grammar's `parse_peer` |
| PeersParse.ParsePeers | lib/aerospike/peers/parse.rb:31-33 | an empty body gives no peers, otherwise the grammar's peer list |
| PeersParse.ParsePeerList | lib/aerospike/peers/parse.rb:34-40 | the peer loop agrees with the grammar's loop |
| PeersParse.Call | lib/aerospike/peers/parse.rb:14-29 | equals the response specification; no regular-expression match is a parse error |
| ClusterPeerParse.Call | lib/aerospike/cluster/peer/parse.rb:12-20 | the older revision: the same grammar without the IPv6 guard; no match is NoMethodError |
| HostParse.HostsOfEntries | lib/aerospike/host/parse.rb:17 | one host per entry, in order |
| HostParse.Call | lib/aerospike/host/parse.rb:10-29 | a Host gives `[host]`, an Array is returned unchanged, and any other argument type is exactly the TypeError case |
| HostParse.OneHostPerEntry | lib/aerospike/host/parse.rb:17 | a string of `,`-separated entries gives exactly one Host per entry, in order |
| HostParse.ThreeParts | lib/aerospike/host/parse.rb:18-24 | `addr:tls:port` gives name, TLS name and `to_i` of the port |
| HostParse.TwoParts | lib/aerospike/host/parse.rb:19-23 | `addr:x` reads an all-digit `x` as the port with nil TLS name, any other `x` as the TLS name with the default port |
| HostParse.OnePart | lib/aerospike/host/parse.rb:23-24 | a bare address gets the default port and no TLS name |
| NodeValidation.VersionAt | lib/aerospike/node_validator.rb:20 | a match holds three digit groups |
| NodeValidation.FindVersion | lib/aerospike/node_validator.rb:81 | the leftmost match, or none when no position matches |
| NodeValidation.ParseVersionString | lib/aerospike/node_validator.rb:80-86 | a parse error exactly when no position matches, otherwise three digit groups |
| NodeValidation.AtLeast266IsLexOrder | lib/aerospike/node_validator.rb:69 | the nested comparison holds exactly when (v1, v2, v3) is not below (2, 6, 6) in lexicographic order |
| NodeValidation.UseNewInfoFrom266 | lib/aerospike/node_validator.rb:67-69 | for a matched version the protocol choice is the lexicographic test on the decimal values |
| NodeValidation.Absorb | lib/aerospike/node_validator.rb:58-71 | a reply without `node` changes nothing |
| NodeValidation.AbsorbEffect | lib/aerospike/node_validator.rb:58-70 | the name comes from `node`; features are replaced only when `features` is present; `build` decides the protocol, or raises a parse error when unreadable |
| NodeValidation.AbsorbAll | lib/aerospike/node_validator.rb:53-75 | no aliases, no change |
| NodeValidation.Opened | lib/aerospike/node_validator.rb:53-75 | at most one probe connection per alias |
| NodeValidation.SilentAliasesChangeNothing | lib/aerospike/node_validator.rb:58 | aliases whose replies lack `node` leave name, features and protocol unchanged |
| NodeValidation.LastAnswerWins | lib/aerospike/node_validator.rb:53-59 | the loop does not stop early: the last alias answering with `node` sets the name |
| NodeValidation.NoBuildKeepsNewInfo | lib/aerospike/node_validator.rb:67-70 | without a `build` entry the protocol choice keeps its initial value |
| NodeValidation.NodeValidator.constructor | lib/aerospike/node_validator.rb:24-34 | no name, no features, newer protocol assumed, no probes yet |
| NodeValidation.NodeValidator.SetAddress | lib/aerospike/node_validator.rb:52-76 | the fields end as the fold of the replies says, and every connection opened is closed, also on a raise |
| NodeValidation.NodeValidator.Answered | lib/aerospike/node_validator.rb:58-71 | one answered probe updates the fields as `Absorb` says |
| NodeState.Updated | lib/aerospike/node/generation.rb:26-30 | the number becomes `x`; the flag is set exactly when it was set or the number differs; an equal `x` changes nothing |
| NodeState.Generation.constructor | lib/aerospike/node/generation.rb:9-12 | the given number, not changed |
| NodeState.Generation.ResetChanged | lib/aerospike/node/generation.rb:22-24 | clears the flag and keeps the number |
| NodeState.Generation.Update | lib/aerospike/node/generation.rb:26-30 | a different number is stored and flagged; an equal one does not clear an earlier flag |
| NodeState.UpdateTwice | lib/aerospike/node/generation.rb:26-30 | updating twice with the same value equals updating once |
| NodeState.Node.constructor | lib/aerospike/node.rb:29-50 | validator name, features, protocol and cluster name; host is the first alias; health 100, active, not responded, all counters 0, both generations -1 |
| NodeState.Node.RestoreHealth | lib/aerospike/node.rb:106-110 | health back to 100; `active` untouched |
| NodeState.Node.DecreaseHealth | lib/aerospike/node.rb:113-115 | health lowered by exactly 1 |
| NodeState.Node.Activate | lib/aerospike/node.rb:128-130 | the node is active afterwards; it is the only method that turns the flag back on |
| NodeState.Node.Deactivate | lib/aerospike/node.rb:133-135 | inactive |
| NodeState.Node.Close | lib/aerospike/node.rb:172-175 | inactive |
| NodeState.Node.CloseConnection | lib/aerospike/node/refresh/info.rb:33 | one more closed connection |
| NodeState.Node.MarkResponded | lib/aerospike/node.rb:142-144 | responded |
| NodeState.Node.ResetResponded | lib/aerospike/node/refresh/reset.rb:11 | not responded |
| NodeState.Node.ResetFailures | lib/aerospike/node.rb:146-148 | no failures |
| NodeState.Node.IncreaseFailures | lib/aerospike/node/refresh/failed.rb:10 | failures up by exactly 1 |
| NodeState.Node.ResetReferenceCount | lib/aerospike/node/refresh/reset.rb:10 | reference count 0 |
| NodeState.Node.IncreaseReferenceCount | lib/aerospike/cluster/find_node.rb:12 | reference count up by exactly 1 |
| NodeState.Node.SetPeersCount | lib/aerospike/node/refresh/friends.rb:12-18 | the peer count is the given value |
| NodeState.Node.SetPeersGeneration | lib/aerospike/node/refresh/peers.rb:42 | the peers generation is the given value |
| NodeState.Node.AddAlias | lib/aerospike/node.rb:161-169 | appended at the end, all earlier aliases kept in order |
| NodeState.Node.SameAs | lib/aerospike/node.rb:181-184 | equal exactly when the other is a node with the same name |
| NodeState.EqualNodesHashAlike | lib/aerospike/node.rb:181-192 | equal nodes hash alike, and node equality is reflexive, symmetric and transitive |
| NodeState.HundredFailuresToUnhealthy | lib/aerospike/node.rb:113-120 | from full health, k decrements leave 100 - k, so a node is unhealthy exactly after 100 of them |
| WorkingSet.Peers.constructor | lib/aerospike/peers.rb:7-13 | no peers, hosts or nodes; peers used; refresh count 0; generation not changed |
| WorkingSet.Peers.PutNode | lib/aerospike/node/refresh/peers.rb:31 | the map gets the entry; a new name goes to the end of the insertion order, a known one keeps its place |
| WorkingSet.Peers.NodeValues | lib/aerospike/cluster.rb:280 | the stored nodes in insertion order; empty exactly when the map is |
| FindNode.Lookup | lib/aerospike/cluster/find_node.rb:9-10 | a cluster node of that name is preferred, else the working set's; nil exactly when the name is in neither |
| FindNode.Call | lib/aerospike/cluster/find_node.rb:8-14 | with the cluster's lookup callable: returns the lookup, whose reference count goes up by exactly 1; no other node changes |
| FindNode.CallAsWritten | lib/aerospike/cluster/find_node.rb:8-9 | as written: NoMethodError on every call, before either lookup, because `find_node_by_name` is private in `Cluster`; no reference count changes, and the error is not an Aerospike error |
| NodeVerify.Name | lib/aerospike/node/verify/name.rb:8-21 | the same name: nothing changes; a missing name: health -1, active kept, invalid-node error; a different name: inactive, health kept, invalid-node error |
| NodeVerify.ClusterNameAsWritten | lib/aerospike/node/verify/cluster_name.rb:8-13 | fails exactly when a set filter differs from the reply; the node is made inactive, and the raise is a NameError |
| NodeVerify.ClusterName | lib/aerospike/node/verify/cluster_name.rb:8-13 | a nil filter or an equal reply: nothing changes; otherwise inactive with the invalid-node error |
| NodeVerify.PartitionGeneration | lib/aerospike/node/verify/partition_generation.rb:10-21 | a missing key: KeyError; empty value: parse error with the generation untouched; otherwise the generation is updated to `to_i` of the value |
| NodeVerify.PeersGeneration | lib/aerospike/node/verify/peers_generation.rb:8-19 | a missing key: KeyError; empty: parse error; a differing value sets `generation_changed`, an equal one never clears it; the node's peers generation is not written |
| NodeRefresh.Reset | lib/aerospike/node/refresh/reset.rb:9-13 | reference count 0, not responded, partition flag cleared with the number kept; nothing else is in its frame |
| NodeRefresh.Failed | lib/aerospike/node/refresh/failed.rb:8-11 | failures up by exactly 1; nothing else is in its frame and it never fails |
| NodeRefresh.FriendHostWithPort | lib/aerospike/node/refresh/friends.rb:21-22 | `name:port` gives that name and `to_i` of the port |
| NodeRefresh.FriendHostWithoutPort | lib/aerospike/node/refresh/friends.rb:21-22 | a bare name gives port 0 |
| NodeRefresh.Prepare | lib/aerospike/node/refresh/friends.rb:35-77 | as intended: the host joins a pending node of the validated name, else a cluster node of that name (counted and aliased), else a new pending node; an Aerospike error gives false |
| NodeRefresh.JoinKnown | lib/aerospike/node/refresh/friends.rb:56-60 | the host becomes an alias of the known node in the node and in the cluster, and the node is counted once more |
| NodeRefresh.PrepareAsWritten | lib/aerospike/node/refresh/friends.rb:35-43 | as written: NoMethodError with or without a node (`node.cluster` on nil; with a node, `node.timeout`, which `Node` does not define); it is not rescued |
| NodeRefresh.Befriend | lib/aerospike/node/refresh/friends.rb:21-31 | a host known by alias counts its node; a pending host is skipped; any other host is prepared, and only a non-Aerospike error fails |
| NodeRefresh.Friends | lib/aerospike/node/refresh/friends.rb:9-33 | no services: peer count 0 and nothing else; otherwise the peer count is the number of entries, and only hosts of those entries are added |
| NodeRefresh.UnknownEntryFailsAsWritten | lib/aerospike/node/refresh/friends.rb:23-29 | as written, a first entry neither aliased nor pending fails the loop, and so does any unknown entry after one |
| NodeRefresh.FriendsAsWritten | lib/aerospike/node/refresh/friends.rb:9-33 | as written: the peer count as above; it passes exactly when every entry meets the survival condition, else NoMethodError |
| NodeRefresh.IdentityChecks | lib/aerospike/node/refresh/info.rb:24-25 | passes exactly when the reply names the node and matches any cluster-name filter; never reactivates |
| NodeRefresh.ChecksWithPeers | lib/aerospike/node/refresh/info.rb:15-25 | passes exactly on an accepted reply; the generation updates hold even when a later identity check fails |
| NodeRefresh.ChecksWithoutPeers | lib/aerospike/node/refresh/info.rb:19-25 | a pass means an accepted reply; the partition update holds whenever it was reached |
| NodeRefresh.Settle | lib/aerospike/node/refresh/info.rb:27-36 | success: health 100, responded, failures 0, refresh count +1; failure: connection closed, health -1, failures +1, refresh count kept, generation flag set with peers |
| NodeRefresh.Info | lib/aerospike/node/refresh/info.rb:12-37 | requests the right commands; success only on an accepted reply (and always on one with peers); the success and failure effects above; a name failure is never marked responded |
| NodeRefresh.InfoAsWritten | lib/aerospike/node/refresh/info.rb:12-37 | as written, every call fails (ArgumentError on any reply without peers), costing health and a failure |
| NodeRefresh.AdmitPeer | lib/aerospike/node/refresh/peers.rb:16-39 | a known peer's node is counted once more and the peer skipped, and no other node's count changes; a matching validation adds a new node under the peer's name, with its first alias as host, and stops; a mismatch stops; an Aerospike error clears `validated` and tries the next host; any other error escapes |
| NodeRefresh.AdmitPeers | lib/aerospike/node/refresh/peers.rb:15-40 | the working set's names, the host of the node `node` ends up bound to, `validated` and the outcome are exactly those of `Admitted` over the peer list; added names are new nodes of that name; nothing is removed; when validation names the node itself nothing is added |
| NodeRefresh.AdmitTurn | lib/aerospike/node/refresh/peers.rb:16-38 | one peer's turn changes the working set, the bound node's host, `validated` and the outcome exactly as `AdmitNext` says |
| NodeRefresh.AdmitNextBounds | lib/aerospike/node/refresh/peers.rb:16-38 | one peer adds at most its own name, removes none, and after an escaped error changes nothing |
| NodeRefresh.AdmittedBounds | lib/aerospike/node/refresh/peers.rb:15-40 | the loop only adds names, each announced by some peer; an error that escapes it is not an Aerospike error |
| NodeRefresh.OwnIdentityAdmitsNone | lib/aerospike/node/refresh/peers.rb:22-27 | when validating the loop's host names a node the cluster knows, no peer is added, the host stays and nothing fails |
| NodeRefresh.UnknownPeerAdded | lib/aerospike/node/refresh/peers.rb:24-33 | a peer unknown at its turn whose validation names it ends up in the working set, unless an error escaped earlier |
| NodeRefresh.AdmittedSplit | lib/aerospike/node/refresh/peers.rb:15 | the loop over two lists in a row runs the second from where the first stopped |
| NodeRefresh.RefreshPeers | lib/aerospike/node/refresh/peers.rb:8-46 | a node with failures or inactive: nothing happens; a failed fetch: Failed on an Aerospike error; otherwise peers replaced and admitted as `Admitted` says, generation written to the last created node (or the node) exactly when validated, refresh count +1 unless an error escaped |
| NodeRefresh.RefreshPeersAsWritten | lib/aerospike/node/refresh/peers.rb:9-11 | as written: a node the guard stops passes untouched; any other node raises NoMethodError (`tend_connection` is not defined), which the `rescue` does not catch |
| ClusterState.KeptMembers | lib/aerospike/cluster.rb:574-602 | a node survives removal exactly when it was there and no removed node shares its name; nothing is added |
| ClusterState.KeptNothingRemoved | lib/aerospike/cluster.rb:270-276 | removing nothing keeps the array |
| ClusterState.ProbesCoverAll | lib/aerospike/cluster.rb:119-122 | `length` consecutive probes from any counter hit every index |
| ClusterState.ModUnique | lib/aerospike/cluster.rb:121 | the remainder of the index computation is unique |
| ClusterState.NoActiveNodeMissed | lib/aerospike/cluster.rb:114-131 | when every probe failed no node is active, so an active node is never missed |
| ClusterState.CommonFeaturesAreShared | lib/aerospike/cluster.rb:333-339 | a feature is common exactly when there are nodes and all of them have it |
| ClusterState.WithDefaultTlsNames | lib/aerospike/cluster.rb:75-79 | each seed keeps its name and port; a missing TLS name becomes the cluster id, or the host name when there is none |
| ClusterState.DefaultTlsNamesFill | lib/aerospike/cluster.rb:75-79 | a seed ends without a TLS name only when it had neither a TLS name nor a name and there is no cluster id; explicit TLS names stay |
| ClusterState.Cluster.constructor | lib/aerospike/cluster.rb:31-57 | empty node array, alias and partition maps; closed; credentials only when authentication is required; seeds TLS-defaulted by the corrected reading `ClusterState.TlsEnabled`, that is only when `:enable` is given and true (as written, `{enable: false}` defaults them too; see Findings) |
| ClusterState.TlsEnabledAsWritten | lib/aerospike/cluster.rb:71-73 | as written: TLS is on only when options were given |
| ClusterState.TlsEnabled | lib/aerospike/cluster.rb:71-73 | TLS is on only where the as-written reading also turns it on |
| ClusterState.TlsReadingsDiffer | lib/aerospike/cluster.rb:71-73 | the two readings differ exactly when `:enable` is given with a false value; `{enable: false}` is such a case |
| ClusterState.Cluster.AddSeeds | lib/aerospike/cluster.rb:81-85 | the hosts are appended to the seeds |
| ClusterState.Cluster.Close | lib/aerospike/cluster.rb:151-162 | an open cluster ends closed with every node inactive; a closed one is left unchanged; afterwards it is not connected |
| ClusterState.Cluster.ChangePassword | lib/aerospike/cluster.rb:203-206 | the password changes only for the same user |
| ClusterState.Cluster.RandomNode | lib/aerospike/cluster.rb:114-131 | the first active node among at most `length` probes, one counter step each; otherwise InvalidNode, also for an empty array |
| ClusterState.Cluster.GetNode | lib/aerospike/cluster.rb:99-111 | an active mapped node is returned without probing; otherwise `random_node`; a result is always active |
| ClusterState.Cluster.FindNodeByName | lib/aerospike/cluster.rb:608-610 | the first node of the array with that name; nil exactly when none has it |
| ClusterState.Cluster.GetNodeByName | lib/aerospike/cluster.rb:142-148 | succeeds exactly when some node has the name, returning such a node; otherwise InvalidNode |
| ClusterState.Cluster.AddAlias | lib/aerospike/cluster.rb:411-417 | the host maps to the node; nothing for a nil node |
| ClusterState.Cluster.RemoveAlias | lib/aerospike/cluster.rb:419-425 | the host is no longer a key, all other entries stay |
| ClusterState.Cluster.RemoveAliasesOf | lib/aerospike/cluster.rb:555-558 | every alias of the node is removed from the map and nothing else |
| ClusterState.Cluster.AddAliases | lib/aerospike/cluster.rb:532-538 | every alias of the node now leads to it; other entries stay |
| ClusterState.Cluster.FindNodesToRemove | lib/aerospike/cluster.rb:467-512 | only nodes of the array; inactive ones always; size 1: exactly the unhealthy; size 2: exactly when refresh count is 2, unreferenced and silent; size 3 or more: refresh count at least 2, unreferenced, and silent or owning no partition |
| ClusterState.Cluster.RemovalsFrom | lib/aerospike/cluster.rb:472-509 | a node is listed exactly when the policy removes it |
| ClusterState.Cluster.AddNodesCopy | lib/aerospike/cluster.rb:540-544 | the nodes are appended in order |
| ClusterState.Cluster.RemoveNodesCopy | lib/aerospike/cluster.rb:574-602 | the old array with exactly the name-matched nodes filtered out, in the original order |
| ClusterState.Cluster.RemoveNodes | lib/aerospike/cluster.rb:546-565 | removed nodes are inactive, their aliases leave the map, and the array is filtered as above |
| ClusterState.Cluster.AddNodes | lib/aerospike/cluster.rb:523-530 | the new nodes' aliases are registered (a later node wins) and the nodes appended |
| ClusterState.Cluster.SeedNodes | lib/aerospike/cluster.rb:363-404 | the created nodes are appended to the node array with their aliases registered; their names are exactly the new names of every seed's validations, in order (one node per validated name not seen before), pairwise distinct, each coming from a seed or one of its aliases |
| ClusterState.Cluster.SeedAll | lib/aerospike/cluster.rb:368-399 | the seed loop: the created names are exactly the new names of all the seeds' validations, in order, and stay distinct |
| ClusterState.Cluster.SeedOne | lib/aerospike/cluster.rb:370-399 | one seed: a seed that fails validation adds nothing; otherwise its alias loop runs; the names created so far plus those still to come stay the run's names |
| ClusterState.SeedProbes | lib/aerospike/cluster.rb:371-391 | no validations when the seed's own one fails; otherwise one per alias the seed reports |
| ClusterState.Cluster.SeedAliases | lib/aerospike/cluster.rb:380-397 | one seed's alias loop: the names of the nodes it adds are exactly the new names among its validations, given the names already in the list; the nodes are fresh, their aliases registered, and the list stays name-distinct |
| ClusterState.Cluster.SeedAlias | lib/aerospike/cluster.rb:382-396 | one alias: a successful validation with a name in neither list creates a node and appends its name; any other leaves the names as they are |
| ClusterState.FreshNamesCover | lib/aerospike/cluster.rb:392-396 | every successfully validated name is known afterwards: known before, or the name of a created node |
| ClusterState.FreshNamesAreNew | lib/aerospike/cluster.rb:392-396 | the created names were not known before, are pairwise distinct, and each is the name of a successful validation |
| ClusterState.FreshNamesAppend | lib/aerospike/cluster.rb:370-399 | two batches of validations run in turn create the names of the first, then those of the second given the first's |
| ClusterState.Cluster.FindNodesToAdd | lib/aerospike/cluster.rb:427-461 | creates exactly the nodes whose validated names are new, in order (a duplicate name creates none); reference counts never drop; new alias keys are among the hosts |
| ClusterState.Cluster.AdmitHost | lib/aerospike/cluster.rb:430-458 | one host: a new validated name appends one fresh node; a known or pending name or a failed validation appends none |
| ClusterState.Cluster.UpdateClusterFeatures | lib/aerospike/cluster.rb:333-339 | the features become those every node has (empty for no nodes) |
| ClusterState.NewNamesAt | lib/aerospike/cluster.rb:430-452 | the names created from position i: the host there, then the rest |
| ClusterState.AdmitStep | lib/aerospike/cluster.rb:430-452 | one round keeps the names created so far, plus those still to come, unchanged |
| ClusterState.NewNamesAreNew | lib/aerospike/cluster.rb:436-452 | the created names are pairwise distinct and none was known before |
| ClusterState.AliasesOfAppend | lib/aerospike/cluster.rb:523-530 | registering two lists of nodes in turn equals registering their concatenation |
| ClusterState.AliasesOfOwners | lib/aerospike/cluster.rb:532-538 | every alias registered for a list of nodes points at one of them |
| ClusterState.AliasSetStep | lib/aerospike/cluster.rb:552-558 | the aliases of one more node are added to the aliases removed |
| ClusterState.FirstNamed | lib/aerospike/cluster.rb:437 | the first node of the list with the name; nil exactly when none has it |
| Tending.StartCycle | lib/aerospike/cluster.rb:251-256 | every node's reference count is 0 and its partition flag cleared; peers stay in use only if every node supports them |
| Tending.StartCycleAsWritten | lib/aerospike/cluster.rb:251-256 | as written: NoMethodError exactly when some node lacks the peers feature; the nodes up to and including the first such node are reset, and nodes only after it are untouched |
| Tending.FirstWithoutPeers | lib/aerospike/cluster.rb:255 | the position of the first node without the peers feature: every node before it has the feature, and it is the length exactly when every node does |
| Tending.FirstWithoutPeersAt | lib/aerospike/cluster.rb:255 | a node without the feature whose predecessors all have it is the first such node |
| Tending.RefreshInfos | lib/aerospike/cluster.rb:259 | every node's info refresh runs and none raises; one outcome per node, as its reply decides (no reply is that failure, a pass means an accepted reply, and with peers an accepted reply passes); the refresh count grows by exactly the number of passes; in a node array without repeats every passed node ends in full health, responded and without failures, and every failed node has one failure more than before; without peers the generation flag is unchanged |
| Tending.InfoTurn | lib/aerospike/cluster.rb:259 | one turn of the info loop: the outcomes so far stay as their replies decide, the count follows the passes, and (without repeats) the refreshed nodes keep the state their outcome left them in while the nodes still to come keep their failure counts |
| Tending.InfoCall | lib/aerospike/node/refresh/info.rb:12-37 | one node's info refresh: its outcome as the reply decides, one more refreshed node exactly on a pass, full health, responded and no failures on a pass, one failure more on a failure, and no other node's state touched |
| Tending.RefreshAllPeers | lib/aerospike/cluster.rb:265 | every node's peers refresh runs in order until one ends in an error other than an Aerospike error, which is returned; the refresh count grows by exactly the refreshes that passed on a node that was, when the loop started, without failures and active, with a fetched list; only new nodes of their own name join the working set |
| Tending.PeersStep | lib/aerospike/cluster.rb:265 | one turn of the peers loop: the outcome joins the outcomes, the count follows them, and every later node whose fetch succeeds is still let through by the guard exactly as at the start |
| Tending.PeersTurn | lib/aerospike/node/refresh/peers.rb:8-46 | one node's peers refresh: one more refreshed node exactly when it passes on a node the guard lets through with a fetched list; the node's failures change only when the fetch failed; no other node's failures and no active flag change |
| Tending.RefreshCycle | lib/aerospike/cluster.rb:248-266 | one info outcome per tended node, each as its reply decides; without peers no generation moves; the peers refreshes run exactly when a peers generation moved (otherwise no peers outcome and a pass), and then pass exactly when all ran without an escaping error, else fail with that error, which is not an Aerospike error; the refresh count grows by exactly the info passes plus the counted peers passes |
| Tending.PeersPhase | lib/aerospike/cluster.rb:262-266 | the peers refreshes run exactly when a peers generation moved, with the same pass/fail shape; the count grows by exactly the counted peers passes, judged by the guard as the refreshes leave it |
| Tending.PeersCountedAgree | lib/aerospike/cluster.rb:265 | the counted peers passes depend on the guard only at nodes whose fetch succeeded |
| Tending.RemoveStale | lib/aerospike/cluster.rb:270-276 | when a peers generation moved or peers are not used, removes exactly the policy's list, otherwise nothing; the removed nodes are closed and unaliased, so afterwards (under that condition) a node of the array is inactive exactly when it was removed; the kept nodes keep their active flag and guard |
| Tending.AddFound | lib/aerospike/cluster.rb:279-282 | the working set's nodes, in insertion order, are appended with their aliases |
| Tending.Reconcile | lib/aerospike/cluster.rb:270-290 | the removal of `RemoveStale`, in both directions; then the working set's nodes are appended; features recomputed exactly when a node was removed or added |
| Tending.SeedIfEmpty | lib/aerospike/cluster.rb:242-246 | a non-empty cluster is left alone; an empty one gets fresh nodes whose names are exactly the new names of the seeds' validations, in order |
| Tending.Tend | lib/aerospike/cluster.rb:241-291 | an empty cluster is seeded as `SeedIfEmpty` states, a non-empty one tends its own nodes; peers used exactly when all tended nodes support them; one info outcome per node as its reply decides; peers refreshes exactly when a generation moved, with their pass/fail shape; the refresh count is exactly the info passes plus the counted peers passes; after a pass, removal happens only when a generation moved or peers are not used, and then a tended node is removed exactly when it is inactive; the node array is the kept nodes plus the working set's nodes; a failed refresh changes no membership; features recomputed exactly when the array changed |
| Tending.CycleOn | lib/aerospike/cluster.rb:248-290 | one cycle over the current node array: the refresh facts of `RefreshCycle`, then removal and addition as `Conclude` states, with the guard of every kept node as the cycle left it |
| Tending.Conclude | lib/aerospike/cluster.rb:270-290 | after a failed refresh nothing is removed or added; after a pass, when a peers generation moved or peers are not used, exactly the policy's list for the state the refreshes left is removed, and otherwise nothing; the additions are exactly the working set's nodes; features recomputed exactly when the array changed |
| Tending.AddPeerNodesAsWritten | lib/aerospike/cluster.rb:280 | as written, passing the Hash fails (NoMethodError when it has entries) and adds nothing |
| BatchIndex.Detect | lib/aerospike/command/batch_node_index.rb:51 | the first group whose node equals the key's node, or none |
| BatchIndex.GroupedSnoc | lib/aerospike/command/batch_node_index.rb:45-59 | one more key is one more round of the loop |
| BatchIndex.GroupOkExtends | lib/aerospike/command/batch_node_index.rb:45-59 | a sound group stays sound as the batch grows |
| BatchIndex.CoveredNode | lib/aerospike/command/batch_node_index.rb:51 | the node serving a covered position is the node of some group |
| BatchIndex.SoundOpen | lib/aerospike/command/batch_node_index.rb:53-54 | a key whose node has no group opens a sound group |
| BatchIndex.SoundJoin | lib/aerospike/command/batch_node_index.rb:55-57 | a key joining its node's group keeps every group sound |
| BatchIndex.OrderedStep | lib/aerospike/command/batch_node_index.rb:51-58 | each round keeps group nodes distinct and ordered by first appearance |
| BatchIndex.CoveringStep | lib/aerospike/command/batch_node_index.rb:45-59 | each round keeps all positions covered and covers the new one |
| BatchIndex.GroupedIsGrouping | lib/aerospike/command/batch_node_index.rb:45-59 | the groups split the batch: sound (offsets index their keys, strictly increasing), nodes distinct and ordered, every position covered |
| BatchIndex.ExactlyOneGroup | lib/aerospike/command/batch_node_index.rb:45-59 | each key lies in exactly one group, the group of the node that serves it |
| BatchIndex.TotalKeysUpdate | lib/aerospike/command/batch_node_index.rb:56-57 | replacing one group changes the total by the size difference |
| BatchIndex.GroupedTotal | lib/aerospike/command/batch_node_index.rb:45-59 | the group sizes add up to the number of keys |
| BatchIndex.BatchNodeIndex.constructor | lib/aerospike/command/batch_node_index.rb:64-69 | the node, the capacity, and one key at its offset |
| BatchIndex.BatchNodeIndex.Append | lib/aerospike/command/batch_node_index.rb:56-57 | key and offset appended together |
| BatchIndex.RouteKey | lib/aerospike/command/batch_node_index.rb:47-50 | the routed node is active, an error is InvalidNode, and an active mapped node is taken as is |
| BatchIndex.Place | lib/aerospike/command/batch_node_index.rb:51-58 | the group objects change exactly as one grouping round says, stay distinct and keep the capacity |
| BatchIndex.Step | lib/aerospike/command/batch_node_index.rb:46-58 | route one key, then place it |
| BatchIndex.GenerateList | lib/aerospike/command/batch_node_index.rb:32-61 | empty cluster: connection error; otherwise the groups are the grouping of the keys by their routed (active) nodes, with capacity `keys / nodes + 10` in integer division |

## Left out

- Sockets, TLS, connections and the connection pool (lib/aerospike/node.rb:51-103,200-206) are not modelled. A closed connection is a counter (`connectionsClosed`).
- Name resolution and probe connections in `NodeValidator` are not modelled. Which aliases were resolved, and what each probe gave, are inputs. Node validation elsewhere is a deterministic function from a host to a result (`Validator`).
- The info exchange and `Peers::Fetch` are inputs, so the `raise` inside the fetch is an error value of the input.
- `Partition.new_by_key` is an input (`partitionOf`).
- `Refresh::Partitions` and `Cluster#update_partitions` are not part of this model. No modelled step raises a node's partition flag, so that refresh never runs in `Tending.Tend`.
- The tend thread, `connect`, `wait_till_stablized`, the mutex, the atomics and the listener notification are not modelled. The tend cycle is sequential and the atomics are plain fields.
- Logging and `log_tend_stats` are left out.
- Password hashing is not modelled: the password is stored as given.
- `set_default_tls_host_names` mutates the Host objects. Hosts are values here, so the constructor stores the defaulted copies.
- host.rb is not part of this model: hosts compare by value.
- Trivial readers are not separate members because they are plain field reads: `get_host`, `get_name`, `get_aliases`, `use_new_info?`, `partition_changed?`, `seeds`, `nodes`, `partitions`, `set_partitions` and `set_nodes`.
- `Refresh::Peers` calls `NodeValidator.new` with four arguments (lib/aerospike/node/refresh/peers.rb:22); that call is modelled as validating `node.host`. The four arguments bind `ssl_options` to the `cluster_name` parameter (lib/aerospike/node_validator.rb:24). A node created there therefore carries the SSL options as its cluster name: with options given, it fails its next cluster-name check and is deactivated; with none, it has no cluster-name filter. The model's single `Validator` gives such a node the identity it returns for the host, so this consequence is not modelled.
- The peers refresh validates `node.host` once per advertised host, instead of the advertised host itself (lib/aerospike/node/refresh/peers.rb:22). When that validation names the refreshing node, no peer is ever added; `NodeRefresh.RefreshPeers` states this case. A corrected peers refresh that validates the advertised hosts is not part of this model.
- The `FindNode` branch of `prepare` (lib/aerospike/node/refresh/friends.rb:63-69) cannot be reached after the two lookups before it, so `NodeRefresh.Prepare` has no such branch.
- The parse spec's two-peer example (generation 3, port 3144, two peers) is not proved as a literal. Its shape is covered by `PeerGrammar.ResponseFields`, `PeerGrammar.PeerFields` and `PeerGrammar.HostsAreOneList`.
- StringParsing.StringParser.Step: the cursor counts characters, while `StringIO#read(n)`, `tell` and `String#[]` on the position (lib/aerospike/utils/string_parser.rb:11-13,16-18,30-32) mix bytes and characters; the two agree only on ASCII text, which is what the server sends in peer lists.
- Base.DigitPrefixLength: an underscore between two digits ends the digit run, where Ruby's `to_i` skips it (`"1_000".to_i` is 1000); `Base.ToI` inherits this. The generation numbers the server sends are plain digit strings.
- Tending.RefreshInfos: states each node's state after the loop only for a node array without repeats. A node listed twice is refreshed twice, and its final state is then the later refresh's.
- ClusterState.Cluster.FindNodesToAdd: does not state the exact reference-count increment and alias entry for each duplicate host, only that counts never drop and new alias keys come from the hosts. The per-host effect is stated by `ClusterState.Cluster.AdmitHost` for new names only.
- NodeRefresh.Friends: states the hosts that may be added and the counts, not the per-entry effect. The per-entry effect is stated by `NodeRefresh.Befriend`.
- NodeRefresh.ChecksWithoutPeers: a pass implies an accepted reply, but the converse is not stated. The friends refresh can fail on a non-Aerospike validation error even when the reply is accepted.
- NodeRefresh.AdmitPeers: states reference counts across the loop only as never decreasing. The count a known peer adds to its node (lib/aerospike/node/refresh/peers.rb:16) is stated per peer by `NodeRefresh.AdmitPeer`, not summed over the list.
- NodeRefresh.RefreshPeers: inherits the reference-count statement of `NodeRefresh.AdmitPeers`. When a validation failed, the generation of a node created during the loop is not stated.
- Tending.Tend: does not restate the alias map after the friends refresh; it states membership only.
- BatchIndex.GenerateList: states that each routed node is active. Which node `get_node` picks for a key is stated once by `ClusterState.Cluster.GetNode` and not repeated per key.

## Findings

| source | as written | input that shows it | evidently intended | confidence | as-written member | corrected member |
|---|---|---|---|---|---|---|
| lib/aerospike/node/refresh/friends.rb:23 | the alias lookup overwrites `node`, so the next entry reads `node.cluster` from nil, and an unknown entry reaches `prepare` with nil | a services value `10.0.0.9:3000` whose host is neither an alias nor pending | look up with a separate variable and prepare unknown hosts | high (not executed) | NodeRefresh.FriendsAsWritten | NodeRefresh.Friends |
| lib/aerospike/node/refresh/friends.rb:35-43 | `prepare` reads `node.cluster` from the nil it was given; with a node, `node.timeout` has no reader (and `NodeValidator.new` takes at most five arguments, not six) | any host that reaches `prepare` | validate the host with the validator's own arguments and register it | high (not executed) | NodeRefresh.PrepareAsWritten | NodeRefresh.Prepare |
| lib/aerospike/node/verify/cluster_name.rb:11 | the error message interpolates `cluster_name`, which is undefined there, so a NameError is raised instead of the invalid-node error | a node with cluster-name filter `a` and a reply with `cluster-name` `b` | raise the invalid-node error (the node is already inactive) | high (not executed) | NodeVerify.ClusterNameAsWritten | NodeVerify.ClusterName |
| lib/aerospike/node/refresh/info.rb:17,20 | `Verify::PartitionGeneration` is called with three arguments but takes two, so every refresh that reaches it fails | any reply, with peers not in use | call it with the node and the reply | high (not executed) | NodeRefresh.InfoAsWritten | NodeRefresh.Info |
| lib/aerospike/cluster/peer/parse.rb:13,17 | without a match, `port` is nil and `port.empty?` raises NoMethodError, where the revision's own test expects a parse error | `,,` | raise a parse error, as the newer revision does | high (not executed) | ClusterPeerParse.Call | PeersParse.Call |
| lib/aerospike/cluster.rb:280 | `add_nodes(peers.nodes)` passes the Hash, whose `each` yields `[name, node]` pairs, so `add_aliases` calls `get_aliases` on an Array | a tend cycle whose working set gained one node | pass `peers.nodes.values` | high (not executed) | Tending.AddPeerNodesAsWritten | Tending.AddFound |
| lib/aerospike/cluster.rb:255 | `peers.use_peers` holds `true`, and `true.value = false` raises NoMethodError, so a tend cycle raises before any refresh as soon as one node lacks the peers feature | a cluster with one node whose features do not include `peers` | `peers.use_peers = false` | high (not executed) | Tending.StartCycleAsWritten | Tending.StartCycle |
| lib/aerospike/node/refresh/peers.rb:11 | `Node` defines no `tend_connection`, so every peers refresh that passes the guard raises NoMethodError, which its `rescue` does not catch | an active node without failures in a cycle whose peers generation changed | fetch over the node's tend connection | high (not executed) | NodeRefresh.RefreshPeersAsWritten | NodeRefresh.RefreshPeers |
| lib/aerospike/cluster.rb:71-73 | `tls_enabled?` is `key?(:enable)`, so options that disable TLS turn it on, where spec/aerospike/cluster_spec.rb:93-96 expects false | `ssl_options` of `{enable: false}` | TLS on only when `:enable` is given and true, the reading `ClusterState.Cluster.constructor` uses | high (not executed) | ClusterState.TlsEnabledAsWritten | ClusterState.TlsEnabled |
| lib/aerospike/cluster/find_node.rb:9 | `cluster.find_node_by_name` calls a method declared after `private` (lib/aerospike/cluster.rb:224) with an explicit receiver, which raises NoMethodError | any call, e.g. from the peers refresh at lib/aerospike/node/refresh/peers.rb:16 | make `find_node_by_name` public | high (not executed) | FindNode.CallAsWritten | FindNode.Call |

=== FILE: base.dfy ===
/** Results, options and the errors the client raises, plus the few pieces of
    Ruby's String behaviour the parsers rely on (`to_i`, `split`). */
module Base {

  datatype Option<+T> = None | Some(value: T)

  /** The exceptions that can leave the modelled code. */
  datatype Error =
    | ParseError                  // Aerospike::Exceptions::Parse
    | InvalidNodeError(reason: string)  // Exceptions::Aerospike with INVALID_NODE_ERROR
    | InvalidNode                 // Exceptions::InvalidNode (no active node to route to)
    | ConnectionError             // Exceptions::Connection
    | ServerError                 // any other Aerospike exception raised by a collaborator
    | KeyError                    // Hash#fetch of a missing key
    | NoMethodError               // a method that is undefined, or private, for its receiver
    | NameError                   // an undefined local variable
    | TypeError
    | ArgumentError               // a method called with the wrong number of arguments
    | Diverges                    // the source loops forever instead of raising
  {
    /** The exceptions that `rescue ::Aerospike::Exceptions::Aerospike` catches. */
    predicate IsAerospike() {
      ParseError? || InvalidNodeError? || InvalidNode? || ConnectionError? || ServerError?
    }
  }

  datatype Result<+T> = Ok(value: T) | Err(error: Error) {
    predicate IsFailure() { Err? }

    function PropagateFailure<U>(): Result<U>
      requires Err?
    {
      Err(error)
    }

    function Extract(): T
      requires Ok?
    {
      value
    }
  }

  datatype Outcome = Pass | Fail(error: Error)

  /** `Aerospike::Host` as the cluster code uses it: a name, an integer port
      and an optional TLS name. */
  datatype Host = Host(name: Option<string>, port: int, tlsName: Option<string>)

  /** The reply to an info request: command name to value. */
  type InfoMap = map<string, string>

  function Get(m: InfoMap, key: string): (r: Option<string>)
    ensures r.Some? <==> key in m
    ensures r.Some? ==> r.value == m[key]
  {
    if key in m then Some(m[key]) else None
  }

  // ---------------------------------------------------------------------
  // String#to_i

  predicate IsDigit(c: char) { '0' <= c <= '9' }

  predicate AllDigits(s: string) { forall i | 0 <= i < |s| :: IsDigit(s[i]) }

  predicate IsSpace(c: char) {
    c == ' ' || c == '\t' || c == '\n' || c == '\r' || c == '\U{B}' || c == '\U{C}'
  }

  /** Value of a string of decimal digits, most significant first. */
  function DigitsValue(s: string): (v: nat)
    requires AllDigits(s)
  {
    if s == [] then 0 else DigitsValue(s[..|s| - 1]) * 10 + (s[|s| - 1] - '0') as nat
  }

  /** Length of the run of digits that starts `s`. */
  function DigitPrefixLength(s: string): (k: nat)
    ensures k <= |s|
    ensures AllDigits(s[..k])
    ensures k < |s| ==> !IsDigit(s[k])
  {
    if s == [] || !IsDigit(s[0]) then 0
    else
      var k := 1 + DigitPrefixLength(s[1..]);
      assert s[..k] == [s[0]] + s[1..][..k - 1];
      k
  }

  /** End of the run of digits that starts at `p`. */
  function DigitRunEnd(s: string, p: nat): (q: nat)
    requires p <= |s|
    ensures p <= q <= |s| && AllDigits(s[p..q])
    ensures q < |s| ==> !IsDigit(s[q])
  {
    var k := DigitPrefixLength(s[p..]);
    assert s[p..][..k] == s[p..p + k];
    p + k
  }

  function SkipSpace(s: string): (t: string)
    ensures |t| <= |s| && t == s[|s| - |t|..]
    ensures t != [] ==> !IsSpace(t[0])
  {
    if s != [] && IsSpace(s[0]) then SkipSpace(s[1..]) else s
  }

  /** Ruby's `String#to_i`: leading white space, an optional sign, then the
      leading decimal digits; 0 when there are none. An underscore between
      two digits, which Ruby skips, ends the digits here. */
  function ToI(s: string): int
  {
    var t := SkipSpace(s);
    if t != [] && (t[0] == '-' || t[0] == '+') then
      var d := t[1..][..DigitPrefixLength(t[1..])];
      if t[0] == '-' then 0 - DigitsValue(d) as int else DigitsValue(d)
    else
      DigitsValue(t[..DigitPrefixLength(t)])
  }

  /** `nil.to_i` is 0. */
  function OptToI(s: Option<string>): int
  {
    if s.Some? then ToI(s.value) else 0
  }

  lemma {:induction false} DigitPrefixOfDigits(s: string)
    requires AllDigits(s)
    ensures DigitPrefixLength(s) == |s|
  {
    if s != [] {
      DigitPrefixOfDigits(s[1..]);
    }
  }

  /** On a non-empty digit string `to_i` is the plain decimal value. */
  lemma ToIOfDigits(s: string)
    requires s != [] && AllDigits(s)
    ensures ToI(s) == DigitsValue(s)
  {
    assert SkipSpace(s) == s;
    DigitPrefixOfDigits(s);
    assert s[..|s|] == s;
  }

  // ---------------------------------------------------------------------
  // String#split with a one-character separator

  /** Every field between separators, trailing empty ones included. */
  function Fields(s: string, c: char): (r: seq<string>)
    ensures |r| >= 1
  {
    if s == [] then [""]
    else
      var rest := Fields(s[1..], c);
      if s[0] == c then [""] + rest else [[s[0]] + rest[0]] + rest[1..]
  }

  function DropTrailingEmpty(fs: seq<string>): (r: seq<string>)
    ensures |r| <= |fs| && r == fs[..|r|]
    ensures r != [] ==> r[|r| - 1] != ""
    ensures forall i | |r| <= i < |fs| :: fs[i] == ""
  {
    if fs == [] then []
    else if fs[|fs| - 1] == "" then DropTrailingEmpty(fs[..|fs| - 1])
    else fs
  }

  /** Ruby's `str.split(c)`: the fields, with trailing empty fields removed
      (so `"".split(c)` is empty). */
  function Split(s: string, c: char): seq<string>
  {
    DropTrailingEmpty(Fields(s, c))
  }

  function Join(fs: seq<string>, c: char): string
    requires fs != []
  {
    if |fs| == 1 then fs[0] else fs[0] + [c] + Join(fs[1..], c)
  }

  lemma {:induction false} FieldsHaveNoSeparator(s: string, c: char)
    ensures forall i | 0 <= i < |Fields(s, c)| :: c !in Fields(s, c)[i]
  {
    if s != [] {
      FieldsHaveNoSeparator(s[1..], c);
    }
  }

  /** Joining the fields back with the separator gives the input. */
  lemma {:induction false} JoinFields(s: string, c: char)
    ensures Join(Fields(s, c), c) == s
  {
    if s != [] {
      var rest := Fields(s[1..], c);
      JoinFields(s[1..], c);
      if s[0] == c {
        assert Fields(s, c)[1..] == rest;
      } else if |rest| == 1 {
        assert Join(Fields(s, c), c) == [s[0]] + rest[0];
      } else {
        var fs := Fields(s, c);
        assert fs[1..] == rest[1..];
        assert Join(rest, c) == rest[0] + [c] + Join(rest[1..], c);
      }
    }
  }

  /** Splitting a join of separator-free fields gives the fields back. */
  lemma {:induction false} FieldsOfJoin(fs: seq<string>, c: char)
    requires fs != []
    requires forall i | 0 <= i < |fs| :: c !in fs[i]
    ensures Fields(Join(fs, c), c) == fs
  {
    if |fs| == 1 {
      FieldsOfWord(fs[0], c);
    } else {
      FieldsOfJoin(fs[1..], c);
      FieldsOfWordThen(fs[0], c, Join(fs[1..], c));
    }
  }

  lemma {:induction false} FieldsOfWord(w: string, c: char)
    requires c !in w
    ensures Fields(w, c) == [w]
  {
    if w != [] {
      FieldsOfWord(w[1..], c);
      assert [w[0]] + w[1..] == w;
    }
  }

  lemma {:induction false} FieldsOfWordThen(w: string, c: char, t: string)
    requires c !in w
    ensures Fields(w + [c] + t, c) == [w] + Fields(t, c)
  {
    if w == [] {
      assert ([] + [c] + t)[1..] == t;
    } else {
      assert (w + [c] + t)[1..] == w[1..] + [c] + t;
      FieldsOfWordThen(w[1..], c, t);
      assert [w[0]] + w[1..] == w;
    }
  }

  /** `split` round trip: separator-free fields whose last one is not empty
      come back unchanged. */
  lemma SplitJoin(fs: seq<string>, c: char)
    requires fs != [] && fs[|fs| - 1] != ""
    requires forall i | 0 <= i < |fs| :: c !in fs[i]
    ensures Split(Join(fs, c), c) == fs
  {
    FieldsOfJoin(fs, c);
  }
}

=== FILE: batch_node_index.dfy ===
/** `BatchNodeIndex` (lib/aerospike/command/batch_node_index.rb): a batch of
    keys is split by the node that serves each key's partition, one group
    per node, keeping each key's position in the batch. The key-to-partition
    hash is an input. */
module BatchIndex {
  import opened Base
  import opened NodeState
  import opened ClusterState

  /** The value of one group: its node, its keys and their positions. */
  datatype Group<K> = Group(node: Node, keys: seq<K>, offsets: seq<nat>)

  /** `batch_nodes.detect { |bn| bn.node == node }`: the first group whose
      node equals `n` (node equality compares names), or `|gs|` when there
      is none. */
  function Detect<K>(gs: seq<Group<K>>, n: Node): (g: nat)
    ensures g <= |gs|
    ensures forall j | 0 <= j < g :: gs[j].node.name != n.name
    ensures g < |gs| ==> gs[g].node.name == n.name
  {
    if gs == [] then 0
    else if gs[0].node.SameAs(n) then 0
    else 1 + Detect(gs[1..], n)
  }

  /** One round of `generate_list`: key `key` at position `i`, served by `n`,
      joins the first group of its node or opens a new group. */
  function AddKey<K>(gs: seq<Group<K>>, n: Node, key: K, i: nat): seq<Group<K>>
  {
    var g := Detect(gs, n);
    if g == |gs| then gs + [Group(n, [key], [i])]
    else gs[g := gs[g].(keys := gs[g].keys + [key], offsets := gs[g].offsets + [i])]
  }

  /** The groups `generate_list` builds for `keys` when the i-th key is
      served by `routed[i]`. */
  function Grouped<K>(keys: seq<K>, routed: seq<Node>): seq<Group<K>>
    requires |keys| == |routed|
  {
    if keys == [] then []
    else
      var k := |keys| - 1;
      AddKey(Grouped(keys[..k], routed[..k]), routed[k], keys[k], k)
  }

  /** `Grouped` takes one more key as one more round of `AddKey`. */
  lemma GroupedSnoc<K>(keys: seq<K>, routed: seq<Node>, key: K, n: Node)
    requires |keys| == |routed|
    ensures Grouped(keys + [key], routed + [n]) == AddKey(Grouped(keys, routed), n, key, |keys|)
  {
    assert (keys + [key])[..|keys|] == keys && (routed + [n])[..|keys|] == routed;
  }

  /** A group is sound: as many keys as positions, every position in range
      holding that key and served by the group's node, positions strictly
      increasing, and the group's node is the one that served its first
      key, which is the first key its node serves. */
  ghost predicate GroupOk<K>(gr: Group<K>, keys: seq<K>, routed: seq<Node>)
  {
    && |gr.offsets| == |gr.keys| > 0
    && (forall j | 0 <= j < |gr.offsets| ::
          gr.offsets[j] < |keys| && gr.offsets[j] < |routed|
          && keys[gr.offsets[j]] == gr.keys[j] && routed[gr.offsets[j]].name == gr.node.name)
    && (forall j1, j2 | 0 <= j1 < j2 < |gr.offsets| :: gr.offsets[j1] < gr.offsets[j2])
    && gr.offsets[0] < |routed| && gr.node == routed[gr.offsets[0]]
    && (forall i | 0 <= i < gr.offsets[0] :: routed[i].name != gr.node.name)
  }

  ghost predicate AllSound<K>(gs: seq<Group<K>>, keys: seq<K>, routed: seq<Node>)
  {
    forall g | 0 <= g < |gs| :: GroupOk(gs[g], keys, routed)
  }

  /** The position of a group's first key. */
  function First<K>(gr: Group<K>): nat
  {
    if gr.offsets == [] then 0 else gr.offsets[0]
  }

  /** The groups' nodes are pairwise distinct and in order of first appearance. */
  ghost predicate Ordered<K>(gs: seq<Group<K>>)
  {
    forall g1, g2 | 0 <= g1 < g2 < |gs| :: gs[g1].node.name != gs[g2].node.name && First(gs[g1]) < First(gs[g2])
  }

  ghost predicate Covered<K>(gs: seq<Group<K>>, i: nat)
  {
    exists g | 0 <= g < |gs| :: i in gs[g].offsets
  }

  /** Every position below `n` belongs to a group. */
  ghost predicate Covering<K>(gs: seq<Group<K>>, n: nat)
  {
    forall i | 0 <= i < n :: Covered(gs, i)
  }

  /** The groups split the batch: every group is sound, the groups' nodes
      are pairwise distinct and in order of first appearance, and every
      position belongs to a group. */
  ghost predicate Grouping<K>(gs: seq<Group<K>>, keys: seq<K>, routed: seq<Node>)
  {
    |keys| == |routed| && AllSound(gs, keys, routed) && Ordered(gs) && Covering(gs, |keys|)
  }

  /** A sound group stays sound when the batch grows at the end. */
  lemma GroupOkExtends<K>(gr: Group<K>, keys: seq<K>, routed: seq<Node>, key: K, n: Node)
    requires GroupOk(gr, keys, routed) && |keys| == |routed|
    ensures GroupOk(gr, keys + [key], routed + [n])
  {
    assert forall o | 0 <= o < |keys| :: (keys + [key])[o] == keys[o] && (routed + [n])[o] == routed[o];
  }

  /** The node serving a covered position is the node of some group. */
  lemma CoveredNode<K>(gs: seq<Group<K>>, keys: seq<K>, routed: seq<Node>, i: nat) returns (g: nat)
    requires AllSound(gs, keys, routed) && Covered(gs, i)
    ensures g < |gs| && i in gs[g].offsets && i < |routed| && routed[i].name == gs[g].node.name
  {
    g :| 0 <= g < |gs| && i in gs[g].offsets;
    assert GroupOk(gs[g], keys, routed);
    var j :| 0 <= j < |gs[g].offsets| && gs[g].offsets[j] == i;
  }

  /** A key whose node has no group opens a sound group; the others stay sound. */
  lemma {:induction false} SoundOpen<K>(gs: seq<Group<K>>, keys: seq<K>, routed: seq<Node>, key: K, n: Node)
    requires |keys| == |routed| && AllSound(gs, keys, routed) && Covering(gs, |keys|)
    requires Detect(gs, n) == |gs|
    ensures AllSound(gs + [Group(n, [key], [|keys|])], keys + [key], routed + [n])
  {
    var keys', routed' := keys + [key], routed + [n];
    var gs' := gs + [Group(n, [key], [|keys|])];
    forall g | 0 <= g < |gs|
      ensures GroupOk(gs'[g], keys', routed')
    {
      GroupOkExtends(gs[g], keys, routed, key, n);
    }
    forall i0 | 0 <= i0 < |keys|
      ensures routed'[i0].name != n.name
    {
      var g0 := CoveredNode(gs, keys, routed, i0);
    }
    assert GroupOk(gs'[|gs|], keys', routed');
  }

  /** A key whose node has group `g` keeps that group and the others sound. */
  lemma {:induction false} SoundJoin<K>(gs: seq<Group<K>>, keys: seq<K>, routed: seq<Node>, key: K, n: Node, g: nat)
    requires |keys| == |routed| && AllSound(gs, keys, routed)
    requires g < |gs| && gs[g].node.name == n.name
    ensures AllSound(gs[g := gs[g].(keys := gs[g].keys + [key], offsets := gs[g].offsets + [|keys|])],
                     keys + [key], routed + [n])
  {
    var keys', routed' := keys + [key], routed + [n];
    var gr := gs[g];
    var gr' := gr.(keys := gr.keys + [key], offsets := gr.offsets + [|keys|]);
    forall h | 0 <= h < |gs| && h != g
      ensures GroupOk(gs[h], keys', routed')
    {
      GroupOkExtends(gs[h], keys, routed, key, n);
    }
    GroupOkExtends(gr, keys, routed, key, n);
    assert GroupOk(gr, keys, routed);
    assert forall j | 0 <= j < |gr.offsets| :: gr'.offsets[j] == gr.offsets[j] && gr'.keys[j] == gr.keys[j];
    assert GroupOk(gr', keys', routed');
  }

  /** One round keeps the groups ordered. */
  lemma {:induction false} OrderedStep<K>(gs: seq<Group<K>>, keys: seq<K>, routed: seq<Node>, key: K, n: Node)
    requires AllSound(gs, keys, routed) && Ordered(gs)
    ensures Ordered(AddKey(gs, n, key, |keys|))
  {
    var g := Detect(gs, n);
    var gs' := AddKey(gs, n, key, |keys|);
    if g == |gs| {
      forall g1 | 0 <= g1 < |gs|
        ensures First(gs[g1]) < |keys|
      {
        assert GroupOk(gs[g1], keys, routed);
      }
    } else {
      assert forall h | 0 <= h < |gs| :: gs'[h].node == gs[h].node && First(gs'[h]) == First(gs[h]);
    }
  }

  /** One round keeps every position covered and covers the new one. */
  lemma {:induction false} CoveringStep<K>(gs: seq<Group<K>>, keys: seq<K>, key: K, n: Node)
    requires Covering(gs, |keys|)
    ensures Covering(AddKey(gs, n, key, |keys|), |keys| + 1)
  {
    var g := Detect(gs, n);
    var gs' := AddKey(gs, n, key, |keys|);
    forall i0 | 0 <= i0 < |keys| + 1
      ensures Covered(gs', i0)
    {
      if i0 == |keys| {
        assert i0 in gs'[if g == |gs| then |gs| else g].offsets;
      } else {
        assert Covered(gs, i0);
        var h :| 0 <= h < |gs| && i0 in gs[h].offsets;
        assert i0 in gs'[h].offsets;
      }
    }
  }

  /** `generate_list` splits the batch: `Grouped` is a grouping. */
  lemma {:induction false} GroupedIsGrouping<K>(keys: seq<K>, routed: seq<Node>)
    requires |keys| == |routed|
    ensures Grouping(Grouped(keys, routed), keys, routed)
  {
    if keys != [] {
      var k := |keys| - 1;
      var keys0, routed0 := keys[..k], routed[..k];
      GroupedIsGrouping(keys0, routed0);
      var gs := Grouped(keys0, routed0);
      assert keys == keys0 + [keys[k]] && routed == routed0 + [routed[k]];
      var g := Detect(gs, routed[k]);
      if g == |gs| {
        SoundOpen(gs, keys0, routed0, keys[k], routed[k]);
      } else {
        SoundJoin(gs, keys0, routed0, keys[k], routed[k], g);
      }
      OrderedStep(gs, keys0, routed0, keys[k], routed[k]);
      CoveringStep(gs, keys0, keys[k], routed[k]);
    }
  }

  /** Each position lies in exactly one group: the one of the node serving it. */
  lemma ExactlyOneGroup<K>(keys: seq<K>, routed: seq<Node>, i: nat, g1: nat, g2: nat)
    requires |keys| == |routed| && i < |keys|
    requires var gs := Grouped(keys, routed);
      g1 < |gs| && g2 < |gs| && i in gs[g1].offsets && i in gs[g2].offsets
    ensures g1 == g2
    ensures Grouped(keys, routed)[g1].node.name == routed[i].name
  {
    GroupedIsGrouping(keys, routed);
    var gs := Grouped(keys, routed);
    assert GroupOk(gs[g1], keys, routed) && GroupOk(gs[g2], keys, routed);
    var j1 :| 0 <= j1 < |gs[g1].offsets| && gs[g1].offsets[j1] == i;
    var j2 :| 0 <= j2 < |gs[g2].offsets| && gs[g2].offsets[j2] == i;
  }

  /** Number of keys over all groups. */
  function TotalKeys<K>(gs: seq<Group<K>>): nat
  {
    if gs == [] then 0 else TotalKeys(gs[..|gs| - 1]) + |gs[|gs| - 1].keys|
  }

  lemma {:induction false} TotalKeysUpdate<K>(gs: seq<Group<K>>, g: nat, gr: Group<K>)
    requires g < |gs|
    ensures TotalKeys(gs[g := gr]) == TotalKeys(gs) - |gs[g].keys| + |gr.keys|
  {
    var k := |gs| - 1;
    if g < k {
      TotalKeysUpdate(gs[..k], g, gr);
      assert gs[g := gr][..k] == gs[..k][g := gr];
    } else {
      assert gs[g := gr][..k] == gs[..k];
    }
  }

  /** The group sizes add up to the batch size. */
  lemma {:induction false} GroupedTotal<K>(keys: seq<K>, routed: seq<Node>)
    requires |keys| == |routed|
    ensures TotalKeys(Grouped(keys, routed)) == |keys|
  {
    if keys != [] {
      var k := |keys| - 1;
      GroupedTotal(keys[..k], routed[..k]);
      var gs := Grouped(keys[..k], routed[..k]);
      var g := Detect(gs, routed[k]);
      if g == |gs| {
        assert (gs + [Group(routed[k], [keys[k]], [k])])[..|gs|] == gs;
      } else {
        TotalKeysUpdate(gs, g, gs[g].(keys := gs[g].keys + [keys[k]], offsets := gs[g].offsets + [k]));
      }
    }
  }

  /** One `BatchNodeIndex`: the node, the capacity hint, and the keys with
      their positions in the batch, appended to in place. */
  class BatchNodeIndex<K> {
    const node: Node
    const keyCapacity: int
    var keys: seq<K>
    var offsets: seq<nat>

    /** `BatchNodeIndex.new(node, key_capacity, key, offset)`: a group of one key. */
    constructor (node: Node, keyCapacity: int, key: K, offset: nat)
      ensures this.node == node && this.keyCapacity == keyCapacity
      ensures keys == [key] && offsets == [offset]
    {
      this.node := node;
      this.keyCapacity := keyCapacity;
      keys := [key];
      offsets := [offset];
    }

    /** `keys << key` and `offsets << offset`. */
    method Append(key: K, offset: nat)
      modifies this`keys, this`offsets
      ensures keys == old(keys) + [key] && offsets == old(offsets) + [offset]
    {
      keys := keys + [key];
      offsets := offsets + [offset];
    }

    function View(): Group<K>
      reads this
    {
      Group(node, keys, offsets)
    }
  }

  /** The values of a list of groups. */
  function Views<K>(bs: seq<BatchNodeIndex<K>>): (r: seq<Group<K>>)
    reads set b | b in bs
    ensures |r| == |bs| && forall j | 0 <= j < |bs| :: r[j] == bs[j].View()
  {
    if bs == [] then [] else Views(bs[..|bs| - 1]) + [bs[|bs| - 1].View()]
  }

  /** `get_node` only hands out active nodes. */
  predicate AllActive(ns: seq<Node>)
    reads set n | n in ns
  {
    forall j | 0 <= j < |ns| :: ns[j].active
  }

  /** `Partition.new_by_key(key)` then `cluster.get_node(partition)`: the
      node that serves the key, always an active one. */
  method RouteKey<K>(c: Cluster, key: K, partitionOf: K -> (string, int)) returns (r: Result<Node>)
    modifies c`nodeIndex
    ensures r.Ok? ==> r.value.active
    ensures r.Err? ==> r.error == InvalidNode
    ensures var n := c.MappedNode(partitionOf(key).0, partitionOf(key).1);
      n != null && n.active ==> r == Ok(n)
  {
    var (namespace, partitionId) := partitionOf(key);
    r := c.GetNode(namespace, partitionId);
  }

  /** No group object occurs twice in the list. */
  predicate Distinct<K>(bs: seq<BatchNodeIndex<K>>)
  {
    forall g1, g2 | 0 <= g1 < g2 < |bs| :: bs[g1] != bs[g2]
  }

  /** The body of the `each_with_index` loop: the key joins the group `detect`
      finds, in place, or a new `BatchNodeIndex` is appended to the list. */
  method Place<K>(bs: seq<BatchNodeIndex<K>>, node: Node, keyCapacity: int, key: K, i: nat, ghost routed: seq<Node>)
    returns (next: seq<BatchNodeIndex<K>>)
    requires Distinct(bs) && AllActive(routed) && forall b | b in bs :: b.keyCapacity == keyCapacity
    modifies set b | b in bs
    ensures Distinct(next) && AllActive(routed)
    ensures Views(next) == AddKey(old(Views(bs)), node, key, i)
    ensures forall b | b in next :: b.keyCapacity == keyCapacity && (b in bs || fresh(b))
  {
    ghost var before := Views(bs);
    var g := Detect(Views(bs), node);
    if g == |bs| {
      var b := new BatchNodeIndex(node, keyCapacity, key, i);
      next := bs + [b];
      assert Views(next) == before + [b.View()];
    } else {
      bs[g].Append(key, i);
      next := bs;
      assert forall j | 0 <= j < |bs| && j != g :: bs[j].View() == before[j];
      assert Views(next) == before[g := before[g].(keys := before[g].keys + [key], offsets := before[g].offsets + [i])];
    }
  }

  /** One key of `generate_list`: route it, then place it in its node's
      group. On a routing error nothing is placed. */
  method Step<K>(c: Cluster, bs: seq<BatchNodeIndex<K>>, keyCapacity: int, key: K, i: nat,
                 partitionOf: K -> (string, int), ghost routed: seq<Node>)
    returns (r: Result<Node>, next: seq<BatchNodeIndex<K>>)
    requires Distinct(bs) && AllActive(routed) && forall b | b in bs :: b.keyCapacity == keyCapacity
    modifies c`nodeIndex, set b | b in bs
    ensures r.Err? ==> r.error == InvalidNode
    ensures r.Ok? ==>
      && Distinct(next) && AllActive(routed + [r.value])
      && Views(next) == AddKey(old(Views(bs)), r.value, key, i)
      && forall b | b in next :: b.keyCapacity == keyCapacity && (b in bs || fresh(b))
  {
    next := bs;
    r := RouteKey(c, key, partitionOf);
    if r.Ok? {
      next := Place(bs, r.value, keyCapacity, key, i, routed + [r.value]);
    }
  }

  /** `generate_list(cluster, keys)`: an empty cluster is a connection error;
      otherwise each key in turn is routed with `get_node` on its partition
      (whose error ends the call) and joins its node's group. `routed`
      returns the node chosen for each key, so that the result can be stated
      as `Grouped(keys, routed)`. Every group has the capacity hint
      `|keys| / |nodes| + 10`. */
  method GenerateList<K>(c: Cluster, keys: seq<K>, partitionOf: K -> (string, int))
    returns (r: Result<seq<BatchNodeIndex<K>>>, routed: seq<Node>)
    modifies c`nodeIndex
    ensures old(c.nodes) == [] ==> r == Err(ConnectionError) && routed == []
    ensures r.Err? ==> r.error == ConnectionError || r.error == InvalidNode
    ensures r.Ok? ==>
      && |routed| == |keys|
      && Views(r.value) == Grouped(keys, routed)
      && AllActive(routed)
      && (forall b | b in r.value :: fresh(b) && b.keyCapacity == |keys| / |c.nodes| + 10)
  {
    routed := [];
    var nodes := c.nodes;
    if |nodes| == 0 {
      return Err(ConnectionError), routed;
    }
    var keysPerNode := |keys| / |nodes| + 10;
    var batchNodes: seq<BatchNodeIndex<K>> := [];
    var i := 0;
    while i < |keys|
      invariant i <= |keys| && |routed| == i && c.nodes == nodes
      invariant Distinct(batchNodes) && AllActive(routed)
      invariant forall b | b in batchNodes :: fresh(b) && b.keyCapacity == keysPerNode
      invariant Views(batchNodes) == Grouped(keys[..i], routed)
    {
      var got, next := Step(c, batchNodes, keysPerNode, keys[i], i, partitionOf, routed);
      if got.Err? {
        return Err(got.error), routed;
      }
      GroupedSnoc(keys[..i], routed, keys[i], got.value);
      assert keys[..i + 1] == keys[..i] + [keys[i]];
      batchNodes, routed := next, routed + [got.value];
      i := i + 1;
    }
    assert keys[..i] == keys;
    r := Ok(batchNodes);
  }
}

=== FILE: cluster.dfy ===
/** The cluster's node bookkeeping (lib/aerospike/cluster.rb): the node
    array, the alias map and the partition map, node routing, the graduated
    removal policy and the copy-on-write updates of the node array. The mutex
    and atomic wrappers are plain fields; the tend cycle is in Tending. */
module ClusterState {
  import opened Base
  import opened NodeState
  import opened NodeValidation

  /** Ruby's `array[i]`: a negative index counts from the end, an index out of
      range gives nil. */
  function RubyAt<T>(a: seq<T>, i: int): (r: Option<T>)
    ensures 0 <= i < |a| ==> r == Some(a[i])
    ensures -|a| <= i < 0 ==> r == Some(a[|a| + i])
    ensures r.None? <==> i >= |a| || i < -|a|
  {
    if 0 <= i < |a| then Some(a[i])
    else if -|a| <= i < 0 then Some(a[|a| + i])
    else None
  }

  /** `node_list.any? { |node| node == search }`: nodes compare by name. */
  predicate NamedIn(n: Node, ns: seq<Node>)
  {
    exists m | m in ns :: m.name == n.name
  }

  /** The nodes of `ns` that no node of `removed` matches by name, in order. */
  function Kept(ns: seq<Node>, removed: seq<Node>): seq<Node>
  {
    if ns == [] then []
    else (if NamedIn(ns[0], removed) then [] else [ns[0]]) + Kept(ns[1..], removed)
  }

  /** A node survives exactly when it was there and no removed node shares
      its name; nothing is added. */
  lemma {:induction false} KeptMembers(ns: seq<Node>, removed: seq<Node>)
    ensures |Kept(ns, removed)| <= |ns|
    ensures forall n | n in Kept(ns, removed) :: n in ns && !NamedIn(n, removed)
    ensures forall n | n in ns && !NamedIn(n, removed) :: n in Kept(ns, removed)
  {
    if ns != [] {
      KeptMembers(ns[1..], removed);
      assert forall n | n in ns :: n == ns[0] || n in ns[1..];
    }
  }

  /** Removing nothing keeps the array as it is. */
  lemma {:induction false} KeptNothingRemoved(ns: seq<Node>)
    ensures Kept(ns, []) == ns
  {
    if ns != [] {
      KeptNothingRemoved(ns[1..]);
      assert ns == [ns[0]] + ns[1..];
    }
  }

  /** What probing the node array from counter `from` gives: the first active
      node at index `(from + k) % length` for k = 1, 2, ..., the counter
      advanced once per probe, or InvalidNode after `length` probes that all
      hit inactive nodes. */
  ghost predicate Probed(ns: seq<Node>, from: nat, to: nat, r: Result<Node>)
    reads ns
  {
    if r.Ok? then
      exists k | 1 <= k <= |ns| ::
        && to == from + k && r.value == ProbeAt(ns, from, k) && r.value.active
        && forall j | 1 <= j < k :: !ProbeAt(ns, from, j).active
    else
      r.error == InvalidNode && to == from + |ns|
      && forall j | 1 <= j <= |ns| :: !ProbeAt(ns, from, j).active
  }

  /** The node the `j`-th probe from counter `from` looks at. */
  function ProbeAt(ns: seq<Node>, from: nat, j: nat): Node
    requires ns != []
  {
    ns[(from + j) % |ns|]
  }

  /** `length` consecutive probes hit every index once. */
  lemma ProbesCoverAll(from: nat, n: nat, i: nat) returns (j: nat)
    requires i < n
    ensures 1 <= j <= n && (from + j) % n == i
  {
    var b, r := from / n, from % n;
    if i > r {
      j := i - r;
      ModUnique(from + j, b, i, n);
    } else {
      j := n - r + i;
      assert from + j == n * (b + 1) + i;
      ModUnique(from + j, b + 1, i, n);
    }
  }

  /** Euclidean division leaves one remainder. */
  lemma ModUnique(x: int, q: int, i: int, n: int)
    requires n > 0 && 0 <= i < n && x == n * q + i
    ensures x % n == i
  {
    var q', i' := x / n, x % n;
    assert n * (q - q') == i' - i;
    if q > q' {
      MulAtLeast(n, q - q');
    } else if q < q' {
      MulAtLeast(n, q' - q);
    }
  }

  lemma MulAtLeast(n: int, k: int)
    requires n > 0 && k >= 1
    ensures n * k >= n
  {
  }

  /** So when every probe failed, no node of the array is active: an active
      node is never missed. */
  lemma NoActiveNodeMissed(ns: seq<Node>, from: nat, to: nat, r: Result<Node>)
    requires Probed(ns, from, to, r) && r.Err?
    ensures forall n | n in ns :: !n.active
  {
    forall n | n in ns
      ensures !n.active
    {
      var i :| 0 <= i < |ns| && ns[i] == n;
      var j := ProbesCoverAll(from, |ns|, i);
      assert ProbeAt(ns, from, j) == n;
    }
  }

  /** The removal policy for one node of a cluster of `size` nodes, given
      whether it appears in the partition map. */
  predicate Removable(active: bool, unhealthy: bool, referenceCount: int, responded: bool,
                      inPartitionMap: bool, size: nat, refreshCount: int)
  {
    if !active then true
    else if size == 1 then unhealthy
    else if size == 2 then refreshCount == 2 && referenceCount == 0 && !responded
    else refreshCount >= 2 && referenceCount == 0 && (!responded || !inPartitionMap)
  }

  /** The set of aliases of `ns`, each mapped to the last node that has it. */
  function AliasesOf(ns: seq<Node>): map<Host, Node>
    reads ns
  {
    if ns == [] then map[]
    else AliasesOf(ns[..|ns| - 1]) + AliasMap(ns[|ns| - 1].aliases, ns[|ns| - 1])
  }

  /** Every host of `hs` leading to `n`. */
  function AliasMap(hs: seq<Host>, n: Node): map<Host, Node>
  {
    map a | a in hs :: n
  }

  /** `reduce(&:intersection) || Set.new` over the nodes' feature sets. */
  function CommonFeatures(ns: seq<Node>): set<string>
  {
    if ns == [] then {}
    else if |ns| == 1 then ns[0].features
    else ns[0].features * CommonFeatures(ns[1..])
  }

  /** A feature is common exactly when there are nodes and all of them have it. */
  lemma {:induction false} CommonFeaturesAreShared(ns: seq<Node>, f: string)
    ensures f in CommonFeatures(ns) <==> ns != [] && forall n | n in ns :: f in n.features
  {
    if |ns| > 1 {
      CommonFeaturesAreShared(ns[1..], f);
      assert forall n | n in ns :: n == ns[0] || n in ns[1..];
    }
  }

  /** The client policy's `ssl_options`: each option given, and whether its
      value is truthy. */
  type SslOptions = map<string, bool>

  /** `tls_enabled?` as written: the options only have to mention
      `:enable`, whatever its value. */
  function TlsEnabledAsWritten(sslOptions: Option<SslOptions>): (r: bool)
    ensures r ==> sslOptions.Some?
  {
    sslOptions.Some? && "enable" in sslOptions.value
  }

  /** `tls_enabled?` as the cluster's own tests expect it: `:enable` is given
      and true. */
  function TlsEnabled(sslOptions: Option<SslOptions>): (r: bool)
    ensures r ==> TlsEnabledAsWritten(sslOptions)
  {
    sslOptions.Some? && "enable" in sslOptions.value && sslOptions.value["enable"]
  }

  /** The two readings disagree exactly on options that set `:enable` to a
      false value, such as `{enable: false}`. */
  lemma TlsReadingsDiffer(sslOptions: Option<SslOptions>)
    ensures TlsEnabledAsWritten(sslOptions) != TlsEnabled(sslOptions)
        <==> sslOptions.Some? && "enable" in sslOptions.value && !sslOptions.value["enable"]
    ensures TlsEnabledAsWritten(Some(map["enable" := false])) && !TlsEnabled(Some(map["enable" := false]))
  {
  }

  /** `host.tls_name ||= cluster_id.nil? ? host.name : cluster_id` for every
      seed host. */
  function WithDefaultTlsNames(hosts: seq<Host>, clusterId: Option<string>): (r: seq<Host>)
    ensures |r| == |hosts|
    ensures forall i | 0 <= i < |r| ::
      r[i].name == hosts[i].name && r[i].port == hosts[i].port
      && r[i].tlsName == if hosts[i].tlsName.Some? then hosts[i].tlsName
                         else if clusterId.Some? then clusterId else hosts[i].name
  {
    if hosts == [] then []
    else
      var h := hosts[0];
      [h.(tlsName := if h.tlsName.Some? then h.tlsName else if clusterId.Some? then clusterId else h.name)]
      + WithDefaultTlsNames(hosts[1..], clusterId)
  }

  /** After defaulting, a seed has a TLS name unless it had neither a TLS
      name nor a name and there is no cluster id; explicit TLS names stay. */
  lemma DefaultTlsNamesFill(hosts: seq<Host>, clusterId: Option<string>)
    ensures forall i | 0 <= i < |hosts| ::
      var h := WithDefaultTlsNames(hosts, clusterId)[i];
      (h.tlsName.None? <==> hosts[i].tlsName.None? && clusterId.None? && hosts[i].name.None?)
      && (hosts[i].tlsName.Some? ==> h.tlsName == hosts[i].tlsName)
  {
  }

  class Cluster {
    var nodes: seq<Node>
    var aliases: map<Host, Node>
    /** Namespace to the node owning each partition (nil where unknown). */
    var partitions: map<string, seq<Node?>>
    var nodeIndex: nat
    var features: set<string>
    var seeds: seq<Host>
    const user: Option<string>
    var password: Option<string>
    const clusterName: Option<string>
    var closed: bool

    /** `Cluster.new(policy, hosts)`: credentials only when the policy
        requires authentication (the password is kept as given: its hashing
        is not modelled); `cluster_id` is never assigned, so it is nil. */
    constructor (hosts: seq<Host>, requiresAuthentication: bool, user: Option<string>,
                 password: Option<string>, clusterName: Option<string>, sslOptions: Option<SslOptions>)
      ensures seeds == if TlsEnabled(sslOptions) then WithDefaultTlsNames(hosts, None) else hosts
      ensures nodes == [] && aliases == map[] && partitions == map[]
      ensures nodeIndex == 0 && features == {} && closed
      ensures this.user == (if requiresAuthentication then user else None)
      ensures this.password == (if requiresAuthentication then password else None)
      ensures this.clusterName == clusterName
    {
      seeds := if TlsEnabled(sslOptions) then WithDefaultTlsNames(hosts, None) else hosts;
      nodes := [];
      aliases := map[];
      partitions := map[];
      nodeIndex := 0;
      features := {};
      this.user := if requiresAuthentication then user else None;
      this.password := if requiresAuthentication then password else None;
      this.clusterName := clusterName;
      closed := true;
    }

    /** `connected?`. */
    function Connected(): (r: bool)
      reads this
      ensures r <==> nodes != [] && !closed
    {
      |nodes| > 0 && !closed
    }

    /** `change_password`: only for the same user. */
    method ChangePassword(u: Option<string>, p: Option<string>)
      modifies this`password
      ensures password == if u == user then p else old(password)
    {
      if user == u {
        password := p;
      }
    }

    /** `add_seeds`: appended to the seed list. */
    method AddSeeds(hosts: seq<Host>)
      modifies this`seeds
      ensures seeds == old(seeds) + hosts
    {
      seeds := seeds + hosts;
    }

    /** `supports_feature?`: a feature every node has. */
    function SupportsFeature(f: string): (r: bool)
      reads this
      ensures r <==> f in features
    {
      f in features
    }

    /** `close`: an open cluster is marked closed and every node is closed;
        a closed one is left as it is. The tend thread is not modelled. */
    method Close()
      modifies this`closed, (set n | n in nodes)`active
      ensures closed && !Connected()
      ensures !old(closed) ==> forall n | n in nodes :: !n.active
      ensures old(closed) ==> forall n | n in nodes :: n.active == old(n.active)
    {
      if closed {
        return;
      }
      closed := true;
      var i := 0;
      while i < |nodes|
        invariant i <= |nodes|
        invariant closed
        invariant forall n | n in nodes[..i] :: !n.active
      {
        var node := nodes[i];
        assert node in nodes;
        assert nodes[..i + 1] == nodes[..i] + [node];
        node.Close();
        i := i + 1;
      }
      assert nodes[..i] == nodes;
    }

    /** The node the partition map names for a partition, if any. */
    function MappedNode(namespace: string, partitionId: int): Node?
      reads this
    {
      if namespace !in partitions then null
      else match RubyAt(partitions[namespace], partitionId)
        case None => null
        case Some(n) => n
    }

    /** `random_node`: at most one probe per node, each advancing the
        counter. */
    method RandomNode() returns (r: Result<Node>)
      modifies this`nodeIndex
      ensures Probed(nodes, old(nodeIndex), nodeIndex, r)
    {
      var length := |nodes|;
      var i := 0;
      while i < length
        invariant i <= length
        invariant nodeIndex == old(nodeIndex) + i
        invariant forall j | 1 <= j <= i :: !ProbeAt(nodes, old(nodeIndex), j).active
      {
        nodeIndex := nodeIndex + 1;
        var node := nodes[nodeIndex % length];
        assert node == ProbeAt(nodes, old(nodeIndex), i + 1);
        if node.active {
          r := Ok(node);
          assert Probed(nodes, old(nodeIndex), nodeIndex, r) by {
            assert forall j | 1 <= j < i + 1 :: !ProbeAt(nodes, old(nodeIndex), j).active;
          }
          return;
        }
        i := i + 1;
      }
      r := Err(InvalidNode);
    }

    /** `get_node`: the mapped node when it exists and is active, otherwise a
        random active node. */
    method GetNode(namespace: string, partitionId: int) returns (r: Result<Node>)
      modifies this`nodeIndex
      ensures r.Ok? ==> r.value.active
      ensures r.Err? ==> r.error == InvalidNode
      ensures var n := MappedNode(namespace, partitionId);
        if n != null && n.active then r == Ok(n) && nodeIndex == old(nodeIndex)
        else Probed(nodes, old(nodeIndex), nodeIndex, r)
    {
      var n := MappedNode(namespace, partitionId);
      if n != null && n.active {
        return Ok(n);
      }
      r := RandomNode();
    }

    /** `find_node_by_name`: the first node of the array with that name. */
    function FindNodeByName(name: Option<string>): (r: Node?)
      reads this
      ensures r != null ==> exists i | 0 <= i < |nodes| :: nodes[i] == r && r.name == name
                                      && forall j | 0 <= j < i :: nodes[j].name != name
      ensures r == null <==> forall n | n in nodes :: n.name != name
    {
      FirstNamed(nodes, name)
    }

    /** `get_node_by_name`: as above, InvalidNode when there is none. */
    function GetNodeByName(name: Option<string>): (r: Result<Node>)
      reads this
      ensures r.Ok? <==> exists n | n in nodes :: n.name == name
      ensures r.Ok? ==> r.value in nodes && r.value.name == name
      ensures r.Err? ==> r.error == InvalidNode
    {
      var n := FindNodeByName(name);
      if n == null then Err(InvalidNode) else Ok(n)
    }

    /** `find_alias`. */
    function FindAlias(h: Host): (r: Node?)
      reads this
      ensures r != null <==> h in aliases
      ensures r != null ==> r == aliases[h]
    {
      if h in aliases then aliases[h] else null
    }

    /** `add_alias(host, node)`: nothing for a nil node. */
    method AddAlias(h: Host, node: Node?)
      modifies this`aliases
      ensures aliases == if node != null then old(aliases)[h := node] else old(aliases)
    {
      if node != null {
        aliases := aliases[h := node];
      }
    }

    /** `remove_alias`. */
    method RemoveAlias(h: Host)
      modifies this`aliases
      ensures aliases == old(aliases) - {h}
    {
      aliases := aliases - {h};
    }

    /** The `remove_alias` calls for every alias of one node. */
    method RemoveAliasesOf(node: Node)
      modifies this`aliases
      ensures aliases == old(aliases) - set a | a in node.aliases
    {
      var k := 0;
      while k < |node.aliases|
        invariant k <= |node.aliases|
        invariant aliases == old(aliases) - set a | a in node.aliases[..k]
      {
        assert node.aliases[..k + 1] == node.aliases[..k] + [node.aliases[k]];
        RemoveAlias(node.aliases[k]);
        k := k + 1;
      }
      assert node.aliases[..k] == node.aliases;
    }

    /** `add_aliases(node)`: every alias of the node now leads to it. */
    method AddAliases(node: Node)
      modifies this`aliases
      ensures aliases == old(aliases) + AliasMap(node.aliases, node)
    {
      var i := 0;
      while i < |node.aliases|
        invariant i <= |node.aliases|
        invariant aliases == old(aliases) + AliasMap(node.aliases[..i], node)
      {
        assert node.aliases[..i + 1] == node.aliases[..i] + [node.aliases[i]];
        aliases := aliases[node.aliases[i] := node];
        i := i + 1;
      }
      assert node.aliases[..i] == node.aliases;
    }

    /** `find_node_in_partition_map`: some namespace maps a partition to a
        node with that name. */
    function InPartitionMap(filter: Node): (r: bool)
      reads this
      ensures r <==> exists ns, i | ns in partitions && 0 <= i < |partitions[ns]| ::
                       partitions[ns][i] != null && partitions[ns][i].name == filter.name
    {
      exists ns, i | ns in partitions && 0 <= i < |partitions[ns]| ::
        partitions[ns][i] != null && partitions[ns][i].name == filter.name
    }

    /** Whether `find_nodes_to_remove` lists `n` in the current cluster. */
    function RemovableNow(n: Node, refreshCount: int): bool
      reads this, n
    {
      Removable(n.active, n.Unhealthy(), n.referenceCount, n.responded,
                InPartitionMap(n), |nodes|, refreshCount)
    }

    /** `find_nodes_to_remove(refresh_count)`: the nodes the policy drops,
        in array order. */
    function FindNodesToRemove(refreshCount: int): (r: seq<Node>)
      reads this, nodes
      ensures forall n | n in r :: n in nodes
      // an inactive node is always removed
      ensures forall n | n in nodes && !n.active :: n in r
      // one node: removed exactly when unhealthy
      ensures |nodes| == 1 ==> forall n | n in nodes && n.active :: n in r <==> n.Unhealthy()
      // two nodes: exactly when the second refresh saw it neither referenced nor responding
      ensures |nodes| == 2 ==> forall n | n in nodes && n.active ::
        n in r <==> refreshCount == 2 && n.referenceCount == 0 && !n.responded
      // more: after two refreshes, unreferenced and either silent or owning no partition
      ensures |nodes| >= 3 ==> forall n | n in nodes && n.active ::
        n in r <==> refreshCount >= 2 && n.referenceCount == 0 && (!n.responded || !InPartitionMap(n))
    {
      RemovalsFrom(nodes, refreshCount)
    }

    function RemovalsFrom(ns: seq<Node>, refreshCount: int): (r: seq<Node>)
      reads this, ns
      ensures forall n | n in r :: n in ns && RemovableNow(n, refreshCount)
      ensures forall n | n in ns && RemovableNow(n, refreshCount) :: n in r
    {
      if ns == [] then []
      else (if RemovableNow(ns[0], refreshCount) then [ns[0]] else []) + RemovalsFrom(ns[1..], refreshCount)
    }

    /** `add_nodes_copy`: appended at the end. */
    method AddNodesCopy(toAdd: seq<Node>)
      modifies this`nodes
      ensures nodes == old(nodes) + toAdd
    {
      nodes := nodes + toAdd;
    }

    /** `remove_nodes_copy`: a new array with the nodes that match none of
        `toRemove` by name, in their old order. */
    method RemoveNodesCopy(toRemove: seq<Node>)
      modifies this`nodes
      ensures nodes == Kept(old(nodes), toRemove)
    {
      var list := nodes;
      var nodeArray := [];
      var count := 0;
      var i := 0;
      while i < |list|
        invariant i <= |list|
        invariant count == |nodeArray|
        invariant nodeArray + Kept(list[i..], toRemove) == Kept(list, toRemove)
      {
        assert list[i..] == [list[i]] + list[i + 1..];
        assert Kept(list[i..], toRemove)
            == (if NamedIn(list[i], toRemove) then [] else [list[i]]) + Kept(list[i + 1..], toRemove);
        if !NodeExists(list[i], toRemove) {
          nodeArray := nodeArray + [list[i]];
          count := count + 1;
        }
        i := i + 1;
      }
      nodes := nodeArray;
    }

    /** `remove_nodes`: the removed nodes' aliases are dropped and the nodes
        closed, then the array is rebuilt without them. */
    method RemoveNodes(toRemove: seq<Node>)
      modifies this`nodes, this`aliases, (set n | n in toRemove)`active
      ensures nodes == Kept(old(nodes), toRemove)
      ensures forall n | n in toRemove :: !n.active
      ensures aliases == old(aliases) - AliasSet(toRemove)
    {
      var i := 0;
      while i < |toRemove|
        invariant i <= |toRemove|
        invariant forall j | 0 <= j < i :: !toRemove[j].active
        invariant aliases == old(aliases) - AliasSet(toRemove[..i])
        invariant nodes == old(nodes)
      {
        var node := toRemove[i];
        assert node in toRemove;
        ghost var before := aliases;
        RemoveAliasesOf(node);
        node.Close();
        assert toRemove[..i + 1] == toRemove[..i] + [node];
        AliasSetStep(toRemove[..i], node);
        assert aliases == old(aliases) - AliasSet(toRemove[..i + 1]);
        i := i + 1;
      }
      assert toRemove[..i] == toRemove;
      RemoveNodesCopy(toRemove);
    }

    /** `add_nodes`: the new nodes' aliases are registered, then the nodes
        are appended. */
    method AddNodes(toAdd: seq<Node>)
      modifies this`nodes, this`aliases
      ensures nodes == old(nodes) + toAdd
      ensures aliases == old(aliases) + AliasesOf(toAdd)
    {
      var i := 0;
      while i < |toAdd|
        invariant i <= |toAdd|
        invariant aliases == old(aliases) + AliasesOf(toAdd[..i])
        invariant nodes == old(nodes)
      {
        ghost var added := AliasMap(toAdd[i].aliases, toAdd[i]);
        assert toAdd[..i + 1][..i] == toAdd[..i];
        assert AliasesOf(toAdd[..i + 1]) == AliasesOf(toAdd[..i]) + added;
        AddAliases(toAdd[i]);
        MapUnionAssoc(old(aliases), AliasesOf(toAdd[..i]), added);
        i := i + 1;
      }
      assert toAdd[..i] == toAdd;
      AddNodesCopy(toAdd);
    }

    /** `seed_nodes`: validate every seed and each of its aliases (the seed
        itself reuses the seed's validation), create one node per new name,
        register its aliases, then append the new nodes. A validation that
        fails skips that seed or alias. The Ruby method returns nothing; the
        created nodes are returned here so that the contract can name them. */
    method SeedNodes(validate: Validator) returns (list: seq<Node>)
      modifies this`nodes, this`aliases
      ensures nodes == old(nodes) + list
      ensures aliases == old(aliases) + AliasesOf(list)
      ensures NamesDistinct(list)
      ensures forall n | n in list :: fresh(n) && fresh(n.partitionGeneration)
      ensures forall n | n in list :: SeededName(seeds, validate, n.name)
      ensures Names(list) == FreshNames(SeedResults(seeds, validate), {})
    {
      list := SeedAll(seeds, validate);
      if |list| > 0 {
        AddNodesCopy(list);
      }
    }

    /** The seed loop of `seed_nodes`, over a copy of the seed list. */
    method SeedAll(seedArray: seq<Host>, validate: Validator) returns (list: seq<Node>)
      modifies this`aliases
      ensures aliases == old(aliases) + AliasesOf(list)
      ensures NamesDistinct(list)
      ensures forall n | n in list :: fresh(n) && fresh(n.partitionGeneration)
      ensures forall n | n in list :: SeededName(seedArray, validate, n.name)
      ensures Names(list) == FreshNames(SeedResults(seedArray, validate), {})
    {
      ghost var total := FreshNames(SeedResults(seedArray, validate), {});
      list := [];
      assert seedArray[0..] == seedArray && Names(list) == [] && NameSet(list) == {};
      var i := 0;
      while i < |seedArray|
        invariant i <= |seedArray|
        invariant NamesDistinct(list)
        invariant forall n | n in list :: fresh(n) && fresh(n.partitionGeneration)
        invariant forall n | n in list :: SeededName(seedArray, validate, n.name)
        invariant aliases == old(aliases) + AliasesOf(list)
        invariant total == Names(list) + FreshNames(SeedResults(seedArray[i..], validate), NameSet(list))
      {
        list := SeedOne(seedArray, i, validate, list, old(aliases), total);
        i := i + 1;
      }
      assert seedArray[i..] == [] && FreshNames([], NameSet(list)) == [] && Names(list) + [] == Names(list);
    }

    /** One seed of `seed_nodes`: a seed whose validation fails is skipped;
        otherwise the nodes its aliases yield join `list`. `base` and `total`
        carry the alias map and the names of the whole run. */
    method SeedOne(seeds: seq<Host>, i: nat, validate: Validator, list: seq<Node>,
                   ghost base: map<Host, Node>, ghost total: seq<Option<string>>) returns (list': seq<Node>)
      requires i < |seeds| && NamesDistinct(list)
      requires aliases == base + AliasesOf(list)
      requires total == Names(list) + FreshNames(SeedResults(seeds[i..], validate), NameSet(list))
      modifies this`aliases
      ensures NamesDistinct(list')
      ensures aliases == base + AliasesOf(list')
      ensures total == Names(list') + FreshNames(SeedResults(seeds[i + 1..], validate), NameSet(list'))
      ensures forall n | n in list' :: n in list || (fresh(n) && fresh(n.partitionGeneration) && SeededName(seeds, validate, n.name))
    {
      assert seeds[i] in seeds;
      list' := list;
      var seedNv := validate(Some(seeds[i]));
      if seedNv.Ok? {
        var added := SeedAliases(seeds[i], validate, list);
        AliasesOfAppend(list, added);
        MapUnionAssoc(base, AliasesOf(list), AliasesOf(added));
        NameSetOfNames(added);
        SeedStep(seeds, i, validate, total, Names(list), NameSet(list), Names(added), NameSet(added));
        NamesAppend(list, added);
        NameSetAppend(list, added);
        list' := list + added;
      } else {
        SeedStep(seeds, i, validate, total, Names(list), NameSet(list), [], {});
        assert Names(list) + [] == Names(list) && NameSet(list) + {} == NameSet(list);
      }
    }

    /** The alias loop of `seed_nodes` for one validated seed: the nodes it
        adds to `list`. */
    method SeedAliases(seed: Host, validate: Validator, list: seq<Node>) returns (added: seq<Node>)
      requires validate(Some(seed)).Ok?
      requires NamesDistinct(list)
      modifies this`aliases
      ensures NamesDistinct(list + added)
      ensures forall n | n in added :: fresh(n) && fresh(n.partitionGeneration) && SeedYields(seed, validate, n.name)
      ensures aliases == old(aliases) + AliasesOf(added)
      ensures Names(added) == FreshNames(SeedProbes(seed, validate), NameSet(list))
    {
      var seedNv := validate(Some(seed));
      ghost var probes, known := SeedProbes(seed, validate), NameSet(list);
      ghost var total := FreshNames(probes, known);
      added := [];
      assert probes[0..] == probes && Names(added) == [] && known + NameSet(added) == known;
      var k := 0;
      while k < |seedNv.value.aliases|
        invariant k <= |seedNv.value.aliases|
        invariant NamesDistinct(list + added)
        invariant forall n | n in added :: fresh(n) && fresh(n.partitionGeneration) && SeedYields(seed, validate, n.name)
        invariant aliases == old(aliases) + AliasesOf(added)
        invariant total == Names(added) + FreshNames(probes[k..], known + NameSet(added))
      {
        var a := seedNv.value.aliases[k];
        var nv := if a == seed then seedNv else validate(Some(a));
        added := SeedAlias(seed, validate, list, added, nv, probes, k, known, total, old(aliases));
        k := k + 1;
      }
      assert probes[k..] == [];
    }

    /** One alias of `seed_nodes`: a validation that succeeds with a name
        found neither in `list` nor in `added` creates a node, registers its
        aliases and joins `added`. `probes`, `k`, `known`, `total` and `base`
        tie the step to the whole alias loop. */
    method SeedAlias(seed: Host, validate: Validator, list: seq<Node>, added: seq<Node>, nv: Result<Validated>,
                     ghost probes: seq<Result<Validated>>, ghost k: nat, ghost known: set<Option<string>>,
                     ghost total: seq<Option<string>>, ghost base: map<Host, Node>) returns (added': seq<Node>)
      requires probes == SeedProbes(seed, validate) && k < |probes| && nv == probes[k]
      requires known == NameSet(list) && NamesDistinct(list + added)
      requires aliases == base + AliasesOf(added)
      requires total == Names(added) + FreshNames(probes[k..], known + NameSet(added))
      modifies this`aliases
      ensures NamesDistinct(list + added')
      ensures forall n | n in added' :: n in added || (fresh(n) && fresh(n.partitionGeneration) && SeedYields(seed, validate, n.name))
      ensures aliases == base + AliasesOf(added')
      ensures total == Names(added') + FreshNames(probes[k + 1..], known + NameSet(added'))
    {
      added' := added;
      if nv.Ok? && !FindNodeName(list + added, nv.value.id.name) {
        var node := new Node(nv.value);
        assert SeedYields(seed, validate, node.name) by {
          var aliases := validate(Some(seed)).value.aliases;
          assert aliases[k] in aliases;
        }
        AddAliases(node);
        MapUnionAssoc(base, AliasesOf(added), AliasMap(node.aliases, node));
        assert list + (added + [node]) == (list + added) + [node];
        DistinctAppend(list + added, node);
        added' := added + [node];
        AliasesOfSnoc(added, node);
        NameSetAppend(list, added);
        NamesAppend(added, [node]);
        NameSetAppend(added, [node]);
        FreshStep(probes, k, known, total, Names(added), NameSet(added), Names(added'), NameSet(added'));
      } else {
        NameSetAppend(list, added);
        FreshStep(probes, k, known, total, Names(added), NameSet(added), Names(added), NameSet(added));
      }
    }

    /** `find_nodes_to_add(hosts)`: a host whose validated name is already
        in the cluster or in the pending list adds no node: that node's
        reference count goes up and the host becomes one of its aliases. A
        failed validation skips the host. */
    method FindNodesToAdd(hosts: seq<Host>, validate: Validator) returns (list: seq<Node>)
      modifies this`aliases, (set n | n in nodes)`referenceCount, (set n | n in nodes)`aliases
      ensures Names(list) == NewNames(hosts, validate, NameSet(nodes))
      ensures forall n | n in list :: fresh(n)
      ensures forall n | n in nodes :: n.referenceCount >= old(n.referenceCount)
      ensures forall h | h in aliases && h !in old(aliases) :: h in hosts
    {
      list := [];
      ghost var base := NameSet(nodes);
      assert hosts[0..] == hosts && base + NameSet(list) == base && Names(list) == [];
      var i := 0;
      while i < |hosts|
        invariant i <= |hosts| && NameSet(nodes) == base
        invariant forall n | n in list :: fresh(n)
        invariant NewNames(hosts, validate, base) == Names(list) + NewNames(hosts[i..], validate, base + NameSet(list))
        invariant forall n | n in nodes :: n.referenceCount >= old(n.referenceCount)
        invariant forall h | h in aliases && h !in old(aliases) :: h in hosts[..i]
      {
        var host := hosts[i];
        assert hosts[..i + 1] == hosts[..i] + [host];
        ghost var before := list;
        list := AdmitHost(host, validate, list);
        AdmitStep(hosts, i, validate, base, before, list);
        i := i + 1;
      }
    }

    /** One round of `find_nodes_to_add`. */
    method AdmitHost(host: Host, validate: Validator, list: seq<Node>) returns (list': seq<Node>)
      modifies this`aliases, (set n | n in nodes)`referenceCount, (set n | n in nodes)`aliases
      modifies (set n | n in list)`referenceCount, (set n | n in list)`aliases
      ensures var nv := validate(Some(host));
        if nv.Ok? && nv.value.id.name !in NameSet(nodes) + NameSet(list) then
          && |list'| == |list| + 1 && list'[..|list|] == list && fresh(list'[|list|])
          && Names(list') == Names(list) + [nv.value.id.name]
          && NameSet(list') == NameSet(list) + {nv.value.id.name}
        else list' == list
      ensures forall n | n in list' :: n in list || fresh(n)
      ensures forall n | n in nodes :: n.referenceCount >= old(n.referenceCount)
      ensures forall h | h in aliases && h !in old(aliases) :: h == host
    {
      list' := list;
      var nv := validate(Some(host));
      if nv.Err? {
        return;
      }
      var name := nv.value.id.name;
      var node := FindNodeByName(name);
      if node == null {
        node := FirstNamed(list, name);
      }
      if node != null {
        assert node in nodes || node in list;
        node.IncreaseReferenceCount();
        node.AddAlias(host);
        AddAlias(host, node);
      } else {
        node := new Node(nv.value);
        list' := list + [node];
        assert NameSet(list') == NameSet(list) + {name};
        assert Names(list') == Names(list) + [name];
      }
    }

    /** `update_cluster_features`: the features every node has. */
    method UpdateClusterFeatures()
      modifies this`features
      ensures features == CommonFeatures(nodes)
    {
      features := CommonFeatures(nodes);
    }
  }

  /** Whether validating `seed`, or one of the aliases its validation
      reports, yields a node called `name`. */
  ghost predicate SeedYields(seed: Host, validate: Validator, name: Option<string>)
  {
    var nv := validate(Some(seed));
    nv.Ok? && exists a | a in nv.value.aliases ::
      var v := if a == seed then nv else validate(Some(a));
      v.Ok? && v.value.id.name == name
  }

  /** Whether some seed yields a node called `name`. */
  ghost predicate SeededName(seeds: seq<Host>, validate: Validator, name: Option<string>)
  {
    exists s | s in seeds :: SeedYields(s, validate, name)
  }

  /** The validations `seed_nodes` makes for one seed: none when the seed
      itself fails; otherwise one per alias the seed's validation reports,
      the seed's own alias reusing that validation. */
  function SeedProbes(seed: Host, validate: Validator): (r: seq<Result<Validated>>)
    ensures validate(Some(seed)).Err? ==> r == []
    ensures validate(Some(seed)).Ok? ==> |r| == |validate(Some(seed)).value.aliases|
  {
    var nv := validate(Some(seed));
    if nv.Err? then []
    else
      var aliases := nv.value.aliases;
      seq(|aliases|, k requires 0 <= k < |aliases| => if aliases[k] == seed then nv else validate(Some(aliases[k])))
  }

  /** Every validation of `seed_nodes`, seed after seed. */
  function SeedResults(seeds: seq<Host>, validate: Validator): seq<Result<Validated>>
  {
    if seeds == [] then [] else SeedProbes(seeds[0], validate) + SeedResults(seeds[1..], validate)
  }

  /** The names a run of validations creates nodes for, in order: each
      validated name that is neither `known` nor created before. */
  function FreshNames(rs: seq<Result<Validated>>, known: set<Option<string>>): seq<Option<string>>
  {
    if rs == [] then []
    else if rs[0].Ok? && rs[0].value.id.name !in known then
      [rs[0].value.id.name] + FreshNames(rs[1..], known + {rs[0].value.id.name})
    else FreshNames(rs[1..], known)
  }

  /** `FreshNames` from position `k`: the validation there, then the rest. */
  lemma FreshNamesAt(rs: seq<Result<Validated>>, k: nat, known: set<Option<string>>)
    requires k < |rs|
    ensures FreshNames(rs[k..], known)
      == if rs[k].Ok? && rs[k].value.id.name !in known then [rs[k].value.id.name] + FreshNames(rs[k + 1..], known + {rs[k].value.id.name})
         else FreshNames(rs[k + 1..], known)
  {
    assert rs[k..][1..] == rs[k + 1..];
  }

  /** Running two batches of validations in turn: the second batch knows
      the names the first one created. */
  lemma {:induction false} FreshNamesAppend(a: seq<Result<Validated>>, b: seq<Result<Validated>>, known: set<Option<string>>)
    ensures FreshNames(a + b, known)
         == FreshNames(a, known) + FreshNames(b, known + set x | x in FreshNames(a, known))
  {
    if a == [] {
      assert a + b == b;
      assert known + (set x | x in FreshNames(a, known)) == known;
    } else {
      assert (a + b)[1..] == a[1..] + b;
      if a[0].Ok? && a[0].value.id.name !in known {
        var name := a[0].value.id.name;
        FreshNamesAppend(a[1..], b, known + {name});
        var rest := FreshNames(a[1..], known + {name});
        assert (set x | x in [name] + rest) == {name} + set x | x in rest;
        assert known + {name} + (set x | x in rest) == known + (set x | x in [name] + rest);
      } else {
        FreshNamesAppend(a[1..], b, known);
      }
    }
  }

  /** Every successful validation's name ends up known: either it was known
      before or a node is created for it. */
  lemma {:induction false} FreshNamesCover(rs: seq<Result<Validated>>, known: set<Option<string>>)
    ensures forall k | 0 <= k < |rs| && rs[k].Ok? :: rs[k].value.id.name in known + set x | x in FreshNames(rs, known)
  {
    if rs != [] {
      if rs[0].Ok? && rs[0].value.id.name !in known {
        FreshNamesCover(rs[1..], known + {rs[0].value.id.name});
      } else {
        FreshNamesCover(rs[1..], known);
      }
      forall k | 0 < k < |rs| && rs[k].Ok?
        ensures rs[k].value.id.name in known + set x | x in FreshNames(rs, known)
      {
        assert rs[k] == rs[1..][k - 1];
      }
    }
  }

  /** The created names are new, pairwise distinct, and each is the name of
      a successful validation. */
  lemma {:induction false} FreshNamesAreNew(rs: seq<Result<Validated>>, known: set<Option<string>>)
    ensures forall i | 0 <= i < |FreshNames(rs, known)| :: FreshNames(rs, known)[i] !in known
    ensures forall i, j | 0 <= i < j < |FreshNames(rs, known)| :: FreshNames(rs, known)[i] != FreshNames(rs, known)[j]
    ensures forall x | x in FreshNames(rs, known) :: exists k | 0 <= k < |rs| :: rs[k].Ok? && rs[k].value.id.name == x
  {
    if rs != [] {
      var isNew := rs[0].Ok? && rs[0].value.id.name !in known;
      var known' := if isNew then known + {rs[0].value.id.name} else known;
      FreshNamesAreNew(rs[1..], known');
      var tail := FreshNames(rs[1..], known');
      forall x | x in tail
        ensures exists k | 0 <= k < |rs| :: rs[k].Ok? && rs[k].value.id.name == x
      {
        var k :| 0 <= k < |rs[1..]| && rs[1..][k].Ok? && rs[1..][k].value.id.name == x;
        assert rs[k + 1] == rs[1..][k];
      }
    }
  }

  /** One alias of `seed_nodes`: a validation whose name is new appends
      that name, any other leaves the names as they are; either way the names
      created so far plus those still to come stay the same. */
  lemma FreshStep(rs: seq<Result<Validated>>, k: nat, known: set<Option<string>>, total: seq<Option<string>>,
                  before: seq<Option<string>>, beforeSet: set<Option<string>>,
                  after: seq<Option<string>>, afterSet: set<Option<string>>)
    requires k < |rs|
    requires total == before + FreshNames(rs[k..], known + beforeSet)
    requires if rs[k].Ok? && rs[k].value.id.name !in known + beforeSet
             then after == before + [rs[k].value.id.name] && afterSet == beforeSet + {rs[k].value.id.name}
             else after == before && afterSet == beforeSet
    ensures total == after + FreshNames(rs[k + 1..], known + afterSet)
  {
    FreshNamesAt(rs, k, known + beforeSet);
    if rs[k].Ok? && rs[k].value.id.name !in known + beforeSet {
      assert known + afterSet == known + beforeSet + {rs[k].value.id.name};
    }
  }

  /** One seed of `seed_nodes`: the names its aliases create, followed by
      the names the later seeds create, are the names the seeds from this
      one on create. */
  lemma SeedStep(seeds: seq<Host>, i: nat, validate: Validator, total: seq<Option<string>>,
                 before: seq<Option<string>>, known: set<Option<string>>,
                 added: seq<Option<string>>, addedSet: set<Option<string>>)
    requires i < |seeds|
    requires total == before + FreshNames(SeedResults(seeds[i..], validate), known)
    requires added == FreshNames(SeedProbes(seeds[i], validate), known)
    requires addedSet == set x | x in added
    ensures total == (before + added) + FreshNames(SeedResults(seeds[i + 1..], validate), known + addedSet)
  {
    assert seeds[i..][1..] == seeds[i + 1..];
    FreshNamesAppend(SeedProbes(seeds[i], validate), SeedResults(seeds[i + 1..], validate), known);
  }

  lemma NamesAppend(a: seq<Node>, b: seq<Node>)
    ensures Names(a + b) == Names(a) + Names(b)
  {
  }

  lemma NameSetAppend(a: seq<Node>, b: seq<Node>)
    ensures NameSet(a + b) == NameSet(a) + NameSet(b)
  {
  }

  /** The name set holds exactly the names of the list. */
  lemma NameSetOfNames(ns: seq<Node>)
    ensures NameSet(ns) == set x | x in Names(ns)
  {
    assert forall x | x in Names(ns) :: exists n | n in ns :: n.name == x;
  }

  /** `find_node_name(list, name)`. */
  function FindNodeName(list: seq<Node>, name: Option<string>): (r: bool)
    ensures r <==> name in NameSet(list)
  {
    exists n | n in list :: n.name == name
  }

  function Names(ns: seq<Node>): (r: seq<Option<string>>)
    ensures |r| == |ns| && forall i | 0 <= i < |ns| :: r[i] == ns[i].name
  {
    seq(|ns|, i requires 0 <= i < |ns| => ns[i].name)
  }

  function NameSet(ns: seq<Node>): set<Option<string>>
  {
    set n | n in ns :: n.name
  }

  /** No two of the nodes share a name. */
  predicate NamesDistinct(ns: seq<Node>)
  {
    forall i, j | 0 <= i < j < |ns| :: ns[i].name != ns[j].name
  }

  /** A node whose name none of `ns` has keeps `ns + [node]` distinct. */
  lemma DistinctAppend(ns: seq<Node>, node: Node)
    requires NamesDistinct(ns) && node.name !in NameSet(ns)
    ensures NamesDistinct(ns + [node])
  {
    forall i, j | 0 <= i < j < |ns + [node]|
      ensures (ns + [node])[i].name != (ns + [node])[j].name
    {
      if j == |ns| {
        assert ns[i] in ns;
      }
    }
  }

  /** The names `find_nodes_to_add` creates nodes for, in order: each
      validated name that is neither `known` nor created before. */
  function NewNames(hosts: seq<Host>, validate: Validator, known: set<Option<string>>): seq<Option<string>>
  {
    if hosts == [] then []
    else
      var nv := validate(Some(hosts[0]));
      if nv.Ok? && nv.value.id.name !in known then
        [nv.value.id.name] + NewNames(hosts[1..], validate, known + {nv.value.id.name})
      else NewNames(hosts[1..], validate, known)
  }

  /** `NewNames` from position `i`: the host there, then the rest. */
  lemma NewNamesAt(hosts: seq<Host>, i: nat, validate: Validator, known: set<Option<string>>)
    requires i < |hosts|
    ensures var nv := validate(Some(hosts[i]));
      NewNames(hosts[i..], validate, known)
      == if nv.Ok? && nv.value.id.name !in known then [nv.value.id.name] + NewNames(hosts[i + 1..], validate, known + {nv.value.id.name})
         else NewNames(hosts[i + 1..], validate, known)
  {
    assert hosts[i..][1..] == hosts[i + 1..];
  }

  /** One round of `find_nodes_to_add` keeps the names created so far plus
      the names still to create unchanged. */
  lemma AdmitStep(hosts: seq<Host>, i: nat, validate: Validator, base: set<Option<string>>, list: seq<Node>, list': seq<Node>)
    requires i < |hosts|
    requires var nv := validate(Some(hosts[i]));
      if nv.Ok? && nv.value.id.name !in base + NameSet(list) then
        Names(list') == Names(list) + [nv.value.id.name] && NameSet(list') == NameSet(list) + {nv.value.id.name}
      else list' == list
    ensures Names(list') + NewNames(hosts[i + 1..], validate, base + NameSet(list'))
         == Names(list) + NewNames(hosts[i..], validate, base + NameSet(list))
  {
    NewNamesAt(hosts, i, validate, base + NameSet(list));
    var nv := validate(Some(hosts[i]));
    if nv.Ok? && nv.value.id.name !in base + NameSet(list) {
      assert base + NameSet(list') == base + NameSet(list) + {nv.value.id.name};
    }
  }

  /** The created names are new and distinct. */
  lemma {:induction false} NewNamesAreNew(hosts: seq<Host>, validate: Validator, known: set<Option<string>>)
    ensures forall i | 0 <= i < |NewNames(hosts, validate, known)| :: NewNames(hosts, validate, known)[i] !in known
    ensures forall i, j | 0 <= i < j < |NewNames(hosts, validate, known)| ::
      NewNames(hosts, validate, known)[i] != NewNames(hosts, validate, known)[j]
  {
    if hosts != [] {
      var nv := validate(Some(hosts[0]));
      if nv.Ok? && nv.value.id.name !in known {
        NewNamesAreNew(hosts[1..], validate, known + {nv.value.id.name});
      } else {
        NewNamesAreNew(hosts[1..], validate, known);
      }
    }
  }

  /** `node_exists(search, list)`. */
  function NodeExists(search: Node, list: seq<Node>): (r: bool)
    ensures r <==> NamedIn(search, list)
  {
    exists m | m in list :: m.name == search.name
  }

  lemma {:induction false} AliasesOfAppend(a: seq<Node>, b: seq<Node>)
    ensures AliasesOf(a + b) == AliasesOf(a) + AliasesOf(b)
  {
    if b != [] {
      var last := b[|b| - 1];
      assert (a + b)[..|a + b| - 1] == a + b[..|b| - 1];
      AliasesOfAppend(a, b[..|b| - 1]);
      MapUnionAssoc(AliasesOf(a), AliasesOf(b[..|b| - 1]), AliasMap(last.aliases, last));
    } else {
      assert a + b == a;
    }
  }

  /** A node appended to a list adds its own aliases to the list's. */
  lemma AliasesOfSnoc(ns: seq<Node>, n: Node)
    ensures AliasesOf(ns + [n]) == AliasesOf(ns) + AliasMap(n.aliases, n)
  {
    assert (ns + [n])[..|ns|] == ns;
  }

  lemma MapUnionAssoc<K, V>(a: map<K, V>, b: map<K, V>, c: map<K, V>)
    ensures (a + b) + c == a + (b + c)
  {
  }

  /** All aliases of the given nodes. */
  function AliasSet(ns: seq<Node>): set<Host>
    reads (set n | n in ns)`aliases
  {
    set n, a | n in ns && a in n.aliases :: a
  }

  /** Every alias registered for a list of nodes points at one of them. */
  lemma {:induction false} AliasesOfOwners(ns: seq<Node>)
    ensures forall n | n in AliasesOf(ns).Values :: n in ns
  {
    if ns != [] {
      var init, last := ns[..|ns| - 1], ns[|ns| - 1];
      AliasesOfOwners(init);
      var m1, m2 := AliasesOf(init), AliasMap(last.aliases, last);
      forall n | n in (m1 + m2).Values
        ensures n in ns
      {
        var h :| h in m1 + m2 && (m1 + m2)[h] == n;
        if h in m2 {
          assert n == last;
        } else {
          assert m1[h] in m1.Values;
          assert n in init;
        }
      }
    }
  }

  lemma AliasSetStep(ns: seq<Node>, n: Node)
    ensures AliasSet(ns + [n]) == AliasSet(ns) + set a | a in n.aliases
  {
  }

  /** The first node of `ns` with the given name. */
  function FirstNamed(ns: seq<Node>, name: Option<string>): (r: Node?)
    ensures r != null ==> exists i | 0 <= i < |ns| :: ns[i] == r && r.name == name
                                    && forall j | 0 <= j < i :: ns[j].name != name
    ensures r == null <==> forall n | n in ns :: n.name != name
  {
    if ns == [] then null
    else if ns[0].name == name then ns[0]
    else
      var r := FirstNamed(ns[1..], name);
      assert r != null ==> exists i | 0 <= i < |ns| :: ns[i] == r && r.name == name
                                    && forall j | 0 <= j < i :: ns[j].name != name by {
        if r != null {
          var i :| 0 <= i < |ns[1..]| && ns[1..][i] == r && r.name == name
                   && forall j | 0 <= j < i :: ns[1..][j].name != name;
          assert ns[i + 1] == r;
        }
      }
      assert forall n | n in ns :: n == ns[0] || n in ns[1..];
      r
  }
}

=== FILE: cluster_peer_parse.dfy ===
/** The older revision of the peer-list parser
    (lib/aerospike/cluster/peer/parse.rb). Its cursor routines are those of
    PeersParse without the `[` check in `parse_host`; its `call` has no check
    that the regular expression matched. */
module ClusterPeerParse {
  import opened Base
  import opened PeerGrammar
  import PeersParse

  /** `Cluster::Peer::Parse.call`. Without a match `port` is nil and
      `port.empty?` fails; with one, the peers section goes through the same
      cursor routines as in the newer revision, minus the IPv6 check. */
  method Call(response: string) returns (r: Result<PeerList>)
    ensures r == ParseResponseLegacy(response)
    ensures MatchBase(response, 0).None? ==> r == Err(NoMethodError)
  {
    var m := MatchBase(response, 0);
    if m.None? {
      return Err(NoMethodError);
    }
    var peers :- PeersParse.ParsePeers(m.value.peers, false);
    r := Ok(ListOf(m.value, peers));
  }
}

=== FILE: find_node.dfy ===
/** `Cluster::FindNode` (lib/aerospike/cluster/find_node.rb): a node known by
    name, first in the cluster, then in the cycle's working set; a found node
    is counted as referenced once more. */
module FindNode {
  import opened Base
  import opened NodeState
  import opened ClusterState
  import opened WorkingSet

  /** The node `FindNode.call` picks, before any counting. */
  function Lookup(cluster: Cluster, peers: Peers, name: Option<string>): (r: Node?)
    reads cluster, peers
    ensures r != null ==> (r in cluster.nodes && r.name == name) || (name in peers.nodes && r == peers.nodes[name])
    ensures cluster.FindNodeByName(name) != null ==> r == cluster.FindNodeByName(name)
    ensures cluster.FindNodeByName(name) == null ==> r == peers.FindNodeByName(name)
    ensures r == null <==> (forall n | n in cluster.nodes :: n.name != name) && name !in peers.nodes
  {
    var c := cluster.FindNodeByName(name);
    if c != null then c else peers.FindNodeByName(name)
  }

  /** `FindNode.call` as the source has it. `find_node_by_name` is declared
      after `private` in `Cluster`, so calling it with an explicit receiver
      raises NoMethodError before either lookup, and no reference count
      changes. The error is not an Aerospike exception. */
  method CallAsWritten(cluster: Cluster, peers: Peers, name: Option<string>) returns (r: Result<Node?>)
    ensures r == Err(NoMethodError)
    ensures r.Err? && !r.error.IsAerospike()
  {
    r := Err(NoMethodError);
  }

  /** `FindNode.call(cluster, peers, node_name)`, with the cluster's lookup
      callable. */
  method Call(cluster: Cluster, peers: Peers, name: Option<string>) returns (r: Node?)
    modifies (set n | n in cluster.nodes)`referenceCount, (set n | n in peers.nodes.Values)`referenceCount
    ensures r == old(Lookup(cluster, peers, name))
    ensures r != null ==> r.referenceCount == old(r.referenceCount) + 1
    ensures forall n | n in cluster.nodes && n != r :: n.referenceCount == old(n.referenceCount)
    ensures forall n | n in peers.nodes.Values && n != r :: n.referenceCount == old(n.referenceCount)
  {
    r := Lookup(cluster, peers, name);
    if r != null {
      assert r in cluster.nodes || r in peers.nodes.Values;
      r.IncreaseReferenceCount();
    }
  }
}

=== FILE: host_parse.dfy ===
/** The seed-host parser `Host::Parse.call` (lib/aerospike/host/parse.rb):
    `host[:tls][:port],...`, or a Host, or an array of Hosts. */
module HostParse {
  import opened Base

  /** The argument of `call`, by its Ruby class. */
  datatype HostsArg =
    | OneHost(host: Host)
    | HostArray(hosts: seq<Host>)
    | HostString(text: string)
    | OtherArg

  /** `/\A\d+\z/`: one or more digits and nothing else. */
  predicate IsInteger(s: string)
  {
    s != [] && AllDigits(s)
  }

  /** One `addr[:tls_name][:port]` entry; a lone all-digit second part is
      the port, and a missing port is `defaultPort`. */
  function HostOfEntry(entry: string, defaultPort: int): Host
  {
    var parts := Split(entry, ':');
    var addr := if |parts| > 0 then Some(parts[0]) else None;
    var tls := if |parts| > 1 then Some(parts[1]) else None;
    var port := if |parts| > 2 then Some(parts[2]) else None;
    if port.None? && tls.Some? && IsInteger(tls.value) then Host(addr, ToI(tls.value), None)
    else Host(addr, if port.Some? then ToI(port.value) else defaultPort, tls)
  }

  function HostsOfEntries(entries: seq<string>, defaultPort: int): (r: seq<Host>)
    ensures |r| == |entries|
    ensures forall i | 0 <= i < |entries| :: r[i] == HostOfEntry(entries[i], defaultPort)
  {
    if entries == [] then []
    else [HostOfEntry(entries[0], defaultPort)] + HostsOfEntries(entries[1..], defaultPort)
  }

  /** `Host::Parse.call(hosts, default_port)`. */
  function Call(hosts: HostsArg, defaultPort: int): (r: Result<seq<Host>>)
    ensures hosts.OneHost? ==> r == Ok([hosts.host])
    ensures hosts.HostArray? ==> r == Ok(hosts.hosts)
    ensures hosts.OtherArg? <==> r.Err?
    ensures r.Err? ==> r.error == TypeError
  {
    match hosts
    case OneHost(h) => Ok([h])
    case HostArray(hs) => Ok(hs)
    case HostString(text) => Ok(HostsOfEntries(Split(text, ','), defaultPort))
    case OtherArg => Err(TypeError)
  }

  /** A string of comma-separated entries gives one Host per entry, in order. */
  lemma OneHostPerEntry(entries: seq<string>, defaultPort: int)
    requires entries != [] && entries[|entries| - 1] != ""
    requires forall i | 0 <= i < |entries| :: ',' !in entries[i]
    ensures var r := Call(HostString(Join(entries, ',')), defaultPort);
      && r.Ok? && |r.value| == |entries|
      && forall i | 0 <= i < |entries| :: r.value[i] == HostOfEntry(entries[i], defaultPort)
  {
    SplitJoin(entries, ',');
  }

  /** `addr:tls:port` gives all three, the port through `to_i`. */
  lemma ThreeParts(addr: string, tls: string, port: string, defaultPort: int)
    requires ':' !in addr && ':' !in tls && ':' !in port && port != ""
    ensures HostOfEntry(addr + [':'] + tls + [':'] + port, defaultPort) == Host(Some(addr), ToI(port), Some(tls))
  {
    assert [addr, tls, port][1..] == [tls, port] && [tls, port][1..] == [port];
    assert Join([tls, port], ':') == tls + [':'] + port;
    assert Join([addr, tls, port], ':') == addr + [':'] + (tls + [':'] + port);
    assert addr + [':'] + (tls + [':'] + port) == addr + [':'] + tls + [':'] + port;
    SplitJoin([addr, tls, port], ':');
  }

  /** `addr:x` with an all-digit `x` reads `x` as the port and has no TLS
      name; any other `x` is the TLS name and the port is the default. */
  lemma TwoParts(addr: string, x: string, defaultPort: int)
    requires ':' !in addr && ':' !in x && x != ""
    ensures IsInteger(x) ==> HostOfEntry(addr + [':'] + x, defaultPort) == Host(Some(addr), DigitsValue(x), None)
    ensures !IsInteger(x) ==> HostOfEntry(addr + [':'] + x, defaultPort) == Host(Some(addr), defaultPort, Some(x))
  {
    assert Join([addr, x], ':') == addr + [':'] + x;
    SplitJoin([addr, x], ':');
    if IsInteger(x) {
      ToIOfDigits(x);
    }
  }

  /** A bare address has the default port and no TLS name. */
  lemma OnePart(addr: string, defaultPort: int)
    requires ':' !in addr && addr != ""
    ensures HostOfEntry(addr, defaultPort) == Host(Some(addr), defaultPort, None)
  {
    assert Join([addr], ':') == addr;
    SplitJoin([addr], ':');
  }
}

=== FILE: node.dfy ===
/** A cluster node's bookkeeping state (lib/aerospike/node.rb) and the
    change-detecting counter it keeps its partition generation in
    (lib/aerospike/node/generation.rb). The atomics of the source are plain
    fields; the connection pool is not modelled. */
module NodeState {
  import opened Base
  import NodeValidation

  const FullHealth := 100

  /** What `update(x)` leaves in a counter holding (`number`, `changed`). */
  function Updated(number: int, changed: bool, x: int): (r: (int, bool))
    ensures r.0 == x
    ensures r.1 <==> changed || number != x
    ensures number == x ==> r == (number, changed)
  {
    if number == x then (number, changed) else (x, true)
  }

  /** A number that remembers whether it has changed since the flag was last
      cleared. */
  class Generation {
    var number: int
    var changed: bool

    constructor (number: int)
      ensures this.number == number && !changed
    {
      this.number := number;
      changed := false;
    }

    /** `changed?`. */
    function IsChanged(): bool
      reads this
    {
      changed
    }

    /** `eql?(n)`: the stored number is `n`. */
    function Eql(n: int): (r: bool)
      reads this
      ensures r <==> number == n
    {
      number == n
    }

    /** `reset_changed!`: clears the flag, keeps the number. */
    method ResetChanged()
      modifies this
      ensures !changed && number == old(number)
    {
      changed := false;
    }

    /** `update(x)`: a new number is stored and flagged; the same number
        changes nothing, not even an earlier flag. */
    method Update(x: int)
      modifies this
      ensures (number, changed) == Updated(old(number), old(changed), x)
    {
      if number == x {
        return;
      }
      number := x;
      changed := true;
    }
  }

  /** Updating twice with the same value is the same as updating once. */
  lemma UpdateTwice(number: int, changed: bool, x: int)
    ensures var once := Updated(number, changed, x);
      Updated(once.0, once.1, x) == once
  {
  }

  class Node {
    const name: Option<string>
    const host: Option<Host>
    const features: set<string>
    const clusterName: Option<string>
    const useNewInfo: bool
    var aliases: seq<Host>
    var health: int
    var peersCount: int
    var peersGeneration: int
    const partitionGeneration: Generation
    var referenceCount: int
    var responded: bool
    var active: bool
    var partitionChanged: bool
    var failures: int
    /** Connections of this node closed after a failed info exchange. */
    var connectionsClosed: nat

    /** `Node.new(cluster, nv)`: the validator's name, features and protocol
        choice; the host is the first alias. */
    constructor (nv: NodeValidation.Validated)
      ensures name == nv.id.name && features == nv.id.features && useNewInfo == nv.id.useNewInfo
      ensures clusterName == nv.clusterName && aliases == nv.aliases
      ensures host == if nv.aliases == [] then None else Some(nv.aliases[0])
      ensures health == FullHealth && active && !responded
      ensures referenceCount == 0 && failures == 0 && peersCount == 0
      ensures peersGeneration == -1 && partitionGeneration.number == -1 && !partitionGeneration.changed
      ensures !partitionChanged && connectionsClosed == 0
      ensures fresh(partitionGeneration)
    {
      name := nv.id.name;
      features := nv.id.features;
      useNewInfo := nv.id.useNewInfo;
      clusterName := nv.clusterName;
      aliases := nv.aliases;
      host := if nv.aliases == [] then None else Some(nv.aliases[0]);
      health := FullHealth;
      peersCount := 0;
      peersGeneration := -1;
      partitionGeneration := new Generation(-1);
      referenceCount := 0;
      responded := false;
      active := true;
      partitionChanged := false;
      failures := 0;
      connectionsClosed := 0;
    }

    /** `restore_health`: back to full health; `active` is not touched. */
    method RestoreHealth()
      modifies this`health
      ensures health == FullHealth
    {
      health := FullHealth;
    }

    /** `decrease_health`: one point less. */
    method DecreaseHealth()
      modifies this`health
      ensures health == old(health) - 1
    {
      health := health - 1;
    }

    /** `unhealthy?`. */
    function Unhealthy(): (r: bool)
      reads this
      ensures r <==> health <= 0
    {
      health <= 0
    }

    /** `active!` is the only operation that makes a node active. */
    method Activate()
      modifies this`active
      ensures active
    {
      active := true;
    }

    /** `inactive!`. */
    method Deactivate()
      modifies this`active
      ensures !active
    {
      active := false;
    }

    /** `close`: inactive; the pooled connections are drained. */
    method Close()
      modifies this`active
      ensures !active
    {
      active := false;
    }

    /** `conn.close` on the connection a failed refresh used. */
    method CloseConnection()
      modifies this`connectionsClosed
      ensures connectionsClosed == old(connectionsClosed) + 1
    {
      connectionsClosed := connectionsClosed + 1;
    }

    method MarkResponded()
      modifies this`responded
      ensures responded
    {
      responded := true;
    }

    method ResetResponded()
      modifies this`responded
      ensures !responded
    {
      responded := false;
    }

    method ResetFailures()
      modifies this`failures
      ensures failures == 0
    {
      failures := 0;
    }

    method IncreaseFailures()
      modifies this`failures
      ensures failures == old(failures) + 1
    {
      failures := failures + 1;
    }

    method ResetReferenceCount()
      modifies this`referenceCount
      ensures referenceCount == 0
    {
      referenceCount := 0;
    }

    method IncreaseReferenceCount()
      modifies this`referenceCount
      ensures referenceCount == old(referenceCount) + 1
    {
      referenceCount := referenceCount + 1;
    }

    method SetPeersCount(n: int)
      modifies this`peersCount
      ensures peersCount == n
    {
      peersCount := n;
    }

    method SetPeersGeneration(n: int)
      modifies this`peersGeneration
      ensures peersGeneration == n
    {
      peersGeneration := n;
    }

    /** `add_alias`: appended at the end, the others kept. */
    method AddAlias(a: Host)
      modifies this`aliases
      ensures aliases == old(aliases) + [a]
    {
      aliases := aliases + [a];
    }

    /** `supports_feature?(f)`. */
    function SupportsFeature(f: string): (r: bool)
      ensures r <==> f in features
    {
      f in features
    }

    /** `==` (and `eql?`): another node with the same name. */
    function SameAs(other: Node?): (r: bool)
      ensures r <==> other != null && name == other.name
    {
      other != null && name == other.name
    }

    /** `hash`: derived from the name alone. */
    function HashKey(): Option<string>
    {
      name
    }
  }

  /** Equal nodes have equal hashes, and node equality is an equivalence. */
  lemma EqualNodesHashAlike(a: Node, b: Node, c: Node)
    ensures a.SameAs(b) ==> a.HashKey() == b.HashKey()
    ensures a.SameAs(a)
    ensures a.SameAs(b) ==> b.SameAs(a)
    ensures a.SameAs(b) && b.SameAs(c) ==> a.SameAs(c)
  {
  }

  /** Health after `k` decrements from `h`. */
  function HealthAfter(h: int, k: nat): (r: int)
  {
    if k == 0 then h else HealthAfter(h, k - 1) - 1
  }

  /** From full health it takes exactly 100 failures to become unhealthy. */
  lemma {:induction false} HundredFailuresToUnhealthy(k: nat)
    ensures HealthAfter(FullHealth, k) == FullHealth - k
    ensures HealthAfter(FullHealth, k) <= 0 <==> k >= 100
  {
    if k > 0 {
      HundredFailuresToUnhealthy(k - 1);
    }
  }
}

=== FILE: node_validator.dfy ===
/** What `NodeValidator` (lib/aerospike/node_validator.rb) learns about a
    seed host: the node name, its feature set and whether the build speaks the
    newer info protocol. Name resolution and the probe connections are not
    modelled; each alias contributes an already-obtained probe outcome. */
module NodeValidation {
  import opened Base

  // ---------------------------------------------------------------------
  // The build version: /(?<v1>\d+)\.(?<v2>\d+)\.(?<v3>\d+).*/

  datatype Version = Version(v1: string, v2: string, v3: string)

  predicate IsNumber(s: string)
  {
    s != [] && AllDigits(s)
  }

  /** The match that starts at `p`, if one does. Each group is a maximal run of
      digits (a shorter run would be followed by a digit, not by `.`), and the
      trailing `.*` accepts anything. */
  function VersionAt(s: string, p: nat): (m: Option<Version>)
    requires p <= |s|
    ensures m.Some? ==> IsNumber(m.value.v1) && IsNumber(m.value.v2) && IsNumber(m.value.v3)
  {
    var a := DigitRunEnd(s, p);
    if a == p || a == |s| || s[a] != '.' then None
    else
      var b := DigitRunEnd(s, a + 1);
      if b == a + 1 || b == |s| || s[b] != '.' then None
      else
        var c := DigitRunEnd(s, b + 1);
        if c == b + 1 then None else Some(Version(s[p..a], s[a + 1..b], s[b + 1..c]))
  }

  /** The leftmost match at or after `from`. */
  function FindVersion(s: string, from: nat): (m: Option<Version>)
    requires from <= |s|
    decreases |s| - from
    ensures m.Some? ==> exists p | from <= p <= |s| :: VersionAt(s, p) == m
    ensures m.None? ==> forall p | from <= p <= |s| :: VersionAt(s, p).None?
  {
    if VersionAt(s, from).Some? then VersionAt(s, from)
    else if from == |s| then None
    else FindVersion(s, from + 1)
  }

  /** `parse_version_string`: the three groups, or a parse error. */
  function ParseVersionString(version: string): (r: Result<Version>)
    ensures r.Err? <==> forall p | 0 <= p <= |version| :: VersionAt(version, p).None?
    ensures r.Err? ==> r.error == ParseError
    ensures r.Ok? ==> IsNumber(r.value.v1) && IsNumber(r.value.v2) && IsNumber(r.value.v3)
  {
    match FindVersion(version, 0)
    case None => Err(ParseError)
    case Some(v) => Ok(v)
  }

  /** The `@use_new_info` test on the three groups read with `to_i`. */
  function UseNewInfo(v: Version): bool
  {
    AtLeast266(ToI(v.v1), ToI(v.v2), ToI(v.v3))
  }

  predicate AtLeast266(a: int, b: int, c: int)
  {
    a > 2 || (a == 2 && (b > 6 || (b == 6 && c >= 6)))
  }

  /** Lexicographic order on integer sequences (a proper prefix is smaller). */
  predicate LexLess(u: seq<int>, v: seq<int>)
  {
    if u == [] then v != []
    else v != [] && (u[0] < v[0] || (u[0] == v[0] && LexLess(u[1..], v[1..])))
  }

  /** The test holds exactly when (a, b, c) is not below (2, 6, 6) in
      lexicographic order. */
  lemma AtLeast266IsLexOrder(a: int, b: int, c: int)
    ensures AtLeast266(a, b, c) <==> !LexLess([a, b, c], [2, 6, 6])
  {
    var u, w := [a, b, c], [2, 6, 6];
    assert u[1..] == [b, c] && u[1..][1..] == [c] && u[1..][1..][1..] == [];
    assert w[1..] == [6, 6] && w[1..][1..] == [6] && w[1..][1..][1..] == [];
    assert LexLess([c], [6]) <==> c < 6;
    assert LexLess([b, c], [6, 6]) <==> b < 6 || (b == 6 && c < 6);
  }

  /** For a matched version the groups are plain decimal numbers, so the
      newer protocol is chosen exactly for builds from 2.6.6 on. */
  lemma UseNewInfoFrom266(v: Version)
    requires IsNumber(v.v1) && IsNumber(v.v2) && IsNumber(v.v3)
    ensures UseNewInfo(v) <==> !LexLess([DigitsValue(v.v1), DigitsValue(v.v2), DigitsValue(v.v3)], [2, 6, 6])
  {
    ToIOfDigits(v.v1);
    ToIOfDigits(v.v2);
    ToIOfDigits(v.v3);
    AtLeast266IsLexOrder(DigitsValue(v.v1), DigitsValue(v.v2), DigitsValue(v.v3));
  }

  // ---------------------------------------------------------------------
  // Folding the aliases' replies into the validator's fields

  /** What `set_address` has gathered so far. */
  datatype Identity = Identity(name: Option<string>, features: set<string>, useNewInfo: bool)

  /** The state `initialize` leaves before `set_address`: no name, no
      features, newer protocol assumed. */
  const Initial := Identity(None, {}, true)

  /** What probing one alias gave: the connection could not be made, the info
      request failed, or it was answered. */
  datatype Probe = ConnectFailed(error: Error) | InfoFailed(error: Error) | Replied(info: InfoMap)

  /** `features.split(';').to_set`. */
  function FeatureSet(features: string): set<string>
  {
    set f | f in Split(features, ';')
  }

  /** The body of the alias loop for one answered probe: the new identity and
      whether the step raised (only a bad build string does, after the name
      and features have been stored). */
  function Absorb(id: Identity, info: InfoMap): (r: (Identity, Outcome))
    ensures "node" !in info ==> r == (id, Pass)
  {
    if "node" !in info then (id, Pass)
    else
      var named := id.(name := Some(info["node"]));
      var featured := if "features" in info then named.(features := FeatureSet(info["features"])) else named;
      if "build" !in info then (featured, Pass)
      else
        match ParseVersionString(info["build"])
        case Err(e) => (featured, Fail(e))
        case Ok(v) => (featured.(useNewInfo := UseNewInfo(v)), Pass)
  }

  /** One answered probe: the name comes from `node`, the features are
      replaced only when `features` is present, and `build` decides the
      protocol unless it cannot be parsed, which raises. */
  lemma AbsorbEffect(id: Identity, info: InfoMap)
    requires "node" in info
    ensures var r := Absorb(id, info);
      && r.0.name == Some(info["node"])
      && r.0.features == (if "features" in info then FeatureSet(info["features"]) else id.features)
      && ("build" !in info ==> r.1 == Pass && r.0.useNewInfo == id.useNewInfo)
      && ("build" in info ==>
            match ParseVersionString(info["build"])
            case Err(e) => r.1 == Fail(e) && r.0.useNewInfo == id.useNewInfo
            case Ok(v) => r.1 == Pass && r.0.useNewInfo == UseNewInfo(v))
  {
  }

  /** The whole alias loop: every probe in turn, stopping at the first raise. */
  function AbsorbAll(id: Identity, probes: seq<Probe>): (r: (Identity, Outcome))
    decreases |probes|
    ensures probes == [] ==> r == (id, Pass)
  {
    if probes == [] then (id, Pass)
    else
      match probes[0]
      case ConnectFailed(e) => (id, Fail(e))
      case InfoFailed(e) => (id, Fail(e))
      case Replied(info) =>
        var step := Absorb(id, info);
        if step.1.Fail? then step else AbsorbAll(step.0, probes[1..])
  }

  /** Connections opened by the loop: one per probe reached that got past the
      connect (each of them is closed again by the `ensure`). */
  function Opened(probes: seq<Probe>, id: Identity): (n: nat)
    decreases |probes|
    ensures n <= |probes|
  {
    if probes == [] then 0
    else
      match probes[0]
      case ConnectFailed(_) => 0
      case InfoFailed(_) => 1
      case Replied(info) =>
        var step := Absorb(id, info);
        if step.1.Fail? then 1 else 1 + Opened(probes[1..], step.0)
  }

  /** Nothing changes for aliases whose reply has no `node` entry. */
  lemma {:induction false} SilentAliasesChangeNothing(id: Identity, probes: seq<Probe>)
    requires forall i | 0 <= i < |probes| :: probes[i].Replied? && "node" !in probes[i].info
    ensures AbsorbAll(id, probes) == (id, Pass)
    decreases |probes|
  {
    if probes != [] {
      SilentAliasesChangeNothing(id, probes[1..]);
    }
  }

  /** The loop does not stop early: when the run completes, the name is that
      of the last alias that answered with a `node` entry. */
  lemma {:induction false} LastAnswerWins(id: Identity, probes: seq<Probe>, k: nat)
    requires k < |probes| && probes[k].Replied? && "node" in probes[k].info
    requires forall i | k < i < |probes| :: probes[i].Replied? && "node" !in probes[i].info
    requires AbsorbAll(id, probes).1.Pass?
    ensures AbsorbAll(id, probes).0.name == Some(probes[k].info["node"])
    decreases k
  {
    var step := Absorb(id, probes[0].info);
    if k == 0 {
      SilentAliasesChangeNothing(step.0, probes[1..]);
    } else {
      LastAnswerWins(step.0, probes[1..], k - 1);
    }
  }

  /** Without a `build` entry in any reply the newer protocol stays selected. */
  lemma {:induction false} NoBuildKeepsNewInfo(id: Identity, probes: seq<Probe>)
    requires forall i | 0 <= i < |probes| :: probes[i].Replied? ==> "build" !in probes[i].info
    ensures AbsorbAll(id, probes).0.useNewInfo == id.useNewInfo
    decreases |probes|
  {
    if probes != [] && probes[0].Replied? {
      var step := Absorb(id, probes[0].info);
      NoBuildKeepsNewInfo(step.0, probes[1..]);
    }
  }

  /** What a validator that completed exposes to the cluster code: its
      identity, the resolved aliases and the cluster name it was given. */
  datatype Validated = Validated(id: Identity, aliases: seq<Host>, clusterName: Option<string>)

  /** Constructing a `NodeValidator` for a host (name resolution and probing
      included): the outcome is a parameter of the cluster code. */
  type Validator = Option<Host> -> Result<Validated>

  /** The validator object: its fields are overwritten alias by alias. */
  class NodeValidator {
    const host: Host
    const aliases: seq<Host>
    var name: Option<string>
    var features: set<string>
    var useNewInfo: bool
    /** Probe connections opened and closed so far. */
    var probesOpened: nat
    var probesClosed: nat

    function Current(): Identity
      reads this
    {
      Identity(name, features, useNewInfo)
    }

    /** `initialize` up to `set_address`; `aliases` stands for what
        `set_aliases` resolved. */
    constructor (host: Host, aliases: seq<Host>)
      ensures this.host == host && this.aliases == aliases
      ensures Current() == Initial && probesOpened == 0 && probesClosed == 0
    {
      this.host := host;
      this.aliases := aliases;
      name := None;
      features := {};
      useNewInfo := true;
      probesOpened := 0;
      probesClosed := 0;
    }

    /** `set_address`: once per resolved alias, probe the validator's own
        host (the alias itself is never used; `probes[i]` is what the i-th
        probe gave) and absorb each reply; a raise ends the loop after the
        connection has been closed. */
    method SetAddress(probes: seq<Probe>) returns (r: Outcome)
      requires |probes| == |aliases|
      requires probesOpened == probesClosed
      modifies this
      ensures (Current(), r) == AbsorbAll(old(Current()), probes)
      ensures probesOpened == probesClosed == old(probesOpened) + Opened(probes, old(Current()))
    {
      var i := 0;
      while i < |probes|
        invariant i <= |probes|
        invariant probesOpened == probesClosed
        invariant AbsorbAll(old(Current()), probes) == AbsorbAll(Current(), probes[i..])
        invariant old(probesOpened) + Opened(probes, old(Current())) == probesOpened + Opened(probes[i..], Current())
      {
        assert probes[i..][1..] == probes[i + 1..];
        if probes[i].ConnectFailed? {
          return Fail(probes[i].error);
        }
        probesOpened := probesOpened + 1;
        if probes[i].InfoFailed? {
          probesClosed := probesClosed + 1;
          return Fail(probes[i].error);
        }
        r := Answered(probes[i].info);
        probesClosed := probesClosed + 1;
        if r.Fail? {
          return;
        }
        i := i + 1;
      }
      r := Pass;
    }

    /** The body of the alias loop for an answered info request. */
    method Answered(info: InfoMap) returns (r: Outcome)
      modifies this`name, this`features, this`useNewInfo
      ensures (Current(), r) == Absorb(old(Current()), info)
    {
      r := Pass;
      if "node" in info {
        name := Some(info["node"]);
        if "features" in info {
          features := FeatureSet(info["features"]);
        }
        if "build" in info {
          var v := ParseVersionString(info["build"]);
          if v.Err? {
            return Fail(v.error);
          }
          useNewInfo := UseNewInfo(v.value);
        }
      }
    }
  }
}

=== FILE: peer_grammar.dfy ===
/** The peer-list wire format `generation,defaultPort,[[name,tls,[host[:port],...]],...]`
    as pure functions over a string and a cursor position. These functions are
    the specification the cursor-based parser (PeersParse) is proved against;
    they follow lib/aerospike/peers/parse.rb branch by branch, and
    lib/aerospike/cluster/peer/parse.rb where it differs (`ipv6Guard == false`). */
module PeerGrammar {
  import opened Base
  import opened StringParsing

  /** `Host.new(hostname, port, peer.tls_name)`: the port stays a string (or nil). */
  datatype PeerHost = PeerHost(name: Option<string>, port: Option<string>, tlsName: string)

  /** A peer record; `hosts` holds one host list per `parse_host` call. */
  datatype Peer = Peer(nodeName: string, tlsName: string, hosts: seq<seq<PeerHost>>)

  /** The parsed response object: generation, default port and peers. */
  datatype PeerList = PeerList(generation: int, portDefault: Option<int>, peers: seq<Peer>)

  /** Drops the cursor position from a parse result. */
  function Value<T>(r: Result<(T, nat)>): Result<T>
  {
    match r
    case Ok(v) => Ok(v.0)
    case Err(e) => Err(e)
  }

  // ---------------------------------------------------------------------
  // The regular expression /(\d+),(\d*),\[(.*)\]/ (unanchored, `.` stops at a newline)

  datatype BaseMatch = BaseMatch(generation: string, port: string, peers: string)

  /** Index of the last `c` in `s[a..b]`. */
  function LastIndexBefore(s: string, a: nat, b: nat, c: char): (r: Option<nat>)
    requires a <= b <= |s|
    decreases b - a
    ensures r.Some? ==> a <= r.value < b && s[r.value] == c && c !in s[r.value + 1..b]
    ensures r.None? ==> c !in s[a..b]
  {
    if b == a then None
    else if s[b - 1] == c then Some(b - 1)
    else
      var r := LastIndexBefore(s, a, b - 1, c);
      assert r.Some? ==> s[r.value + 1..b] == s[r.value + 1..b - 1] + [s[b - 1]];
      assert s[a..b] == s[a..b - 1] + [s[b - 1]];
      r
  }

  /** End of the line that contains position `a`. */
  function LineEnd(s: string, a: nat): (e: nat)
    requires a <= |s|
    ensures a <= e <= |s|
    ensures '\n' !in s[a..e]
  {
    FindFromSkips(s, a, '\n');
    match FindFrom(s, a, '\n')
    case None => |s|
    case Some(k) => k
  }

  /** The match that starts at `p`, if one does. Backtracking cannot help the
      digit groups (a shorter run is followed by a digit, not `,`), and the
      greedy `(.*)\]` ends at the last `]` of the line. */
  function MatchBaseAt(s: string, p: nat): (m: Option<BaseMatch>)
    requires p <= |s|
    ensures m.Some? ==> m.value.generation != [] && AllDigits(m.value.generation)
    ensures m.Some? ==> AllDigits(m.value.port)
  {
    var q := DigitRunEnd(s, p);
    if q == p || q == |s| || s[q] != ',' then None
    else
      var r := DigitRunEnd(s, q + 1);
      if r + 1 >= |s| || s[r] != ',' || s[r + 1] != '[' then None
      else
        match LastIndexBefore(s, r + 2, LineEnd(s, r + 2), ']')
        case None => None
        case Some(e) => Some(BaseMatch(s[p..q], s[q + 1..r], s[r + 2..e]))
  }

  /** The leftmost match at or after `from`. */
  function MatchBase(s: string, from: nat): (m: Option<BaseMatch>)
    requires from <= |s|
    decreases |s| - from
    ensures m.Some? ==> m.value.generation != [] && AllDigits(m.value.generation)
    ensures m.Some? ==> AllDigits(m.value.port)
  {
    if MatchBaseAt(s, from).Some? then MatchBaseAt(s, from)
    else if from == |s| then None
    else MatchBase(s, from + 1)
  }

  // ---------------------------------------------------------------------
  // The cursor primitives and the grammar

  /** `expect(c)`: the position after `c`, or a parse error. */
  function ExpectAt(s: string, pos: nat, c: char): (r: Result<nat>)
    requires pos <= |s|
    ensures r.Ok? ==> r.value == pos + 1 <= |s|
  {
    if pos < |s| && s[pos] == c then Ok(pos + 1) else Err(ParseError)
  }

  /** `read_until(c)`: the text before the next `c` and the position after it. */
  function ReadUntilAt(s: string, pos: nat, c: char): (r: Result<(string, nat)>)
    requires pos <= |s|
    ensures r.Ok? ==> pos < r.value.1 <= |s|
  {
    match FindFrom(s, pos, c)
    case None => Err(Diverges)
    case Some(k) => Ok((s[pos..k], k + 1))
  }

  /** One `host[:port]` entry: `hostname, port = host.split(':')`. */
  function HostOfEntry(entry: string, tls: string): PeerHost
  {
    var parts := Split(entry, ':');
    PeerHost(if |parts| > 0 then Some(parts[0]) else None,
             if |parts| > 1 then Some(parts[1]) else None,
             tls)
  }

  /** The `map` over the entries of a host text. */
  function HostsOfEntries(entries: seq<string>, tls: string): (r: seq<PeerHost>)
    ensures |r| == |entries|
  {
    if entries == [] then [] else [HostOfEntry(entries[0], tls)] + HostsOfEntries(entries[1..], tls)
  }

  /** `text.split(',').map { ... }`. */
  function HostsOfText(text: string, tls: string): seq<PeerHost>
  {
    HostsOfEntries(Split(text, ','), tls)
  }

  /** The five parsing routines of the format, which call one another:
      `parse_host`, the loop of `parse_hosts`, `parse_hosts`, `parse_peer` and
      the loop of `parse_peers`. A loop rule carries what it has read so far. */
  datatype Rule =
    | HostRule(tls: string)
    | HostLoop(tls: string, lists: seq<seq<PeerHost>>)
    | HostsRule(tls: string)
    | PeerRule
    | PeerLoop(peers: seq<Peer>)
  {
    /** The order in which a rule may call another at the same position. */
    function Rank(): nat
    {
      match this
      case HostRule(_) => 0
      case HostLoop(_, _) => 1
      case HostsRule(_) => 2
      case PeerRule => 3
      case PeerLoop(_) => 4
    }
  }

  /** What a rule yields. */
  datatype Tree =
    | HostsTree(hosts: seq<PeerHost>)
    | ListsTree(lists: seq<seq<PeerHost>>)
    | PeerTree(peer: Peer)
    | PeersTree(peers: seq<Peer>)

  predicate Fits(rule: Rule, t: Tree)
  {
    match rule
    case HostRule(_) => t.HostsTree?
    case HostLoop(_, _) => t.ListsTree?
    case HostsRule(_) => t.ListsTree?
    case PeerRule => t.PeerTree?
    case PeerLoop(_) => t.PeersTree?
  }

  /** The grammar: what `rule` reads from `s` at `pos`, and the position after
      it. Every rule that succeeds consumes at least one character. */
  function Derive(s: string, pos: nat, g: bool, rule: Rule): (r: Result<(Tree, nat)>)
    requires pos <= |s|
    decreases |s| - pos, rule.Rank()
    ensures r.Ok? ==> pos < r.value.1 <= |s| && Fits(rule, r.value.0)
  {
    match rule
    case HostRule(tls) =>
      // the `[` check exists in the newer revision only
      if g && CharAt(s, pos) == Some('[') then Err(ParseError)
      else
        var text :- ReadUntilAt(s, pos, ']');
        Ok((HostsTree(HostsOfText(text.0, tls)), text.1))
    case HostLoop(tls, lists) =>
      var h :- Derive(s, pos, g, HostRule(tls));
      if CharAt(s, h.1) == Some(',') then Derive(s, h.1 + 1, g, HostLoop(tls, lists + [h.0.hosts]))
      else Ok((ListsTree(lists + [h.0.hosts]), h.1))
    case HostsRule(tls) =>
      // an immediate `]` is left unread
      var p :- ExpectAt(s, pos, '[');
      if CharAt(s, p) == Some(']') then Ok((ListsTree([]), p))
      else Derive(s, p, g, HostLoop(tls, []))
    case PeerRule =>
      var p :- ExpectAt(s, pos, '[');
      var name :- ReadUntilAt(s, p, ',');
      var tls :- ReadUntilAt(s, name.1, ',');
      var hosts :- Derive(s, tls.1, g, HostsRule(tls.0));
      var q :- ExpectAt(s, hosts.1, ']');
      Ok((PeerTree(Peer(name.0, tls.0, hosts.0.lists)), q))
    case PeerLoop(peers) =>
      var h :- Derive(s, pos, g, PeerRule);
      if CharAt(s, h.1) == Some(',') then Derive(s, h.1 + 1, g, PeerLoop(peers + [h.0.peer]))
      else Ok((PeersTree(peers + [h.0.peer]), h.1))
  }

  /** `parse_host`: the hosts of one `...]` group. */
  function HostAt(s: string, pos: nat, tls: string, g: bool): (r: Result<(seq<PeerHost>, nat)>)
    requires pos <= |s|
    ensures r.Ok? ==> pos < r.value.1 <= |s|
  {
    var t :- Derive(s, pos, g, HostRule(tls));
    Ok((t.0.hosts, t.1))
  }

  /** The loop of `parse_hosts` after `lists` have been read. */
  function HostListAt(s: string, pos: nat, tls: string, g: bool, lists: seq<seq<PeerHost>>)
    : (r: Result<(seq<seq<PeerHost>>, nat)>)
    requires pos <= |s|
    ensures r.Ok? ==> pos < r.value.1 <= |s|
  {
    var t :- Derive(s, pos, g, HostLoop(tls, lists));
    Ok((t.0.lists, t.1))
  }

  /** `parse_hosts`: the host lists of a `[...]` group. */
  function HostsAt(s: string, pos: nat, tls: string, g: bool): (r: Result<(seq<seq<PeerHost>>, nat)>)
    requires pos <= |s|
    ensures r.Ok? ==> pos < r.value.1 <= |s|
  {
    var t :- Derive(s, pos, g, HostsRule(tls));
    Ok((t.0.lists, t.1))
  }

  /** `parse_peer`: one `[name,tls,[hosts]]` record. */
  function PeerAt(s: string, pos: nat, g: bool): (r: Result<(Peer, nat)>)
    requires pos <= |s|
    ensures r.Ok? ==> pos < r.value.1 <= |s|
  {
    var t :- Derive(s, pos, g, PeerRule);
    Ok((t.0.peer, t.1))
  }

  /** The loop of `parse_peers` after `peers` have been read. */
  function PeerListAt(s: string, pos: nat, g: bool, peers: seq<Peer>): (r: Result<(seq<Peer>, nat)>)
    requires pos <= |s|
    ensures r.Ok? ==> pos < r.value.1 <= |s|
  {
    var t :- Derive(s, pos, g, PeerLoop(peers));
    Ok((t.0.peers, t.1))
  }

  /** One round of the host-list loop: an error ends it, a `,` continues it. */
  lemma HostListRound(s: string, pos: nat, tls: string, g: bool, lists: seq<seq<PeerHost>>)
    requires pos <= |s|
    ensures var h := HostAt(s, pos, tls, g);
      HostListAt(s, pos, tls, g, lists) ==
        if h.Err? then Err(h.error)
        else if CharAt(s, h.value.1) == Some(',') then HostListAt(s, h.value.1 + 1, tls, g, lists + [h.value.0])
        else Ok((lists + [h.value.0], h.value.1))
  {
  }

  /** One round of the peer loop: an error ends it, a `,` continues it. */
  lemma PeerListRound(s: string, pos: nat, g: bool, peers: seq<Peer>)
    requires pos <= |s|
    ensures var h := PeerAt(s, pos, g);
      PeerListAt(s, pos, g, peers) ==
        if h.Err? then Err(h.error)
        else if CharAt(s, h.value.1) == Some(',') then PeerListAt(s, h.value.1 + 1, g, peers + [h.value.0])
        else Ok((peers + [h.value.0], h.value.1))
  {
  }

  /** `parse_peers`: the empty section gives no peers. */
  function PeersOf(body: string, ipv6Guard: bool): Result<seq<Peer>>
  {
    if body == [] then Ok([]) else Value(PeerListAt(body, 0, ipv6Guard, []))
  }

  /** What `generation`, `port_default` and `peers` become for a match. */
  function ListOf(m: BaseMatch, peers: seq<Peer>): PeerList
  {
    PeerList(ToI(m.generation), if m.port == [] then None else Some(ToI(m.port)), peers)
  }

  /** `Peers::Parse.call` (lib/aerospike/peers/parse.rb): no match is a parse error. */
  function ParseResponse(response: string): Result<PeerList>
  {
    match MatchBase(response, 0)
    case None => Err(ParseError)
    case Some(m) =>
      var peers :- PeersOf(m.peers, true);
      Ok(ListOf(m, peers))
  }

  /** `Cluster::Peer::Parse.call` (lib/aerospike/cluster/peer/parse.rb): without
      a match all three groups are nil and `port.empty?` is called on nil. */
  function ParseResponseLegacy(response: string): Result<PeerList>
  {
    match MatchBase(response, 0)
    case None => Err(NoMethodError)
    case Some(m) =>
      var peers :- PeersOf(m.peers, false);
      Ok(ListOf(m, peers))
  }

  // ---------------------------------------------------------------------
  // Properties of the format

  /** The generation is the value of the first digit group; the default port
      is nil exactly when the second group is empty, and its value otherwise. */
  lemma ResponseFields(response: string)
    requires ParseResponse(response).Ok? || ParseResponseLegacy(response).Ok?
    ensures MatchBase(response, 0).Some?
    ensures var m := MatchBase(response, 0).value;
      var r := if ParseResponse(response).Ok? then ParseResponse(response).value
               else ParseResponseLegacy(response).value;
      && r.generation == DigitsValue(m.generation)
      && (r.portDefault.None? <==> m.port == [])
      && (r.portDefault.Some? ==> r.portDefault.value == DigitsValue(m.port))
  {
    var m := MatchBase(response, 0).value;
    ToIOfDigits(m.generation);
    if m.port != [] {
      ToIOfDigits(m.port);
    }
  }

  /** Input without a match never yields a partial result: the newer revision
      raises a parse error, the older one fails on nil. */
  lemma NoMatchFails(response: string)
    requires forall p | 0 <= p <= |response| :: MatchBaseAt(response, p).None?
    ensures ParseResponse(response) == Err(ParseError)
    ensures ParseResponseLegacy(response) == Err(NoMethodError)
  {
    NoMatchFrom(response, 0);
  }

  lemma {:induction false} NoMatchFrom(s: string, from: nat)
    requires from <= |s|
    requires forall p | from <= p <= |s| :: MatchBaseAt(s, p).None?
    ensures MatchBase(s, from).None?
    decreases |s| - from
  {
    if from < |s| {
      NoMatchFrom(s, from + 1);
    }
  }

  /** The newer revision rejects a host list that opens with `[` (an IPv6
      literal); the older one never raises a parse error inside a host list. */
  lemma IPv6HostRejected(s: string, pos: nat, tls: string)
    requires pos + 1 < |s| && s[pos] == '[' && s[pos + 1] == '['
    ensures HostsAt(s, pos, tls, true) == Err(ParseError)
    ensures HostsAt(s, pos, tls, false) != Err(ParseError)
  {
    assert HostAt(s, pos + 1, tls, true) == Err(ParseError);
    HostListRound(s, pos + 1, tls, true, []);
    UnguardedHostListNoParseError(s, pos + 1, tls, []);
  }

  lemma {:induction false} UnguardedHostListNoParseError(s: string, pos: nat, tls: string, acc: seq<seq<PeerHost>>)
    requires pos <= |s|
    ensures HostListAt(s, pos, tls, false, acc).Err? ==> HostListAt(s, pos, tls, false, acc).error == Diverges
    decreases |s| - pos
  {
    var h := HostAt(s, pos, tls, false);
    HostListRound(s, pos, tls, false, acc);
    if h.Ok? && CharAt(s, h.value.1) == Some(',') {
      UnguardedHostListNoParseError(s, h.value.1 + 1, tls, acc + [h.value.0]);
    }
  }

  /** In the usual layout `[h1,h2:p]]` the `]` that ends the host text is
      followed by the peer's own `]`, so `hosts` is a one-element list that
      wraps the split host entries. */
  lemma HostsAreOneList(s: string, pos: nat, tls: string, k: nat)
    requires pos + 1 < |s| && s[pos] == '[' && s[pos + 1] != ']' && s[pos + 1] != '['
    requires FindFrom(s, pos + 1, ']') == Some(k)
    requires CharAt(s, k + 1) != Some(',')
    ensures HostsAt(s, pos, tls, true) == Ok(([HostsOfText(s[pos + 1..k], tls)], k + 1))
    ensures HostsAt(s, pos, tls, false) == HostsAt(s, pos, tls, true)
  {
    var x := HostsOfText(s[pos + 1..k], tls);
    assert ReadUntilAt(s, pos + 1, ']') == Ok((s[pos + 1..k], k + 1));
    HostListRound(s, pos + 1, tls, true, []);
    HostListRound(s, pos + 1, tls, false, []);
    assert [] + [x] == [x];
  }

  /** A peer record `[name,tls,...`: the name and the TLS name are the raw
      text up to the first and the second `,` (so neither holds a `,`, and an
      empty TLS name stays empty); then come the host lists and a `]`. */
  lemma PeerFields(s: string, pos: nat, g: bool, k1: nat, k2: nat)
    requires pos < |s| && s[pos] == '['
    requires FindFrom(s, pos + 1, ',') == Some(k1)
    requires FindFrom(s, k1 + 1, ',') == Some(k2)
    ensures ',' !in s[pos + 1..k1] && ',' !in s[k1 + 1..k2]
    ensures k2 == k1 + 1 ==> s[k1 + 1..k2] == ""
    ensures var tls := s[k1 + 1..k2];
      var hosts := HostsAt(s, k2 + 1, tls, g);
      PeerAt(s, pos, g) ==
        if hosts.Err? then Err(hosts.error)
        else if CharAt(s, hosts.value.1) == Some(']') then Ok((Peer(s[pos + 1..k1], tls, hosts.value.0), hosts.value.1 + 1))
        else Err(ParseError)
  {
    FindFromSkips(s, pos + 1, ',');
    FindFromSkips(s, k1 + 1, ',');
    var tls := s[k1 + 1..k2];
    assert ReadUntilAt(s, pos + 1, ',') == Ok((s[pos + 1..k1], k1 + 1));
    assert ReadUntilAt(s, k1 + 1, ',') == Ok((tls, k2 + 1));
    var t := Derive(s, k2 + 1, g, HostsRule(tls));
    assert t.Ok? ==> HostsAt(s, k2 + 1, tls, g) == Ok((t.value.0.lists, t.value.1));
  }

  /** `"1,,[]"` gives generation 1, no default port and no peers. */
  lemma EmptyPeerSection()
    ensures ParseResponse("1,,[]") == Ok(PeerList(1, None, []))
    ensures ParseResponseLegacy("1,,[]") == Ok(PeerList(1, None, []))
  {
    var s := "1,,[]";
    assert DigitPrefixLength(s[0..]) == 1 by {
      assert s[0..][1..] == ",,[]";
      assert DigitPrefixLength(",,[]") == 0;
    }
    assert DigitRunEnd(s, 0) == 1;
    assert DigitPrefixLength(s[2..]) == 0 by {
      assert s[2..] == ",[]";
    }
    assert DigitRunEnd(s, 2) == 2;
    assert FindFrom(s, 4, '\n') == None by {
      assert s[4..] == "]";
    }
    assert LineEnd(s, 4) == 5;
    assert LastIndexBefore(s, 4, 5, ']') == Some(4);
    var m := BaseMatch("1", "", "");
    assert MatchBaseAt(s, 0) == Some(m) by {
      assert s[0..1] == "1" && s[2..2] == "" && s[4..4] == "";
    }
    assert MatchBase(s, 0) == Some(m);
    assert ToI("1") == 1 by {
      ToIOfDigits("1");
    }
  }

  /** `",,"` does not match: a parse error in the newer revision, a failure on
      nil in the older one. */
  lemma InvalidResponse()
    ensures ParseResponse(",,") == Err(ParseError)
    ensures ParseResponseLegacy(",,") == Err(NoMethodError)
  {
    var s := ",,";
    forall p | 0 <= p <= |s| ensures MatchBaseAt(s, p).None? {
      assert DigitRunEnd(s, p) == p;
    }
    NoMatchFails(s);
  }
}

=== FILE: peers_parse.dfy ===
/** The cursor-based peer-list parser of lib/aerospike/peers/parse.rb. Each
    method runs on a StringParser and is proved to compute exactly what the
    matching PeerGrammar function says, leaving the cursor where it says.
    `ipv6Guard` is the `[` check at the start of `parse_host`, present in this
    revision and absent from lib/aerospike/cluster/peer/parse.rb. */
module PeersParse {
  import opened Base
  import opened StringParsing
  import opened PeerGrammar

  /** A method result `r` with the cursor at `pos` agrees with the grammar's `spec`. */
  predicate Agrees<T(==)>(r: Result<T>, pos: nat, spec: Result<(T, nat)>)
  {
    match spec
    case Ok(v) => r == Ok(v.0) && pos == v.1
    case Err(e) => r == Err(e)
  }

  /** `parse_host`. */
  method ParseHost(p: StringParser, tls: string, ipv6Guard: bool) returns (r: Result<seq<PeerHost>>)
    requires p.Valid()
    modifies p`pos
    ensures p.Valid()
    ensures Agrees(r, p.pos, HostAt(p.str, old(p.pos), tls, ipv6Guard))
  {
    if ipv6Guard && p.Current() == Some('[') {
      return Err(ParseError);
    }
    var text :- p.ReadUntil(']');
    r := Ok(HostsOfText(text, tls));
  }

  /** `parse_hosts`. */
  method ParseHosts(p: StringParser, tls: string, ipv6Guard: bool) returns (r: Result<seq<seq<PeerHost>>>)
    requires p.Valid()
    modifies p`pos
    ensures p.Valid()
    ensures Agrees(r, p.pos, HostsAt(p.str, old(p.pos), tls, ipv6Guard))
  {
    var open := p.Expect('[');
    if open.Fail? {
      return Err(open.error);
    }
    if p.Current() == Some(']') {
      return Ok([]);
    }
    r := ParseHostList(p, tls, ipv6Guard);
  }

  /** The loop of `parse_hosts`: host lists while a `,` follows. */
  method ParseHostList(p: StringParser, tls: string, ipv6Guard: bool) returns (r: Result<seq<seq<PeerHost>>>)
    requires p.Valid()
    modifies p`pos
    ensures p.Valid()
    ensures Agrees(r, p.pos, HostListAt(p.str, old(p.pos), tls, ipv6Guard, []))
  {
    var result := [];
    while true
      invariant p.Valid() && old(p.pos) <= p.pos
      invariant HostListAt(p.str, p.pos, tls, ipv6Guard, result)
             == HostListAt(p.str, old(p.pos), tls, ipv6Guard, [])
      decreases |p.str| - p.pos
    {
      ghost var here, before := p.pos, result;
      HostListRound(p.str, here, tls, ipv6Guard, before);
      var h := ParseHost(p, tls, ipv6Guard);
      if h.Err? {
        return Err(h.error);
      }
      assert HostAt(p.str, here, tls, ipv6Guard) == Ok((h.value, p.pos));
      result := result + [h.value];
      if p.Current() != Some(',') {
        assert HostListAt(p.str, here, tls, ipv6Guard, before) == Ok((result, p.pos));
        return Ok(result);
      }
      assert HostListAt(p.str, here, tls, ipv6Guard, before) == HostListAt(p.str, p.pos + 1, tls, ipv6Guard, result);
      p.Step(1);
    }
  }

  /** `parse_peer`. */
  method ParsePeer(p: StringParser, ipv6Guard: bool) returns (r: Result<Peer>)
    requires p.Valid()
    modifies p`pos
    ensures p.Valid()
    ensures Agrees(r, p.pos, PeerAt(p.str, old(p.pos), ipv6Guard))
  {
    ghost var s, p0 := p.str, p.pos;
    var open := p.Expect('[');
    if open.Fail? {
      return Err(open.error);
    }
    var name := p.ReadUntil(',');
    if name.Err? {
      return Err(name.error);
    }
    ghost var p2 := p.pos;
    var tls := p.ReadUntil(',');
    if tls.Err? {
      return Err(tls.error);
    }
    ghost var p3 := p.pos;
    var hosts := ParseHosts(p, tls.value, ipv6Guard);
    if hosts.Err? {
      return Err(hosts.error);
    }
    ghost var p4 := p.pos;
    assert HostsAt(s, p3, tls.value, ipv6Guard) == Ok((hosts.value, p4));
    var close := p.Expect(']');
    if close.Fail? {
      return Err(close.error);
    }
    r := Ok(Peer(name.value, tls.value, hosts.value));
  }

  /** `parse_peers`: the text between the outer brackets of the response. */
  method ParsePeers(body: string, ipv6Guard: bool) returns (r: Result<seq<Peer>>)
    ensures r == PeersOf(body, ipv6Guard)
  {
    if body == [] {
      return Ok([]);
    }
    var p := new StringParser(body);
    r := ParsePeerList(p, ipv6Guard);
  }

  /** The loop of `parse_peers`: peers while a `,` follows. */
  method ParsePeerList(p: StringParser, ipv6Guard: bool) returns (r: Result<seq<Peer>>)
    requires p.Valid()
    modifies p`pos
    ensures p.Valid()
    ensures Agrees(r, p.pos, PeerListAt(p.str, old(p.pos), ipv6Guard, []))
  {
    var result := [];
    while true
      invariant p.Valid() && old(p.pos) <= p.pos
      invariant PeerListAt(p.str, p.pos, ipv6Guard, result)
             == PeerListAt(p.str, old(p.pos), ipv6Guard, [])
      decreases |p.str| - p.pos
    {
      ghost var here, before := p.pos, result;
      PeerListRound(p.str, here, ipv6Guard, before);
      var peer := ParsePeer(p, ipv6Guard);
      if peer.Err? {
        return Err(peer.error);
      }
      assert PeerAt(p.str, here, ipv6Guard) == Ok((peer.value, p.pos));
      result := result + [peer.value];
      if p.Current() != Some(',') {
        assert PeerListAt(p.str, here, ipv6Guard, before) == Ok((result, p.pos));
        return Ok(result);
      }
      assert PeerListAt(p.str, here, ipv6Guard, before) == PeerListAt(p.str, p.pos + 1, ipv6Guard, result);
      p.Step(1);
    }
  }

  /** `Peers::Parse.call`: the regular expression, then the peers section. */
  method Call(response: string) returns (r: Result<PeerList>)
    ensures r == ParseResponse(response)
    ensures r.Ok? ==> MatchBase(response, 0).Some?
    ensures MatchBase(response, 0).None? ==> r == Err(ParseError)
  {
    var m := MatchBase(response, 0);
    if m.None? {
      return Err(ParseError);
    }
    var peers :- ParsePeers(m.value.peers, true);
    r := Ok(ListOf(m.value, peers));
  }
}

=== FILE: refresh.dfy ===
/** The steps of one node refresh (the files under lib/aerospike/node/refresh):
    the per-cycle reset, failure accounting, the info refresh, the legacy
    friends (services) refresh and the peers refresh. The info reply, the
    peer list and the node validation are inputs. */
module NodeRefresh {
  import opened Base
  import opened NodeState
  import opened NodeValidation
  import opened ClusterState
  import opened WorkingSet
  import opened PeerGrammar
  import FindNode
  import NodeVerify

  /** `Refresh::Reset.call`. */
  method Reset(node: Node)
    modifies node`referenceCount, node`responded, node.partitionGeneration
    ensures node.referenceCount == 0 && !node.responded
    ensures !node.partitionGeneration.changed
    ensures node.partitionGeneration.number == old(node.partitionGeneration.number)
  {
    node.ResetReferenceCount();
    node.ResetResponded();
    node.partitionGeneration.ResetChanged();
  }

  /** `Refresh::Failed.call`: one more failure, nothing else. */
  method Failed(node: Node)
    modifies node`failures
    ensures node.failures == old(node.failures) + 1
  {
    node.IncreaseFailures();
  }

  // -------------------------------------------------------------------
  // Friends (the services list of servers without the peers protocol)

  /** `Host.new(hostname, port.to_i)` from one `host:port` services entry. */
  function FriendHost(friend: string): Host
  {
    var parts := Split(friend, ':');
    Host(if |parts| > 0 then Some(parts[0]) else None,
         if |parts| > 1 then ToI(parts[1]) else 0,
         None)
  }

  /** `name:port` gives that name and the port's `to_i`. */
  lemma FriendHostWithPort(name: string, port: string)
    requires name != "" && port != "" && ':' !in name && ':' !in port
    ensures FriendHost(name + ":" + port) == Host(Some(name), ToI(port), None)
  {
    var fs := [name, port];
    assert fs[1..] == [port];
    assert Join(fs, ':') == name + ":" + port;
    SplitJoin(fs, ':');
  }

  /** A bare name gives port 0, as `nil.to_i` is 0. */
  lemma FriendHostWithoutPort(name: string)
    requires name != "" && ':' !in name
    ensures FriendHost(name) == Host(Some(name), 0, None)
  {
    assert Join([name], ':') == name;
    SplitJoin([name], ':');
  }

  /** The hosts of all services entries. */
  function FriendHosts(services: string): set<Host>
  {
    set f | f in Split(services, ';') :: FriendHost(f)
  }

  /** The non-empty services value of a reply, if any. */
  function Services(info: InfoMap): Option<string>
  {
    if "services" in info && info["services"] != "" then Some(info["services"]) else None
  }

  /** `prepare` as intended: validate the host; on success register it
      with the pending node of that name, else with the cluster node of that
      name (also counted as referenced and aliased in the cluster), else
      with a new pending node. An Aerospike error from validation gives
      false; any other error escapes. */
  method Prepare(peers: Peers, cluster: Cluster, host: Host, validate: Validator) returns (r: Result<bool>)
    requires peers.Valid()
    modifies peers`hosts, peers`nodes, peers`nodeNames, cluster`aliases
    modifies (set n | n in peers.nodes.Values)`aliases
    modifies (set n | n in cluster.nodes)`aliases, (set n | n in cluster.nodes)`referenceCount
    ensures peers.Valid()
    ensures validate(Some(host)).Err? ==>
      && r == (if validate(Some(host)).error.IsAerospike() then Ok(false) else Err(validate(Some(host)).error))
      && peers.hosts == old(peers.hosts) && peers.nodes == old(peers.nodes)
      && cluster.aliases == old(cluster.aliases)
    ensures validate(Some(host)).Ok? ==>
      var name := validate(Some(host)).value.id.name;
      && r == Ok(true) && peers.hosts == old(peers.hosts) + {host}
      && (name in old(peers.nodes) ==>
            peers.nodes == old(peers.nodes) && cluster.aliases == old(cluster.aliases)
            && peers.nodes[name].aliases == old(peers.nodes[name].aliases) + [host])
      && (name !in old(peers.nodes) && old(cluster.FindNodeByName(name)) != null ==>
            var n := old(cluster.FindNodeByName(name));
            peers.nodes == old(peers.nodes) && cluster.aliases == old(cluster.aliases)[host := n]
            && n.aliases == old(n.aliases) + [host] && n.referenceCount == old(n.referenceCount) + 1)
      && (name !in old(peers.nodes) && old(cluster.FindNodeByName(name)) == null ==>
            cluster.aliases == old(cluster.aliases)
            && peers.nodes.Keys == old(peers.nodes.Keys) + {name}
            && fresh(peers.nodes[name]) && peers.nodes[name].name == name)
    ensures forall n | n in peers.nodes.Values :: n in old(peers.nodes.Values) || fresh(n)
    ensures forall n | n in cluster.nodes :: n.referenceCount >= old(n.referenceCount)
    ensures forall n | n in cluster.aliases.Values :: n in old(cluster.aliases.Values) || n in cluster.nodes
  {
    var nv := validate(Some(host));
    if nv.Err? {
      return if nv.error.IsAerospike() then Ok(false) else Err(nv.error);
    }
    var name := nv.value.id.name;
    var pending := peers.FindNodeByName(name);
    if pending != null {
      assert pending in peers.nodes.Values;
      peers.hosts := peers.hosts + {host};
      pending.AddAlias(host);
      return Ok(true);
    }
    var known := cluster.FindNodeByName(name);
    peers.hosts := peers.hosts + {host};
    if known != null {
      JoinKnown(cluster, known, host);
    } else {
      var node := new Node(nv.value);
      peers.PutNode(name, node);
    }
    r := Ok(true);
  }

  /** The second branch of `prepare`: the cluster already has a node of
      that name. */
  method JoinKnown(cluster: Cluster, known: Node, host: Host)
    requires known in cluster.nodes
    modifies cluster`aliases, known`aliases, known`referenceCount
    ensures cluster.aliases == old(cluster.aliases)[host := known]
    ensures known.aliases == old(known.aliases) + [host]
    ensures known.referenceCount == old(known.referenceCount) + 1
  {
    known.AddAlias(host);
    known.IncreaseReferenceCount();
    cluster.AddAlias(host, known);
  }

  /** `prepare` as the source has it. Its first argument evaluates
      `node.cluster`, which raises NoMethodError when `node` is nil (the
      caller has just rebound it). With a node, the third argument
      `node.timeout` raises NoMethodError too, because `Node` has no such
      reader; the arguments are evaluated before `NodeValidator.new` could
      reject the six of them. The error is not an Aerospike exception, so
      the `rescue` does not catch it. */
  method PrepareAsWritten(node: Node?, peers: Peers, host: Host) returns (r: Result<bool>)
    ensures r == Err(NoMethodError)
    ensures r.Err? && !r.error.IsAerospike()
  {
    if node == null {
      return Err(NoMethodError);
    }
    // `node.cluster` exists; `node.timeout` does not
    r := Err(NoMethodError);
  }

  /** One services entry, as intended: a host the cluster knows by alias
      counts its node as referenced; a host already pending is skipped; any
      other host is prepared. */
  method Befriend(peers: Peers, cluster: Cluster, host: Host, validate: Validator) returns (r: Outcome)
    requires peers.Valid()
    modifies peers`hosts, peers`nodes, peers`nodeNames, cluster`aliases
    modifies (set n | n in peers.nodes.Values)`aliases
    modifies (set n | n in cluster.nodes)`aliases, (set n | n in cluster.nodes)`referenceCount
    modifies (set n | n in cluster.aliases.Values)`referenceCount
    ensures peers.Valid()
    ensures old(cluster.FindAlias(host)) != null ==>
      var n := old(cluster.FindAlias(host));
      r == Pass && n.referenceCount == old(n.referenceCount) + 1
      && peers.hosts == old(peers.hosts) && peers.nodes == old(peers.nodes)
    ensures old(cluster.FindAlias(host)) == null && host in old(peers.hosts) ==>
      r == Pass && peers.hosts == old(peers.hosts) && peers.nodes == old(peers.nodes)
    ensures old(cluster.FindAlias(host)) == null && host !in old(peers.hosts) ==>
      (r.Fail? <==> validate(Some(host)).Err? && !validate(Some(host)).error.IsAerospike())
      && (validate(Some(host)).Ok? ==> host in peers.hosts)
    ensures r.Fail? ==> !r.error.IsAerospike()
    ensures peers.hosts == old(peers.hosts) || peers.hosts == old(peers.hosts) + {host}
    ensures old(peers.nodes.Keys) <= peers.nodes.Keys
    ensures forall n | n in peers.nodes.Values :: n in old(peers.nodes.Values) || fresh(n)
    ensures forall n | n in cluster.nodes :: n.referenceCount >= old(n.referenceCount)
    ensures forall n | n in cluster.aliases.Values :: n in old(cluster.aliases.Values) || n in cluster.nodes
  {
    var known := cluster.FindAlias(host);
    if known != null {
      assert known in cluster.aliases.Values;
      known.IncreaseReferenceCount();
      return Pass;
    }
    if host in peers.hosts {
      return Pass;
    }
    var prepared := Prepare(peers, cluster, host, validate);
    r := if prepared.Err? then Fail(prepared.error) else Pass;
  }

  /** `Refresh::Friends.call` as intended: an empty or missing services
      value means no peers; otherwise the peer count is the number of
      entries and each entry is befriended in turn. Only a non-Aerospike
      error from validation stops the loop. */
  method Friends(node: Node, peers: Peers, cluster: Cluster, info: InfoMap, validate: Validator) returns (r: Outcome)
    requires peers.Valid()
    modifies node`peersCount, peers`hosts, peers`nodes, peers`nodeNames, cluster`aliases
    modifies (set n | n in peers.nodes.Values)`aliases
    modifies (set n | n in cluster.nodes)`aliases, (set n | n in cluster.nodes)`referenceCount
    modifies (set n | n in cluster.aliases.Values)`referenceCount
    ensures peers.Valid()
    ensures Services(info).None? ==>
      r == Pass && node.peersCount == 0
      && peers.hosts == old(peers.hosts) && peers.nodes == old(peers.nodes)
      && cluster.aliases == old(cluster.aliases)
    ensures Services(info).Some? ==>
      node.peersCount == |Split(Services(info).value, ';')|
      && peers.hosts <= old(peers.hosts) + FriendHosts(Services(info).value)
    ensures r.Fail? ==> !r.error.IsAerospike()
    ensures old(peers.hosts) <= peers.hosts
    ensures old(peers.nodes.Keys) <= peers.nodes.Keys
    ensures forall n | n in peers.nodes.Values :: n in old(peers.nodes.Values) || fresh(n)
    ensures forall n | n in cluster.nodes :: n.referenceCount >= old(n.referenceCount)
    ensures forall n | n in cluster.aliases.Values :: n in old(cluster.aliases.Values) || n in cluster.nodes
  {
    var services := Services(info);
    if services.None? {
      node.SetPeersCount(0);
      return Pass;
    }
    var friendNames := Split(services.value, ';');
    node.SetPeersCount(|friendNames|);
    var i := 0;
    while i < |friendNames|
      invariant i <= |friendNames|
      invariant peers.Valid()
      invariant node.peersCount == |friendNames|
      invariant old(peers.hosts) <= peers.hosts <= old(peers.hosts) + FriendHosts(services.value)
      invariant old(peers.nodes.Keys) <= peers.nodes.Keys
      invariant forall n | n in peers.nodes.Values :: n in old(peers.nodes.Values) || fresh(n)
      invariant forall n | n in cluster.nodes :: n.referenceCount >= old(n.referenceCount)
      invariant forall n | n in cluster.aliases.Values :: n in old(cluster.aliases.Values) || n in cluster.nodes
    {
      var host := FriendHost(friendNames[i]);
      assert host in FriendHosts(services.value);
      r := Befriend(peers, cluster, host, validate);
      if r.Fail? {
        return;
      }
      i := i + 1;
    }
    r := Pass;
  }

  /** Whether the source's friends loop gets through the entries `hosts`
      when it starts with a node (`alive`) or with nil: each entry needs a
      node to start from, and must be known by alias or already pending; the
      next entry has a node exactly when this one was known by alias. */
  predicate SurvivesAsWritten(hosts: seq<Host>, aliases: map<Host, Node>, pending: set<Host>, alive: bool)
  {
    hosts == []
    || (alive && (hosts[0] in aliases || hosts[0] in pending)
        && SurvivesAsWritten(hosts[1..], aliases, pending, hosts[0] in aliases))
  }

  /** So the loop fails at once on a first entry the cluster does not know
      by alias and that is not pending, where the intended loop would
      prepare it; and an entry known by alias followed by an unknown one
      fails as well. */
  lemma UnknownEntryFailsAsWritten(hosts: seq<Host>, aliases: map<Host, Node>, pending: set<Host>, alive: bool)
    requires hosts != [] && hosts[0] !in aliases
    requires hosts[0] !in pending || |hosts| > 1
    ensures !SurvivesAsWritten(hosts, aliases, pending, alive)
  {
    if |hosts| > 1 {
      assert !SurvivesAsWritten(hosts[1..], aliases, pending, false);
    }
  }

  /** The host of each services entry, in order. */
  function EntryHosts(entries: seq<string>): (r: seq<Host>)
    ensures |r| == |entries| && forall i | 0 <= i < |entries| :: r[i] == FriendHost(entries[i])
  {
    seq(|entries|, i requires 0 <= i < |entries| => FriendHost(entries[i]))
  }

  /** `Refresh::Friends.call` as the source has it: the alias lookup of each
      entry is assigned to the variable that held the refreshed node, so the
      next entry reads `cluster` from nil when the lookup found nothing, and
      an entry neither aliased nor pending reaches `prepare` with nil. No host
      and no node is ever registered. */
  method FriendsAsWritten(node: Node, peers: Peers, cluster: Cluster, info: InfoMap) returns (r: Outcome)
    modifies node`peersCount, (set n | n in cluster.aliases.Values)`referenceCount
    ensures Services(info).None? ==> r == Pass && node.peersCount == 0
    ensures Services(info).Some? ==>
      var entries := Split(Services(info).value, ';');
      && node.peersCount == |entries|
      && (r.Pass? <==> SurvivesAsWritten(EntryHosts(entries), cluster.aliases, peers.hosts, true))
    ensures r.Fail? ==> r.error == NoMethodError
  {
    var services := Services(info);
    if services.None? {
      node.SetPeersCount(0);
      return Pass;
    }
    var friendNames := Split(services.value, ';');
    ghost var hosts := EntryHosts(friendNames);
    ghost var aliases, pending := cluster.aliases, peers.hosts;
    ghost var survives := SurvivesAsWritten(hosts, aliases, pending, true);
    node.SetPeersCount(|friendNames|);
    var current: Node? := node;
    var i := 0;
    while i < |friendNames|
      invariant i <= |friendNames|
      invariant node.peersCount == |friendNames|
      invariant cluster.aliases == aliases && peers.hosts == pending
      invariant survives == SurvivesAsWritten(hosts[i..], aliases, pending, current != null)
    {
      assert hosts[i..][1..] == hosts[i + 1..];
      if current == null {
        return Fail(NoMethodError);
      }
      var host := FriendHost(friendNames[i]);
      assert host == hosts[i];
      assert survives == ((host in aliases || host in pending)
                          && SurvivesAsWritten(hosts[i + 1..], aliases, pending, host in aliases));
      current := cluster.FindAlias(host);
      if current != null {
        assert current in cluster.aliases.Values;
        current.IncreaseReferenceCount();
      } else if host !in peers.hosts {
        var prepared := PrepareAsWritten(current, peers, host);
        return Fail(prepared.error);
      }
      i := i + 1;
    }
    r := Pass;
  }

  // -------------------------------------------------------------------
  // Info

  const CmdsBase: seq<string> := ["node", "partition-generation", "cluster-name"]

  /** The info commands requested: with peers, the peers generation; without,
      the services list. */
  function Commands(usePeers: bool): (r: seq<string>)
    ensures |r| == 4 && r[..3] == CmdsBase
    ensures r[3] == if usePeers then "peers-generation" else "services"
  {
    CmdsBase + [if usePeers then "peers-generation" else "services"]
  }

  /** A reply every check of the info refresh accepts. */
  predicate InfoAccepted(node: Node, info: InfoMap, usePeers: bool)
  {
    && NodeVerify.GenerationReadable(info, "partition-generation")
    && (usePeers ==> NodeVerify.GenerationReadable(info, "peers-generation"))
    && Get(info, "node").Some? && node.name == Get(info, "node")
    && (node.clusterName.None? || node.clusterName == Get(info, "cluster-name"))
  }

  /** Whether the partition generation check is reached and can read its
      value (with peers it runs after the peers generation check). */
  predicate PartitionGenerationRead(info: InfoMap, usePeers: bool)
  {
    && NodeVerify.GenerationReadable(info, "partition-generation")
    && (usePeers ==> NodeVerify.GenerationReadable(info, "peers-generation"))
  }

  /** The last two checks of `Refresh::Info.call`: the node name, then the
      cluster name. */
  method IdentityChecks(node: Node, info: InfoMap) returns (r: Outcome)
    modifies node`health, node`active
    ensures r.Pass? <==>
      && Get(info, "node").Some? && node.name == Get(info, "node")
      && (node.clusterName.None? || node.clusterName == Get(info, "cluster-name"))
    ensures node.health == old(node.health)
         || (node.health == old(node.health) - 1 && r.Fail? && "node" !in info)
    ensures node.active ==> old(node.active)
  {
    r := NodeVerify.Name(node, info);
    if r.Pass? {
      r := NodeVerify.ClusterName(node, info);
    }
  }

  /** The checks of `Refresh::Info.call` with peers: peers generation,
      partition generation, name, cluster name; the first failure ends them. */
  method ChecksWithPeers(node: Node, peers: Peers, info: InfoMap) returns (r: Outcome)
    modifies node`health, node`active, node.partitionGeneration, peers`generationChanged
    ensures r.Pass? <==> InfoAccepted(node, info, true)
    ensures node.health == old(node.health)
         || (node.health == old(node.health) - 1 && r.Fail? && "node" !in info)
    ensures node.active ==> old(node.active)
    ensures PartitionGenerationRead(info, true) ==>
      (node.partitionGeneration.number, node.partitionGeneration.changed)
      == Updated(old(node.partitionGeneration.number), old(node.partitionGeneration.changed),
                 ToI(info["partition-generation"]))
    ensures peers.generationChanged ==
      if NodeVerify.GenerationReadable(info, "peers-generation")
         && ToI(info["peers-generation"]) != node.peersGeneration
      then true else old(peers.generationChanged)
  {
    r := NodeVerify.PeersGeneration(node, info, peers);
    if r.Pass? {
      r := NodeVerify.PartitionGeneration(node, info);
      if r.Pass? {
        r := IdentityChecks(node, info);
      }
    }
  }

  /** The checks of `Refresh::Info.call` without peers: partition generation,
      the friends refresh from `services`, name, cluster name; the first
      failure ends them. */
  method ChecksWithoutPeers(node: Node, peers: Peers, cluster: Cluster, info: InfoMap,
                            validate: Validator) returns (r: Outcome)
    requires peers.Valid()
    modifies node`health, node`active, node`peersCount, node.partitionGeneration
    modifies peers`hosts, peers`nodes, peers`nodeNames, cluster`aliases
    modifies (set n | n in peers.nodes.Values)`aliases
    modifies (set n | n in cluster.nodes)`aliases, (set n | n in cluster.nodes)`referenceCount
    modifies (set n | n in cluster.aliases.Values)`referenceCount
    ensures peers.Valid()
    ensures r.Pass? ==> InfoAccepted(node, info, false)
    ensures node.health == old(node.health)
         || (node.health == old(node.health) - 1 && r.Fail? && "node" !in info)
    ensures node.active ==> old(node.active)
    ensures PartitionGenerationRead(info, false) ==>
      (node.partitionGeneration.number, node.partitionGeneration.changed)
      == Updated(old(node.partitionGeneration.number), old(node.partitionGeneration.changed),
                 ToI(info["partition-generation"]))
    ensures old(peers.hosts) <= peers.hosts && old(peers.nodes.Keys) <= peers.nodes.Keys
    ensures forall n | n in peers.nodes.Values :: n in old(peers.nodes.Values) || fresh(n)
    ensures forall n | n in cluster.nodes :: n.referenceCount >= old(n.referenceCount)
    ensures forall n | n in cluster.aliases.Values :: n in old(cluster.aliases.Values) || n in cluster.nodes
  {
    r := NodeVerify.PartitionGeneration(node, info);
    if r.Pass? {
      r := Friends(node, peers, cluster, info, validate);
      if r.Pass? {
        r := IdentityChecks(node, info);
      }
    }
  }

  /** The end of `Refresh::Info.call`: on success the node is healthy, has
      responded and has no failures, and the cycle counts one more successful
      refresh; on failure the connection (if one was obtained) is closed, the
      node loses health and gains a failure, and with peers the peers
      generation is taken as changed. */
  method Settle(node: Node, peers: Peers, r: Outcome, connected: bool, usePeers: bool)
    modifies node`health, node`responded, node`failures, node`connectionsClosed
    modifies peers`generationChanged, peers`refreshCount
    ensures r.Pass? ==>
      && node.health == FullHealth && node.responded && node.failures == 0
      && peers.refreshCount == old(peers.refreshCount) + 1
      && peers.generationChanged == old(peers.generationChanged)
      && node.connectionsClosed == old(node.connectionsClosed)
    ensures r.Fail? ==>
      && node.health == old(node.health) - 1
      && node.failures == old(node.failures) + 1 && node.responded == old(node.responded)
      && peers.refreshCount == old(peers.refreshCount)
      && peers.generationChanged == (usePeers || old(peers.generationChanged))
      && node.connectionsClosed == old(node.connectionsClosed) + (if connected then 1 else 0)
  {
    if r.Pass? {
      node.RestoreHealth();
      node.MarkResponded();
      peers.refreshCount := peers.refreshCount + 1;
      node.ResetFailures();
    } else {
      if connected {
        node.CloseConnection();
      }
      node.DecreaseHealth();
      if usePeers {
        peers.generationChanged := true;
      }
      Failed(node);
    }
  }

  /** `Refresh::Info.call`, with `PartitionGeneration` called with the two
      arguments it takes. `request` is the info exchange for the requested
      commands. */
  method Info(node: Node, peers: Peers, cluster: Cluster, request: seq<string> -> Probe,
              validate: Validator) returns (r: Outcome)
    requires peers.Valid()
    modifies node`health, node`active, node`responded, node`failures, node`peersCount
    modifies node`connectionsClosed, node.partitionGeneration
    modifies peers`generationChanged, peers`refreshCount, peers`hosts, peers`nodes, peers`nodeNames
    modifies cluster`aliases, (set n | n in peers.nodes.Values)`aliases
    modifies (set n | n in cluster.nodes)`aliases, (set n | n in cluster.nodes)`referenceCount
    modifies (set n | n in cluster.aliases.Values)`referenceCount
    ensures peers.Valid()
    ensures var probe := request(Commands(peers.usePeers));
      && (!probe.Replied? ==> r == Fail(probe.error))
      && (r.Pass? ==> probe.Replied? && InfoAccepted(node, probe.info, peers.usePeers))
      && (peers.usePeers && probe.Replied? && InfoAccepted(node, probe.info, true) ==> r.Pass?)
      && (r.Fail? ==>
            && node.connectionsClosed == old(node.connectionsClosed) + (if probe.ConnectFailed? then 0 else 1)
            && (node.health == old(node.health) - 1
                || (node.health == old(node.health) - 2 && probe.Replied? && "node" !in probe.info)))
      && (probe.Replied? && PartitionGenerationRead(probe.info, peers.usePeers) ==>
            (node.partitionGeneration.number, node.partitionGeneration.changed)
            == Updated(old(node.partitionGeneration.number), old(node.partitionGeneration.changed),
                       ToI(probe.info["partition-generation"])))
    ensures r.Pass? ==>
      && node.health == FullHealth && node.responded && node.failures == 0
      && peers.refreshCount == old(peers.refreshCount) + 1
    ensures r.Fail? ==>
      && node.failures == old(node.failures) + 1 && node.responded == old(node.responded)
      && peers.refreshCount == old(peers.refreshCount)
      && (peers.usePeers ==> peers.generationChanged)
    ensures !peers.usePeers ==> peers.generationChanged == old(peers.generationChanged)
    ensures old(peers.generationChanged) ==> peers.generationChanged
    ensures node.active ==> old(node.active)
    ensures old(peers.hosts) <= peers.hosts && old(peers.nodes.Keys) <= peers.nodes.Keys
    ensures forall n | n in peers.nodes.Values :: n in old(peers.nodes.Values) || fresh(n)
    ensures forall n | n in cluster.nodes :: n.referenceCount >= old(n.referenceCount)
    ensures forall n | n in cluster.aliases.Values :: n in old(cluster.aliases.Values) || n in cluster.nodes
  {
    var usePeers := peers.UsePeers();
    var probe := request(Commands(usePeers));
    if !probe.Replied? {
      r := Fail(probe.error);
    } else if usePeers {
      r := ChecksWithPeers(node, peers, probe.info);
    } else {
      r := ChecksWithoutPeers(node, peers, cluster, probe.info, validate);
    }
    Settle(node, peers, r, !probe.ConnectFailed?, usePeers);
  }

  /** `Refresh::Info.call` as the source has it: `PartitionGeneration` is
      called with three arguments (lines 17 and 20) but takes two, so every
      reply ends in ArgumentError, caught by the `rescue`: the refresh never
      succeeds. */
  method InfoAsWritten(node: Node, peers: Peers, request: seq<string> -> Probe) returns (r: Outcome)
    modifies node`health, node`failures, node`connectionsClosed, peers`generationChanged
    ensures r.Fail?
    ensures request(Commands(peers.usePeers)).Replied? && !peers.usePeers ==> r == Fail(ArgumentError)
    ensures node.failures == old(node.failures) + 1
    ensures node.health == old(node.health) - 1
    ensures peers.usePeers ==> peers.generationChanged
  {
    var usePeers := peers.UsePeers();
    var probe := request(Commands(usePeers));
    if probe.Replied? {
      if usePeers {
        r := NodeVerify.PeersGeneration(node, probe.info, peers);
        if r.Pass? {
          r := Fail(ArgumentError);
        }
      } else {
        r := Fail(ArgumentError);
      }
    } else {
      r := Fail(probe.error);
    }
    if !probe.ConnectFailed? {
      node.CloseConnection();
    }
    node.DecreaseHealth();
    if usePeers {
      peers.generationChanged := true;
    }
    Failed(node);
  }

  // -------------------------------------------------------------------
  // Peers

  /** The node names a peer list announces. */
  function PeerNames(ps: seq<Peer>): (r: set<Option<string>>)
    ensures forall i | 0 <= i < |ps| :: Some(ps[i].nodeName) in r
    ensures forall x | x in r :: exists i | 0 <= i < |ps| :: x == Some(ps[i].nodeName)
  {
    set p | p in ps :: Some(p.nodeName)
  }

  /** Validating the node's own host names the node itself. */
  predicate OwnIdentity(validate: Validator, node: Node)
  {
    validate(node.host).Ok? && validate(node.host).value.id.name == node.name
  }

  /** The names of a node array; `name` never changes, so this reads nothing. */
  function NameSet(ns: seq<Node>): (r: set<Option<string>>)
    ensures forall n | n in ns :: n.name in r
    ensures forall k | k in r :: exists n | n in ns :: n.name == k
  {
    set n | n in ns :: n.name
  }

  /** The host a node made from `nv` has: its first alias. */
  function FirstAlias(nv: Validated): Option<Host>
  {
    if nv.aliases == [] then None else Some(nv.aliases[0])
  }

  /** What the peer loop has settled so far: the names the working set
      holds, the host the next validation runs on (that of the node the
      source's `node` is bound to), whether no validation failed, and whether
      an error escaped. */
  datatype Admission = Admission(names: set<Option<string>>, host: Option<Host>, validated: bool, outcome: Outcome)

  /** One peer's admission, on values. `clusterNames` are the names the
      cluster knows. A known peer changes nothing here (its node is counted
      once more, which `AdmitPeer` states); after an escaped error nothing
      more happens. */
  function AdmitNext(a: Admission, peer: Peer, clusterNames: set<Option<string>>, validate: Validator): Admission
  {
    var name := Some(peer.nodeName);
    if a.outcome.Fail? then a
    else if name in clusterNames || name in a.names then a
    else if |peer.hosts| == 0 then a
    else
      var v := validate(a.host);
      if v.Ok? then
        if v.value.id.name == name then a.(names := a.names + {name}, host := FirstAlias(v.value)) else a
      else if v.error.IsAerospike() then a.(validated := false)
      else a.(outcome := Fail(v.error))
  }

  /** The peer loop over `ps` from `a`. */
  function Admitted(ps: seq<Peer>, a: Admission, clusterNames: set<Option<string>>, validate: Validator): Admission
    decreases |ps|
  {
    if ps == [] then a else AdmitNext(Admitted(ps[..|ps| - 1], a, clusterNames, validate), ps[|ps| - 1], clusterNames, validate)
  }

  /** One admission only adds the peer's name, and does nothing after an
      escaped error. */
  lemma AdmitNextBounds(a: Admission, peer: Peer, clusterNames: set<Option<string>>, validate: Validator)
    ensures var b := AdmitNext(a, peer, clusterNames, validate);
      && a.names <= b.names <= a.names + {Some(peer.nodeName)}
      && (a.outcome.Fail? ==> b == a)
      && (b.outcome.Fail? ==> b.outcome == a.outcome || !b.outcome.error.IsAerospike())
  {
  }

  /** The loop only adds names, each announced by some peer. */
  lemma {:induction false} AdmittedBounds(ps: seq<Peer>, a: Admission, clusterNames: set<Option<string>>, validate: Validator)
    ensures a.names <= Admitted(ps, a, clusterNames, validate).names <= a.names + PeerNames(ps)
    ensures a.outcome.Fail? ==> Admitted(ps, a, clusterNames, validate) == a
    ensures a.outcome.Pass? && Admitted(ps, a, clusterNames, validate).outcome.Fail? ==>
      !Admitted(ps, a, clusterNames, validate).outcome.error.IsAerospike()
    decreases |ps|
  {
    if ps != [] {
      var init, last := ps[..|ps| - 1], ps[|ps| - 1];
      var b := Admitted(init, a, clusterNames, validate);
      AdmittedBounds(init, a, clusterNames, validate);
      AdmitNextBounds(b, last, clusterNames, validate);
      PeerNamesSnoc(init, last);
      assert init + [last] == ps;
    }
  }

  /** The names of one more peer. */
  lemma PeerNamesSnoc(ps: seq<Peer>, p: Peer)
    ensures PeerNames(ps + [p]) == PeerNames(ps) + {Some(p.nodeName)}
  {
    var qs := ps + [p];
    assert qs[|ps|] == p;
    forall k | k in PeerNames(ps) ensures k in PeerNames(qs) {
      var i :| 0 <= i < |ps| && k == Some(ps[i].nodeName);
      assert qs[i] == ps[i];
    }
  }

  /** When validating the loop's host names a node the cluster knows, no
      peer is ever added: a peer unknown to the cluster has another name, so
      each turn ends on it, and the host never changes. */
  lemma {:induction false} OwnIdentityAdmitsNone(ps: seq<Peer>, a: Admission, clusterNames: set<Option<string>>,
                                                 validate: Validator)
    requires a.outcome.Pass? && validate(a.host).Ok? && validate(a.host).value.id.name in clusterNames
    ensures var b := Admitted(ps, a, clusterNames, validate);
      b.names == a.names && b.host == a.host && b.validated == a.validated && b.outcome == Pass
    decreases |ps|
  {
    if ps != [] {
      OwnIdentityAdmitsNone(ps[..|ps| - 1], a, clusterNames, validate);
    }
  }

  /** A peer that the cluster and the working set do not know at its turn,
      whose validation names it, joins the working set, and stays in it:
      unless an error escaped before it, its name is among the final names. */
  lemma {:induction false} UnknownPeerAdded(ps: seq<Peer>, i: nat, a: Admission, clusterNames: set<Option<string>>,
                                            validate: Validator)
    requires i < |ps|
    requires var b := Admitted(ps[..i], a, clusterNames, validate);
      && b.outcome.Pass? && Some(ps[i].nodeName) !in clusterNames && |ps[i].hosts| > 0
      && validate(b.host).Ok? && validate(b.host).value.id.name == Some(ps[i].nodeName)
    ensures Some(ps[i].nodeName) in Admitted(ps, a, clusterNames, validate).names
  {
    assert ps[..i + 1][..i] == ps[..i] && ps[..i + 1][i] == ps[i];
    var c := Admitted(ps[..i + 1], a, clusterNames, validate);
    assert c == AdmitNext(Admitted(ps[..i], a, clusterNames, validate), ps[i], clusterNames, validate);
    assert Some(ps[i].nodeName) in c.names;
    var rest := ps[i + 1..];
    AdmittedSplit(ps[..i + 1], rest, a, clusterNames, validate);
    assert ps[..i + 1] + rest == ps;
    AdmittedBounds(rest, c, clusterNames, validate);
  }

  /** The loop over a concatenation runs the second part from where the first
      stopped. */
  lemma {:induction false} AdmittedSplit(ps: seq<Peer>, qs: seq<Peer>, a: Admission, clusterNames: set<Option<string>>,
                                         validate: Validator)
    ensures Admitted(ps + qs, a, clusterNames, validate) == Admitted(qs, Admitted(ps, a, clusterNames, validate), clusterNames, validate)
    decreases |qs|
  {
    if qs == [] {
      assert ps + qs == ps;
    } else {
      var init := qs[..|qs| - 1];
      AdmittedSplit(ps, init, a, clusterNames, validate);
      assert (ps + qs)[..|ps + qs| - 1] == ps + init;
    }
  }

  /** One peer of `Refresh::Peers.call` (lines 16-39). A peer the cluster or
      the working set already knows by name is skipped (and counted as
      referenced). Otherwise, once per advertised host, the validator runs on
      the host of `current` (as the source has it, not on the peer's host):
      another name ends the peer, the peer's name makes a new node that joins
      the working set and becomes `next`, an Aerospike error marks the list
      as not validated and moves to the next host, any other error escapes. */
  method AdmitPeer(current: Node, peers: Peers, cluster: Cluster, peer: Peer, validate: Validator)
    returns (r: Outcome, next: Node, validated: bool)
    requires peers.Valid()
    modifies peers`nodes, peers`nodeNames
    modifies (set n | n in cluster.nodes)`referenceCount, (set n | n in peers.nodes.Values)`referenceCount
    ensures peers.Valid()
    ensures var known := old(FindNode.Lookup(cluster, peers, Some(peer.nodeName)));
            var v := validate(current.host);
      && (known != null ==> known.referenceCount == old(known.referenceCount) + 1)
      && (known != null || |peer.hosts| == 0 || (v.Ok? && v.value.id.name != Some(peer.nodeName)) ==>
            r == Pass && next == current && validated && peers.nodes == old(peers.nodes))
      && (known == null && |peer.hosts| > 0 && v.Ok? && v.value.id.name == Some(peer.nodeName) ==>
            && r == Pass && validated && fresh(next)
            && next.name == Some(peer.nodeName) && next.aliases == v.value.aliases && next.active
            && next.host == FirstAlias(v.value)
            && peers.nodes == old(peers.nodes)[Some(peer.nodeName) := next])
      && (known == null && |peer.hosts| > 0 && v.Err? ==>
            && next == current && peers.nodes == old(peers.nodes)
            && if v.error.IsAerospike() then r == Pass && !validated else r == Fail(v.error))
    ensures forall n | n in cluster.nodes :: n.referenceCount >= old(n.referenceCount)
    ensures forall n | n in cluster.nodes && n != old(FindNode.Lookup(cluster, peers, Some(peer.nodeName))) ::
      n.referenceCount == old(n.referenceCount)
    ensures forall k | k in old(peers.nodes) :: k in peers.nodes && peers.nodes[k] == old(peers.nodes)[k]
  {
    next, validated := current, true;
    var known := FindNode.Call(cluster, peers, Some(peer.nodeName));
    if known != null {
      return Pass, next, validated;
    }
    var i := 0;
    while i < |peer.hosts|
      invariant i <= |peer.hosts|
      invariant peers.nodes == old(peers.nodes) && peers.nodeNames == old(peers.nodeNames)
      invariant validated <==> i == 0
      invariant i > 0 ==> validate(current.host).Err? && validate(current.host).error.IsAerospike()
    {
      var nv := validate(current.host);
      if nv.Ok? {
        if nv.value.id.name != Some(peer.nodeName) {
          break;
        }
        next := new Node(nv.value);
        peers.PutNode(nv.value.id.name, next);
        break;
      } else if !nv.error.IsAerospike() {
        return Fail(nv.error), next, validated;
      }
      validated := false;
      i := i + 1;
    }
    r := Pass;
  }

  /** The peer loop of `Refresh::Peers.call` (lines 15-40) over the fetched
      list: every peer is admitted in turn, starting from `node`; `last` is
      the node the source's `node` ends up bound to, and `validated` whether
      no validation failed. All of it is as `Admitted` says: the working set
      ends with exactly its names, `last` has its host, `validated` and the
      outcome are its own. */
  method AdmitPeers(node: Node, peers: Peers, cluster: Cluster, validate: Validator)
    returns (r: Outcome, last: Node, validated: bool)
    requires peers.Valid() && node in cluster.nodes
    modifies peers`nodes, peers`nodeNames
    modifies (set n | n in cluster.nodes)`referenceCount, (set n | n in peers.nodes.Values)`referenceCount
    ensures peers.Valid()
    ensures last == node || fresh(last)
    ensures var a := Admitted(peers.peers, Admission(old(peers.nodes.Keys), node.host, true, Pass),
                              NameSet(cluster.nodes), validate);
      peers.nodes.Keys == a.names && last.host == a.host && validated == a.validated && r == a.outcome
    ensures r.Fail? ==> !r.error.IsAerospike()
    ensures OwnIdentity(validate, node) ==> r.Pass? && last == node && peers.nodes == old(peers.nodes) && validated
    ensures old(peers.nodes.Keys) <= peers.nodes.Keys
    ensures forall k | k in peers.nodes && k !in old(peers.nodes) ::
      k in PeerNames(peers.peers) && fresh(peers.nodes[k]) && peers.nodes[k].name == k
    ensures forall n | n in peers.nodes.Values :: n in old(peers.nodes.Values) || fresh(n)
    ensures forall n | n in cluster.nodes :: n.referenceCount >= old(n.referenceCount)
    ensures forall k | k in old(peers.nodes) :: k in peers.nodes && peers.nodes[k] == old(peers.nodes)[k]
  {
    var ps := peers.peers;
    ghost var names := NameSet(cluster.nodes);
    ghost var start := Admission(peers.nodes.Keys, node.host, true, Pass);
    last, validated := node, true;
    r := Pass;
    var i := 0;
    while i < |ps| && r.Pass?
      invariant i <= |ps|
      invariant peers.Valid()
      invariant last == node || (fresh(last) && last in peers.nodes.Values)
      invariant Admitted(ps[..i], start, names, validate) == Admission(peers.nodes.Keys, last.host, validated, r)
      invariant forall k | k in peers.nodes && k !in old(peers.nodes) :: fresh(peers.nodes[k]) && peers.nodes[k].name == k
      invariant forall n | n in peers.nodes.Values :: n in old(peers.nodes.Values) || fresh(n)
      invariant forall n | n in cluster.nodes :: n.referenceCount >= old(n.referenceCount)
      invariant forall k | k in old(peers.nodes) :: k in peers.nodes && peers.nodes[k] == old(peers.nodes)[k]
    {
      ghost var a := Admission(peers.nodes.Keys, last.host, validated, r);
      r, last, validated := AdmitTurn(last, validated, peers, cluster, ps[i], validate, a, names);
      AdmittedSnoc(ps, i, start, names, validate);
      i := i + 1;
    }
    AdmittedRest(ps, i, start, names, validate);
    AdmittedBounds(ps, start, names, validate);
    if OwnIdentity(validate, node) {
      OwnIdentityAdmitsNone(ps, start, names, validate);
    }
  }

  /** Once the loop over a prefix ends in an escaped error, the whole loop
      ends there. */
  lemma AdmittedRest(ps: seq<Peer>, i: nat, a: Admission, clusterNames: set<Option<string>>, validate: Validator)
    requires i <= |ps|
    requires i < |ps| ==> Admitted(ps[..i], a, clusterNames, validate).outcome.Fail?
    ensures Admitted(ps, a, clusterNames, validate) == Admitted(ps[..i], a, clusterNames, validate)
  {
    AdmittedSplit(ps[..i], ps[i..], a, clusterNames, validate);
    assert ps[..i] + ps[i..] == ps;
    AdmittedBounds(ps[i..], Admitted(ps[..i], a, clusterNames, validate), clusterNames, validate);
  }

  /** The loop over one more peer. */
  lemma AdmittedSnoc(ps: seq<Peer>, i: nat, a: Admission, clusterNames: set<Option<string>>, validate: Validator)
    requires i < |ps|
    ensures Admitted(ps[..i + 1], a, clusterNames, validate)
         == AdmitNext(Admitted(ps[..i], a, clusterNames, validate), ps[i], clusterNames, validate)
  {
    assert ps[..i + 1][..i] == ps[..i];
  }

  /** One turn of the peer loop: `peer` is admitted, from the admission `a`
      that the working set, `last` and `validated` stand for, as `AdmitNext`
      says. */
  method AdmitTurn(last: Node, validated: bool, peers: Peers, cluster: Cluster, peer: Peer, validate: Validator,
                   ghost a: Admission, ghost names: set<Option<string>>)
    returns (r: Outcome, last': Node, validated': bool)
    requires peers.Valid() && names == NameSet(cluster.nodes)
    requires a == Admission(peers.nodes.Keys, last.host, validated, Pass)
    modifies peers`nodes, peers`nodeNames
    modifies (set n | n in cluster.nodes)`referenceCount, (set n | n in peers.nodes.Values)`referenceCount
    ensures peers.Valid()
    ensures last' == last || (fresh(last') && last' in peers.nodes.Values)
    ensures AdmitNext(a, peer, names, validate) == Admission(peers.nodes.Keys, last'.host, validated', r)
    ensures forall k | k in peers.nodes && k !in old(peers.nodes) :: fresh(peers.nodes[k]) && peers.nodes[k].name == k
    ensures forall n | n in peers.nodes.Values :: n in old(peers.nodes.Values) || fresh(n)
    ensures forall n | n in cluster.nodes :: n.referenceCount >= old(n.referenceCount)
    ensures forall k | k in old(peers.nodes) :: k in peers.nodes && peers.nodes[k] == old(peers.nodes)[k]
  {
    ghost var known := FindNode.Lookup(cluster, peers, Some(peer.nodeName));
    ghost var name := Some(peer.nodeName);
    assert known != null <==> name in names || name in a.names by {
      if name in names {
        var n :| n in cluster.nodes && n.name == name;
      }
    }
    var ok;
    r, last', ok := AdmitPeer(last, peers, cluster, peer, validate);
    validated' := if r.Pass? then validated && ok else validated;
    if r.Fail? {
      last' := last;
    }
    AdmitTurnIsNext(a, peer, names, validate, known != null, peers.nodes.Keys, last'.host, ok, r);
  }

  /** How one turn's observable results, as `AdmitPeer` states them, make up
      the next admission. */
  lemma AdmitTurnIsNext(a: Admission, peer: Peer, names: set<Option<string>>, validate: Validator, known: bool,
                        keys: set<Option<string>>, host: Option<Host>, ok: bool, r: Outcome)
    requires a.outcome.Pass?
    requires known <==> Some(peer.nodeName) in names || Some(peer.nodeName) in a.names
    requires var v := validate(a.host);
      && (known || |peer.hosts| == 0 || (v.Ok? && v.value.id.name != Some(peer.nodeName)) ==>
            r == Pass && host == a.host && ok && keys == a.names)
      && (!known && |peer.hosts| > 0 && v.Ok? && v.value.id.name == Some(peer.nodeName) ==>
            r == Pass && ok && host == FirstAlias(v.value) && keys == a.names + {Some(peer.nodeName)})
      && (!known && |peer.hosts| > 0 && v.Err? ==>
            && host == a.host && keys == a.names
            && if v.error.IsAerospike() then r == Pass && !ok else r == Fail(v.error))
    ensures AdmitNext(a, peer, names, validate)
         == Admission(keys, host, if r.Pass? then a.validated && ok else a.validated, r)
  {
  }

  /** `Refresh::Peers.call` as written. `Node` has no `tend_connection`
      reader, so for a node the guard lets through, the fetch raises
      NoMethodError before anything was changed. That is not an Aerospike
      exception, so the method's own `rescue` does not catch it. */
  method RefreshPeersAsWritten(node: Node) returns (r: Outcome)
    ensures r == Pass <==> node.failures > 0 || !node.active
    ensures r.Fail? ==> r.error == NoMethodError && !r.error.IsAerospike()
  {
    if node.failures > 0 || !node.active {
      return Pass;
    }
    // `node.tend_connection` has no reader
    r := Fail(NoMethodError);
  }

  /** `Refresh::Peers.call`. `fetched` is the outcome of `Peers::Fetch` on the
      node's connection. A node with failures this cycle, or inactive, is
      skipped. A failed fetch is an Aerospike error (counted as a failure)
      or escapes. Otherwise every announced peer is admitted in turn; as the
      source rebinds `node` to each node it creates, later validations run
      on the host of the newest node and the peers generation is recorded on
      it (`last`). The cycle counts one more successful refresh. In
      particular, when validating the refreshing node's own host names that
      node, no peer is ever added and the node's peers generation is
      brought up to date. */
  method RefreshPeers(node: Node, peers: Peers, cluster: Cluster, fetched: Result<PeerList>,
                      validate: Validator) returns (r: Outcome, last: Node)
    requires peers.Valid() && node in cluster.nodes
    modifies node`failures, node`peersGeneration
    modifies peers`peers, peers`nodes, peers`nodeNames, peers`refreshCount
    modifies (set n | n in cluster.nodes)`referenceCount, (set n | n in peers.nodes.Values)`referenceCount
    ensures peers.Valid()
    ensures last == node || fresh(last)
    ensures old(node.failures > 0 || !node.active) ==>
      && r == Pass && last == node && peers.peers == old(peers.peers) && peers.nodes == old(peers.nodes)
      && peers.refreshCount == old(peers.refreshCount) && node.failures == old(node.failures)
      && node.peersGeneration == old(node.peersGeneration)
    ensures old(node.failures <= 0 && node.active) && fetched.Err? ==>
      && r == Fail(fetched.error) && last == node && peers.nodes == old(peers.nodes)
      && peers.refreshCount == old(peers.refreshCount)
      && node.failures == old(node.failures) + (if fetched.error.IsAerospike() then 1 else 0)
    ensures old(node.failures <= 0 && node.active) && fetched.Ok? ==>
      && peers.peers == fetched.value.peers && node.failures == old(node.failures)
      && (r.Pass? ==> peers.refreshCount == old(peers.refreshCount) + 1)
      && (r.Fail? ==> !r.error.IsAerospike() && peers.refreshCount == old(peers.refreshCount))
      && (var a := Admitted(fetched.value.peers, Admission(old(peers.nodes.Keys), node.host, true, Pass),
                            NameSet(cluster.nodes), validate);
            && peers.nodes.Keys == a.names && last.host == a.host && r == a.outcome
            && (r.Pass? && a.validated ==> last.peersGeneration == fetched.value.generation)
            && (!a.validated ==> node.peersGeneration == old(node.peersGeneration)))
      && (OwnIdentity(validate, node) ==>
            && last == node && peers.nodes == old(peers.nodes)
            && (r.Pass? ==> node.peersGeneration == fetched.value.generation))
    ensures old(peers.nodes.Keys) <= peers.nodes.Keys
    ensures forall k | k in peers.nodes && k !in old(peers.nodes) ::
      k in PeerNames(peers.peers) && fresh(peers.nodes[k]) && peers.nodes[k].name == k
    ensures forall n | n in peers.nodes.Values :: n in old(peers.nodes.Values) || fresh(n)
    ensures forall n | n in cluster.nodes :: n.referenceCount >= old(n.referenceCount)
    ensures forall k | k in old(peers.nodes) :: k in peers.nodes && peers.nodes[k] == old(peers.nodes)[k]
    ensures old(peers.refreshCount) <= peers.refreshCount <= old(peers.refreshCount) + 1
  {
    last := node;
    if node.failures > 0 || !node.active {
      return Pass, last;
    }
    if fetched.Err? {
      if fetched.error.IsAerospike() {
        Failed(node);
      }
      return Fail(fetched.error), last;
    }
    peers.peers := fetched.value.peers;
    var validated;
    r, last, validated := AdmitPeers(node, peers, cluster, validate);
    if r.Fail? {
      return;
    }
    if validated {
      last.SetPeersGeneration(fetched.value.generation);
    }
    peers.refreshCount := peers.refreshCount + 1;
    r := Pass;
  }
}

=== FILE: string_parser.dfy ===
/** The character cursor the peer-list parser runs on
    (lib/aerospike/utils/string_parser.rb). The cursor is a position into an
    immutable string; it only ever moves forward. */
module StringParsing {
  import opened Base

  /** Index of the first `c` at or after `from`, if there is one
      (FindFromSkips: no `c` comes before it). */
  function FindFrom(s: string, from: nat, c: char): (r: Option<nat>)
    requires from <= |s|
    decreases |s| - from
    ensures r.Some? ==> from <= r.value < |s| && s[r.value] == c
  {
    if from == |s| then None
    else if s[from] == c then Some(from)
    else FindFrom(s, from + 1, c)
  }

  /** Everything FindFrom passes over differs from `c`. */
  lemma {:induction false} FindFromSkips(s: string, from: nat, c: char)
    requires from <= |s|
    decreases |s| - from
    ensures FindFrom(s, from, c).Some? ==> c !in s[from..FindFrom(s, from, c).value]
    ensures FindFrom(s, from, c).None? ==> c !in s[from..]
  {
    if from < |s| && s[from] != c {
      FindFromSkips(s, from + 1, c);
      var r := FindFrom(s, from + 1, c);
      assert r.Some? ==> s[from..r.value] == [s[from]] + s[from + 1..r.value];
      assert s[from..] == [s[from]] + s[from + 1..];
    }
  }

  /** What `current` reads at a position: the character there, or nil past the end. */
  function CharAt(s: string, pos: nat): (r: Option<char>)
    ensures r.Some? <==> pos < |s|
    ensures r.Some? ==> r.value == s[pos]
  {
    if pos < |s| then Some(s[pos]) else None
  }

  class StringParser {
    const str: string
    var pos: nat

    ghost predicate Valid()
      reads this
    {
      pos <= |str|
    }

    constructor (s: string)
      ensures Valid() && str == s && pos == 0
    {
      str := s;
      pos := 0;
    }

    /** The character under the cursor (nil at the end); the cursor stays. */
    function Current(): (r: Option<char>)
      reads this
      requires Valid()
      ensures r == CharAt(str, pos)
    {
      if pos < |str| then Some(str[pos]) else None
    }

    /** Reads one character (none at the end) and fails with a parse error
        unless it is `c`. */
    method Expect(c: char) returns (r: Outcome)
      requires Valid()
      modifies this`pos
      ensures Valid()
      ensures pos == if old(pos) < |str| then old(pos) + 1 else old(pos)
      ensures r.Pass? <==> old(pos) < |str| && str[old(pos)] == c
      ensures r.Fail? ==> r.error == ParseError
    {
      if pos < |str| {
        var ch := str[pos];
        pos := pos + 1;
        r := if ch == c then Pass else Fail(ParseError);
      } else {
        r := Fail(ParseError);
      }
    }

    /** Reads up to and including the next `c` and returns what came before
        it. When no `c` is ahead the source keeps appending nil forever; the
        model reports that as `Diverges`, with the cursor at the end. */
    method ReadUntil(c: char) returns (r: Result<string>)
      requires Valid()
      modifies this`pos
      ensures Valid() && pos >= old(pos)
      ensures FindFrom(str, old(pos), c).Some? ==>
        var k := FindFrom(str, old(pos), c).value;
        r == Ok(str[old(pos)..k]) && pos == k + 1
      ensures FindFrom(str, old(pos), c).None? ==> r == Err(Diverges) && pos == |str|
    {
      var result := [];
      while true
        invariant old(pos) <= pos <= |str|
        invariant result == str[old(pos)..pos]
        invariant c !in result
        decreases |str| - pos
      {
        if pos == |str| {
          r := Err(Diverges);
          return;
        }
        var ch := str[pos];
        pos := pos + 1;
        if ch == c {
          assert FindFrom(str, old(pos), c) == Some(pos - 1) by {
            FindFromFirst(str, old(pos), c, pos - 1);
          }
          r := Ok(result);
          return;
        }
        result := result + [ch];
      }
    }

    /** Moves the cursor forward by up to `count` characters; never fails. */
    method Step(count: nat)
      requires Valid()
      modifies this`pos
      ensures Valid()
      ensures pos == if old(pos) + count <= |str| then old(pos) + count else |str|
    {
      pos := if pos + count <= |str| then pos + count else |str|;
    }
  }

  /** The first occurrence found by a left-to-right scan is what FindFrom reports. */
  lemma {:induction false} FindFromFirst(s: string, from: nat, c: char, k: nat)
    requires from <= k < |s| && s[k] == c && c !in s[from..k]
    ensures FindFrom(s, from, c) == Some(k)
    decreases k - from
  {
    if from < k {
      assert s[from] in s[from..k];
      assert s[from + 1..k] == s[from..k][1..];
      FindFromFirst(s, from + 1, c, k);
    }
  }
}

=== FILE: tend.dfy ===
/** One tend cycle of the cluster (`Cluster#tend`, lib/aerospike/cluster.rb):
    seed an empty cluster, refresh every node, refresh peers when a peers
    generation moved, drop the nodes the removal policy names and add the
    nodes the cycle found. The info exchange, the peer fetch and node
    validation are inputs. */
module Tending {
  import opened Base
  import opened NodeState
  import opened NodeValidation
  import opened ClusterState
  import opened WorkingSet
  import PeerGrammar
  import NodeRefresh

  /** Whether every node supports the peers protocol. */
  predicate AllSupportPeers(ns: seq<Node>)
  {
    forall n | n in ns :: "peers" in n.features
  }

  /** The first loop of `tend`: reference counts and partition flags are
      cleared, and peers are used only if every node supports them. */
  method StartCycle(nodes: seq<Node>, peers: Peers)
    modifies (set n | n in nodes)`referenceCount, (set n | n in nodes)`partitionChanged, peers`usePeers
    ensures forall n | n in nodes :: n.referenceCount == 0 && !n.partitionChanged
    ensures peers.usePeers == (old(peers.usePeers) && AllSupportPeers(nodes))
  {
    var i := 0;
    while i < |nodes|
      invariant i <= |nodes|
      invariant forall j | 0 <= j < i :: nodes[j].referenceCount == 0 && !nodes[j].partitionChanged
      invariant peers.usePeers == (old(peers.usePeers) && AllSupportPeers(nodes[..i]))
    {
      var node := nodes[i];
      assert node in nodes;
      node.ResetReferenceCount();
      node.partitionChanged := false;
      if !node.SupportsFeature("peers") {
        peers.usePeers := false;
      }
      assert nodes[..i + 1] == nodes[..i] + [node];
      i := i + 1;
    }
    assert nodes[..i] == nodes;
  }

  /** The position of the first node without the peers feature, or the
      number of nodes when every node has it. */
  function FirstWithoutPeers(ns: seq<Node>): (k: nat)
    ensures k <= |ns| && AllSupportPeers(ns[..k])
    ensures k < |ns| <==> !AllSupportPeers(ns)
    ensures k < |ns| ==> "peers" !in ns[k].features
  {
    if ns == [] then 0
    else if "peers" !in ns[0].features then assert ns[0] in ns; 0
    else
      var k := FirstWithoutPeers(ns[1..]);
      assert ns[..k + 1] == [ns[0]] + ns[1..][..k];
      assert k < |ns[1..]| ==> ns[1..][k] in ns;
      assert AllSupportPeers(ns[1..]) ==> ns == [ns[0]] + ns[1..];
      k + 1
  }

  /** A node without peers that every node before it is ahead of is the
      first one. */
  lemma {:induction false} FirstWithoutPeersAt(ns: seq<Node>, i: nat)
    requires i < |ns| && AllSupportPeers(ns[..i]) && "peers" !in ns[i].features
    ensures FirstWithoutPeers(ns) == i
  {
    if i > 0 {
      assert ns[0] in ns[..i];
      assert ns[1..][..i - 1] == ns[1..i];
      assert forall n | n in ns[1..i] :: n in ns[..i];
      FirstWithoutPeersAt(ns[1..], i - 1);
    }
  }

  /** How many nodes the first loop of `tend`, as written, resets: all of
      them, or those up to and including the first without peers. */
  function Reached(ns: seq<Node>): (m: nat)
    ensures m <= |ns|
    ensures m == |ns| <==> AllSupportPeers(ns) || FirstWithoutPeers(ns) + 1 == |ns|
  {
    if AllSupportPeers(ns) then |ns| else FirstWithoutPeers(ns) + 1
  }

  /** The first loop of `tend` as written. `peers.use_peers` holds a plain
      boolean, so `use_peers.value = false` raises NoMethodError at the
      first node without the peers feature. That node's counters were
      already reset, and the nodes after it are not reached. */
  method StartCycleAsWritten(nodes: seq<Node>) returns (r: Outcome)
    modifies (set n | n in nodes)`referenceCount, (set n | n in nodes)`partitionChanged
    ensures r == Pass <==> AllSupportPeers(nodes)
    ensures r.Fail? ==> r.error == NoMethodError
    ensures forall j | 0 <= j < Reached(nodes) :: nodes[j].referenceCount == 0 && !nodes[j].partitionChanged
    ensures forall n | n in nodes && n !in nodes[..Reached(nodes)] ::
        n.referenceCount == old(n.referenceCount) && n.partitionChanged == old(n.partitionChanged)
  {
    var i := 0;
    while i < |nodes|
      invariant i <= |nodes| && AllSupportPeers(nodes[..i])
      invariant forall j | 0 <= j < i :: nodes[j].referenceCount == 0 && !nodes[j].partitionChanged
      invariant forall n | n in nodes && n !in nodes[..i] ::
        n.referenceCount == old(n.referenceCount) && n.partitionChanged == old(n.partitionChanged)
    {
      var node := nodes[i];
      assert node in nodes;
      node.ResetReferenceCount();
      node.partitionChanged := false;
      assert nodes[..i + 1] == nodes[..i] + [node];
      if !node.SupportsFeature("peers") {
        // the boolean in `use_peers` has no `value=`
        assert Reached(nodes) == i + 1 by {
          FirstWithoutPeersAt(nodes, i);
        }
        return Fail(NoMethodError);
      }
      i := i + 1;
    }
    assert nodes[..i] == nodes && Reached(nodes) == i;
    return Pass;
  }

  /** The second loop of `tend`: the info refresh of every node. It never
      raises (every error is absorbed by the refresh), so the loop always
      completes. */
  method RefreshInfos(nodes: seq<Node>, peers: Peers, c: Cluster, requestInfo: (Node, seq<string>) -> Probe,
                      validate: Validator) returns (outcomes: seq<Outcome>)
    requires peers.Valid()
    requires forall n | n in nodes :: n in c.nodes
    modifies set n | n in c.nodes
    modifies set n | n in c.nodes :: n.partitionGeneration
    modifies set n | n in c.aliases.Values
    modifies set n | n in peers.nodes.Values
    modifies c`aliases, peers`generationChanged, peers`refreshCount, peers`hosts, peers`nodes, peers`nodeNames
    ensures peers.Valid()
    ensures !peers.usePeers ==> peers.generationChanged == old(peers.generationChanged)
    ensures old(peers.generationChanged) ==> peers.generationChanged
    ensures |outcomes| == |nodes|
    ensures peers.refreshCount == old(peers.refreshCount) + PassCount(outcomes)
    ensures forall j | 0 <= j < |nodes| :: RefreshedAs(nodes[j], requestInfo, peers.usePeers, outcomes[j])
    ensures NoRepeats(nodes) ==> forall j | 0 <= j < |nodes| ::
      && (outcomes[j].Pass? ==> Refreshed(nodes[j]))
      && (outcomes[j].Fail? ==> nodes[j].failures == old(nodes[j].failures) + 1)
    ensures forall n | n in c.nodes :: !n.partitionChanged || old(n.partitionChanged)
    ensures forall n | n in c.aliases.Values :: n in old(c.aliases.Values) || n in c.nodes
    ensures forall n | n in peers.nodes.Values :: n in old(peers.nodes.Values) || fresh(n)
  {
    ghost var failures0 := FailuresOf(nodes);
    outcomes := [];
    var i := 0;
    while i < |nodes|
      invariant i <= |nodes|
      invariant peers.Valid()
      invariant !peers.usePeers ==> peers.generationChanged == old(peers.generationChanged)
      invariant old(peers.generationChanged) ==> peers.generationChanged
      invariant |failures0| == |nodes|
      invariant OutcomesAsReplied(nodes, i, outcomes, requestInfo, peers.usePeers)
      invariant NoRepeats(nodes) ==> StatesAfter(nodes, i, outcomes, failures0) && FailuresKept(nodes, i, failures0)
      invariant peers.refreshCount == old(peers.refreshCount) + PassCount(outcomes)
      invariant forall n | n in c.nodes :: !n.partitionChanged || old(n.partitionChanged)
      invariant forall n | n in c.aliases.Values :: n in old(c.aliases.Values) || n in c.nodes
      invariant forall n | n in peers.nodes.Values :: n in old(peers.nodes.Values) || fresh(n)
    {
      outcomes := InfoTurn(nodes, i, peers, c, requestInfo, validate, outcomes, failures0, old(peers.refreshCount));
      i := i + 1;
    }
  }

  /** Each node's failure count. */
  ghost function FailuresOf(ns: seq<Node>): (r: seq<int>)
    reads set n | n in ns
    ensures |r| == |ns| && forall j | 0 <= j < |ns| :: r[j] == ns[j].failures
  {
    if ns == [] then [] else [ns[0].failures] + FailuresOf(ns[1..])
  }

  /** The first `i` outcomes of the info loop are as their replies decide. */
  predicate OutcomesAsReplied(nodes: seq<Node>, i: nat, outcomes: seq<Outcome>,
                              requestInfo: (Node, seq<string>) -> Probe, usePeers: bool)
  {
    && i <= |nodes| && |outcomes| == i
    && forall j | 0 <= j < i :: RefreshedAs(nodes[j], requestInfo, usePeers, outcomes[j])
  }

  /** The first `i` nodes are in the state their outcomes leave them in:
      refreshed on a pass, one failure more than before the loop
      (`failures0`) on a failure. */
  ghost predicate StatesAfter(nodes: seq<Node>, i: nat, outcomes: seq<Outcome>, failures0: seq<int>)
    requires i <= |nodes| && |outcomes| == i && |failures0| == |nodes|
    reads set n | n in nodes
  {
    forall j | 0 <= j < i ::
      && (outcomes[j].Pass? ==> Refreshed(nodes[j]))
      && (outcomes[j].Fail? ==> nodes[j].failures == failures0[j] + 1)
  }

  /** The nodes from the `i`th on keep the failure counts they had before
      the loop. */
  ghost predicate FailuresKept(nodes: seq<Node>, i: nat, failures0: seq<int>)
    requires i <= |nodes| && |failures0| == |nodes|
    reads set n | n in nodes
  {
    forall j | i <= j < |nodes| :: nodes[j].failures == failures0[j]
  }

  /** One turn of the info loop: the info refresh of the `i`th node. Its
      outcome joins `outcomes`, a pass counts one more refreshed node, and
      what the loop has established carries over to `i + 1`. */
  method InfoTurn(nodes: seq<Node>, i: nat, peers: Peers, c: Cluster, requestInfo: (Node, seq<string>) -> Probe,
                  validate: Validator, outcomes: seq<Outcome>, ghost failures0: seq<int>, ghost count0: int)
    returns (outcomes': seq<Outcome>)
    requires i < |nodes| && peers.Valid() && |failures0| == |nodes|
    requires forall n | n in nodes :: n in c.nodes
    requires OutcomesAsReplied(nodes, i, outcomes, requestInfo, peers.usePeers)
    requires NoRepeats(nodes) ==> StatesAfter(nodes, i, outcomes, failures0) && FailuresKept(nodes, i, failures0)
    requires peers.refreshCount == count0 + PassCount(outcomes)
    modifies set n | n in c.nodes
    modifies set n | n in c.nodes :: n.partitionGeneration
    modifies set n | n in c.aliases.Values
    modifies set n | n in peers.nodes.Values
    modifies c`aliases, peers`generationChanged, peers`refreshCount, peers`hosts, peers`nodes, peers`nodeNames
    ensures peers.Valid()
    ensures OutcomesAsReplied(nodes, i + 1, outcomes', requestInfo, peers.usePeers)
    ensures NoRepeats(nodes) ==> StatesAfter(nodes, i + 1, outcomes', failures0) && FailuresKept(nodes, i + 1, failures0)
    ensures peers.refreshCount == count0 + PassCount(outcomes')
    ensures !peers.usePeers ==> peers.generationChanged == old(peers.generationChanged)
    ensures old(peers.generationChanged) ==> peers.generationChanged
    ensures forall n | n in c.nodes :: n.partitionChanged == old(n.partitionChanged)
    ensures forall n | n in c.aliases.Values :: n in old(c.aliases.Values) || n in c.nodes
    ensures forall n | n in peers.nodes.Values :: n in old(peers.nodes.Values) || fresh(n)
  {
    ghost var once := NoRepeats(nodes);
    assert once ==> nodes[i].failures == failures0[i];
    var outcome := InfoCall(nodes, i, peers, c, requestInfo, validate);
    outcomes' := outcomes + [outcome];
    assert outcomes'[..i] == outcomes;
    if once {
      assert forall j | 0 <= j < |nodes| && j != i :: nodes[j] != nodes[i];
    }
  }

  /** The info refresh of the `i`th node: its outcome as the reply decides,
      the state a pass or a failure leaves it in, and no other node's
      health, responded flag or failure count touched. */
  method InfoCall(nodes: seq<Node>, i: nat, peers: Peers, c: Cluster, requestInfo: (Node, seq<string>) -> Probe,
                  validate: Validator) returns (outcome: Outcome)
    requires i < |nodes| && peers.Valid()
    requires forall n | n in nodes :: n in c.nodes
    modifies set n | n in c.nodes
    modifies set n | n in c.nodes :: n.partitionGeneration
    modifies set n | n in c.aliases.Values
    modifies set n | n in peers.nodes.Values
    modifies c`aliases, peers`generationChanged, peers`refreshCount, peers`hosts, peers`nodes, peers`nodeNames
    ensures peers.Valid()
    ensures RefreshedAs(nodes[i], requestInfo, peers.usePeers, outcome)
    ensures peers.refreshCount == old(peers.refreshCount) + if outcome.Pass? then 1 else 0
    ensures outcome.Pass? ==> Refreshed(nodes[i])
    ensures outcome.Fail? ==> nodes[i].failures == old(nodes[i].failures) + 1
    ensures forall j | 0 <= j < |nodes| && nodes[j] != nodes[i] ::
      Refreshed(nodes[j]) == old(Refreshed(nodes[j])) && nodes[j].failures == old(nodes[j].failures)
    ensures !peers.usePeers ==> peers.generationChanged == old(peers.generationChanged)
    ensures old(peers.generationChanged) ==> peers.generationChanged
    ensures forall n | n in c.nodes :: n.partitionChanged == old(n.partitionChanged)
    ensures forall n | n in c.aliases.Values :: n in old(c.aliases.Values) || n in c.nodes
    ensures forall n | n in peers.nodes.Values :: n in old(peers.nodes.Values) || fresh(n)
  {
    var node := nodes[i];
    assert node in c.nodes;
    var request := (cmds: seq<string>) => requestInfo(node, cmds);
    outcome := NodeRefresh.Info(node, peers, c, request, validate);
  }

  /** No node is listed twice. */
  predicate NoRepeats(ns: seq<Node>)
  {
    forall j, k | 0 <= j < k < |ns| :: ns[j] != ns[k]
  }

  /** The state a passed info refresh leaves a node in: full health,
      responded, no failures. */
  predicate Refreshed(n: Node)
    reads n
  {
    n.health == FullHealth && n.responded && n.failures == 0
  }

  /** How many of the outcomes are passes. */
  function PassCount(os: seq<Outcome>): (k: nat)
    ensures k <= |os|
    ensures k == |os| <==> forall j | 0 <= j < |os| :: os[j].Pass?
  {
    if os == [] then 0
    else
      var k := PassCount(os[..|os| - 1]);
      assert forall j | 0 <= j < |os| - 1 :: os[..|os| - 1][j] == os[j];
      k + if os[|os| - 1].Pass? then 1 else 0
  }

  /** What the info refresh of one node concluded, given the reply to its
      request: no reply is that failure; a pass means the reply was accepted;
      with peers, an accepted reply is a pass. */
  predicate RefreshedAs(node: Node, requestInfo: (Node, seq<string>) -> Probe, usePeers: bool, outcome: Outcome)
  {
    var probe := requestInfo(node, NodeRefresh.Commands(usePeers));
    && (!probe.Replied? ==> outcome == Fail(probe.error))
    && (outcome.Pass? ==> probe.Replied? && NodeRefresh.InfoAccepted(node, probe.info, usePeers))
    && (usePeers && probe.Replied? && NodeRefresh.InfoAccepted(node, probe.info, true) ==> outcome.Pass?)
  }

  /** The peers loop of `tend`: the peers refresh of every node, in order.
      Only an error the refresh does not absorb (one that is not an
      Aerospike error) ends it, and with it the cycle. `outcomes` holds the
      refreshes that ran. */
  method RefreshAllPeers(nodes: seq<Node>, peers: Peers, c: Cluster, fetchPeers: Node -> Result<PeerGrammar.PeerList>,
                         validate: Validator) returns (r: Outcome, outcomes: seq<Outcome>)
    requires peers.Valid()
    requires forall n | n in nodes :: n in c.nodes
    modifies set n | n in c.nodes
    modifies set n | n in peers.nodes.Values
    modifies peers`peers, peers`nodes, peers`nodeNames, peers`refreshCount
    ensures peers.Valid()
    ensures |outcomes| <= |nodes|
    ensures r.Pass? <==> |outcomes| == |nodes| && forall j | 0 <= j < |outcomes| :: !Escapes(outcomes[j])
    ensures r.Fail? ==> 0 < |outcomes| && r == outcomes[|outcomes| - 1] && Escapes(r)
    ensures forall j | 0 <= j < |outcomes| - 1 :: !Escapes(outcomes[j])
    ensures peers.refreshCount == old(peers.refreshCount) + PeersCounted(nodes, outcomes, fetchPeers, old(ThroughOf(nodes)))
    ensures forall j | 0 <= j < |nodes| && fetchPeers(nodes[j]).Ok? :: Through(nodes[j]) == old(Through(nodes[j]))
    ensures old(peers.nodes.Keys) <= peers.nodes.Keys
    ensures forall k | k in peers.nodes && k !in old(peers.nodes) :: fresh(peers.nodes[k]) && peers.nodes[k].name == k
    ensures forall n | n in peers.nodes.Values :: n in old(peers.nodes.Values) || fresh(n)
    ensures forall n | n in c.nodes :: n.partitionChanged == old(n.partitionChanged)
  {
    ghost var through0 := ThroughOf(nodes);
    outcomes := [];
    var i := 0;
    while i < |nodes|
      invariant i <= |nodes| && |outcomes| == i
      invariant peers.Valid()
      invariant forall j | 0 <= j < i :: !Escapes(outcomes[j])
      invariant peers.refreshCount == old(peers.refreshCount) + PeersCounted(nodes, outcomes, fetchPeers, through0)
      invariant forall j | 0 <= j < |nodes| && fetchPeers(nodes[j]).Ok? :: Through(nodes[j]) == through0[j]
      invariant old(peers.nodes.Keys) <= peers.nodes.Keys
      invariant forall k | k in peers.nodes && k !in old(peers.nodes) :: fresh(peers.nodes[k]) && peers.nodes[k].name == k
      invariant forall n | n in peers.nodes.Values :: n in old(peers.nodes.Values) || fresh(n)
      invariant forall n | n in c.nodes :: n.partitionChanged == old(n.partitionChanged)
    {
      var outcome;
      outcome, outcomes := PeersStep(nodes, i, peers, c, fetchPeers, validate, outcomes, through0, old(peers.refreshCount));
      if Escapes(outcome) {
        return outcome, outcomes;
      }
      i := i + 1;
    }
    r := Pass;
  }

  /** An outcome the peers loop does not absorb: an error other than an
      Aerospike exception. */
  predicate Escapes(o: Outcome)
  {
    o.Fail? && !o.error.IsAerospike()
  }

  /** Whether the guard of `Refresh::Peers.call` lets the node through. */
  predicate Through(n: Node)
    reads n
  {
    n.failures <= 0 && n.active
  }

  /** How many of the peers refreshes that ran count as refreshed: those
      that passed on a node the guard let through, with a fetched peer
      list. */
  function PeersCounted(nodes: seq<Node>, outcomes: seq<Outcome>, fetchPeers: Node -> Result<PeerGrammar.PeerList>,
                        through: seq<bool>): (k: nat)
    requires |outcomes| <= |nodes| == |through|
    ensures k <= PassCount(outcomes)
    decreases |outcomes|
  {
    if outcomes == [] then 0
    else
      var j := |outcomes| - 1;
      PeersCounted(nodes, outcomes[..j], fetchPeers, through)
        + if outcomes[j].Pass? && fetchPeers(nodes[j]).Ok? && through[j] then 1 else 0
  }

  /** Only the guard entries of nodes whose fetch succeeded matter to the
      count. */
  lemma {:induction false} PeersCountedAgree(nodes: seq<Node>, outcomes: seq<Outcome>,
                                             fetchPeers: Node -> Result<PeerGrammar.PeerList>, t1: seq<bool>, t2: seq<bool>)
    requires |outcomes| <= |nodes| == |t1| == |t2|
    requires forall j | 0 <= j < |nodes| && fetchPeers(nodes[j]).Ok? :: t1[j] == t2[j]
    ensures PeersCounted(nodes, outcomes, fetchPeers, t1) == PeersCounted(nodes, outcomes, fetchPeers, t2)
    decreases |outcomes|
  {
    if outcomes != [] {
      PeersCountedAgree(nodes, outcomes[..|outcomes| - 1], fetchPeers, t1, t2);
    }
  }

  /** Whether the guard lets each node through, as the loop starts. */
  ghost function ThroughOf(ns: seq<Node>): (r: seq<bool>)
    reads set n | n in ns
    ensures |r| == |ns| && forall j | 0 <= j < |ns| :: r[j] == Through(ns[j])
  {
    if ns == [] then [] else [Through(ns[0])] + ThroughOf(ns[1..])
  }

  /** The `i`th turn of the peers loop: its outcome joins `outcomes`, the
      refresh count follows the outcomes against the snapshot `through0`
      of the guard, and the snapshot still holds for the nodes to come
      whose fetch succeeds. */
  method PeersStep(nodes: seq<Node>, i: nat, peers: Peers, c: Cluster, fetchPeers: Node -> Result<PeerGrammar.PeerList>,
                   validate: Validator, outcomes: seq<Outcome>, ghost through0: seq<bool>, ghost count0: int)
    returns (outcome: Outcome, outcomes': seq<Outcome>)
    requires i < |nodes| == |through0| && |outcomes| == i && peers.Valid()
    requires forall n | n in nodes :: n in c.nodes
    requires peers.refreshCount == count0 + PeersCounted(nodes, outcomes, fetchPeers, through0)
    requires forall j | 0 <= j < |nodes| && fetchPeers(nodes[j]).Ok? :: Through(nodes[j]) == through0[j]
    modifies set n | n in c.nodes
    modifies set n | n in peers.nodes.Values
    modifies peers`peers, peers`nodes, peers`nodeNames, peers`refreshCount
    ensures peers.Valid()
    ensures outcomes' == outcomes + [outcome]
    ensures peers.refreshCount == count0 + PeersCounted(nodes, outcomes', fetchPeers, through0)
    ensures forall j | 0 <= j < |nodes| && fetchPeers(nodes[j]).Ok? :: Through(nodes[j]) == through0[j]
    ensures old(peers.nodes.Keys) <= peers.nodes.Keys
    ensures forall k | k in peers.nodes && k !in old(peers.nodes) :: fresh(peers.nodes[k]) && peers.nodes[k].name == k
    ensures forall n | n in peers.nodes.Values :: n in old(peers.nodes.Values) || fresh(n)
    ensures forall k | k in old(peers.nodes) :: k in peers.nodes && peers.nodes[k] == old(peers.nodes)[k]
    ensures forall n | n in c.nodes :: n.partitionChanged == old(n.partitionChanged)
  {
    var node := nodes[i];
    assert node in c.nodes;
    outcome := PeersTurn(node, peers, c, fetchPeers(node), validate);
    outcomes' := outcomes + [outcome];
    assert outcomes'[..i] == outcomes;
  }

  /** One turn of the peers loop: the peers refresh of `node`. It counts one
      more refreshed node exactly when it passes on a node the guard lets
      through with a fetched list; the node's failures change only when
      the fetch failed. */
  method PeersTurn(node: Node, peers: Peers, c: Cluster, fetched: Result<PeerGrammar.PeerList>,
                   validate: Validator) returns (outcome: Outcome)
    requires peers.Valid() && node in c.nodes
    modifies set n | n in c.nodes
    modifies set n | n in peers.nodes.Values
    modifies peers`peers, peers`nodes, peers`nodeNames, peers`refreshCount
    ensures peers.Valid()
    ensures peers.refreshCount == old(peers.refreshCount) + if outcome.Pass? && fetched.Ok? && old(Through(node)) then 1 else 0
    ensures fetched.Ok? ==> node.failures == old(node.failures)
    ensures forall n | n in c.nodes :: n.active == old(n.active) && n.partitionChanged == old(n.partitionChanged)
    ensures forall n | n in c.nodes && n != node :: n.failures == old(n.failures)
    ensures old(peers.nodes.Keys) <= peers.nodes.Keys
    ensures forall k | k in peers.nodes && k !in old(peers.nodes) :: fresh(peers.nodes[k]) && peers.nodes[k].name == k
    ensures forall n | n in peers.nodes.Values :: n in old(peers.nodes.Values) || fresh(n)
    ensures forall k | k in old(peers.nodes) :: k in peers.nodes && peers.nodes[k] == old(peers.nodes)[k]
  {
    var last;
    outcome, last := NodeRefresh.RefreshPeers(node, peers, c, fetched, validate);
  }

  /** The refresh part of `tend` (lines 248-266 of cluster.rb) on the node
      array `tended`: the cycle is started, every node's info refreshed and,
      when a peers generation moved, every node's peers refreshed. */
  method RefreshCycle(c: Cluster, tended: seq<Node>, cycle: Peers, validate: Validator,
                      requestInfo: (Node, seq<string>) -> Probe,
                      fetchPeers: Node -> Result<PeerGrammar.PeerList>)
    returns (r: Outcome, infoOutcomes: seq<Outcome>, peersOutcomes: seq<Outcome>)
    requires cycle.Valid() && cycle.nodes == map[]
    requires forall n | n in tended :: n in c.nodes
    modifies c`aliases, cycle
    modifies set n | n in c.nodes
    modifies set n | n in c.nodes :: n.partitionGeneration
    modifies set n | n in c.aliases.Values
    ensures cycle.Valid()
    ensures cycle.usePeers == (old(cycle.usePeers) && AllSupportPeers(tended))
    ensures forall n | n in tended :: !n.partitionChanged
    // every node's info refresh ran, each outcome as its reply decides
    ensures OutcomesAsReplied(tended, |tended|, infoOutcomes, requestInfo, cycle.usePeers)
    // without peers no generation moves
    ensures !cycle.usePeers ==> cycle.generationChanged == old(cycle.generationChanged)
    // the peers refresh runs exactly when a generation moved
    ensures Gated(|tended|, cycle.generationChanged, r, peersOutcomes)
    ensures r.Fail? ==> !r.error.IsAerospike()
    // refreshed nodes: the info passes, then the counted peers passes
    ensures cycle.refreshCount
         == old(cycle.refreshCount) + PassCount(infoOutcomes) + PeersCounted(tended, peersOutcomes, fetchPeers, ThroughOf(tended))
    ensures forall n | n in cycle.nodes.Values :: fresh(n)
    ensures forall n | n in c.aliases.Values :: n in old(c.aliases.Values) || n in c.nodes
  {
    StartCycle(tended, cycle);
    infoOutcomes := RefreshInfos(tended, cycle, c, requestInfo, validate);
    assert !cycle.usePeers ==> cycle.generationChanged == old(cycle.generationChanged);
    assert forall n | n in cycle.nodes.Values :: fresh(n);
    r, peersOutcomes := PeersPhase(tended, cycle, c, fetchPeers, validate);
  }

  /** The shape of the peers step over `count` nodes: it runs exactly when a
      peers generation moved; then it passes exactly when every node's
      refresh ran and none escaped, and otherwise fails with the escaping
      outcome, the last one. */
  predicate Gated(count: nat, generationChanged: bool, r: Outcome, outcomes: seq<Outcome>)
  {
    && |outcomes| <= count
    && (!generationChanged ==> r == Pass && outcomes == [])
    && (generationChanged ==>
         (r.Pass? <==> |outcomes| == count && forall j | 0 <= j < |outcomes| :: !Escapes(outcomes[j])))
    && (r.Fail? ==> 0 < |outcomes| && r == outcomes[|outcomes| - 1] && Escapes(r))
  }

  /** The third step of `tend` (lines 262-266 of cluster.rb): the peers
      refresh of every node, run exactly when a peers generation moved. The
      count is stated against the guard as the refresh leaves it, which is
      as it found it for every node whose fetch succeeds. */
  method PeersPhase(nodes: seq<Node>, peers: Peers, c: Cluster, fetchPeers: Node -> Result<PeerGrammar.PeerList>,
                    validate: Validator) returns (r: Outcome, outcomes: seq<Outcome>)
    requires peers.Valid()
    requires forall n | n in nodes :: n in c.nodes
    modifies set n | n in c.nodes
    modifies set n | n in peers.nodes.Values
    modifies peers`peers, peers`nodes, peers`nodeNames, peers`refreshCount
    ensures peers.Valid()
    ensures Gated(|nodes|, peers.generationChanged, r, outcomes)
    ensures peers.refreshCount == old(peers.refreshCount) + PeersCounted(nodes, outcomes, fetchPeers, ThroughOf(nodes))
    ensures forall n | n in peers.nodes.Values :: n in old(peers.nodes.Values) || fresh(n)
    ensures forall n | n in c.nodes :: n.partitionChanged == old(n.partitionChanged)
  {
    r, outcomes := Pass, [];
    if peers.GenerationChanged() {
      ghost var before := ThroughOf(nodes);
      r, outcomes := RefreshAllPeers(nodes, peers, c, fetchPeers, validate);
      PeersCountedAgree(nodes, outcomes, fetchPeers, before, ThroughOf(nodes));
    }
  }

  /** The removal step of `tend` (lines 270-276 of cluster.rb): when a peers
      generation moved or peers are not used, the nodes the removal policy
      names are removed. */
  method RemoveStale(c: Cluster, cycle: Peers) returns (removed: seq<Node>)
    modifies c`nodes, c`aliases, (set n | n in c.nodes)`active
    ensures c.nodes == Kept(old(c.nodes), removed)
    ensures removed == [] || removed == old(c.FindNodesToRemove(cycle.refreshCount))
    ensures cycle.generationChanged || !cycle.usePeers ==> removed == old(c.FindNodesToRemove(cycle.refreshCount))
    ensures removed != [] ==> cycle.generationChanged || !cycle.usePeers
    ensures forall n | n in removed :: n in old(c.nodes) && !n.active
    ensures forall n | n in old(c.nodes) && n !in removed :: n.active == old(n.active)
    ensures forall n | n in old(c.nodes) && n !in removed :: Through(n) == old(Through(n))
    ensures cycle.generationChanged || !cycle.usePeers ==> forall n | n in old(c.nodes) :: n in removed <==> !n.active
    ensures c.aliases == old(c.aliases) - AliasSet(removed)
  {
    removed := [];
    if cycle.GenerationChanged() || !cycle.UsePeers() {
      var toRemove := c.FindNodesToRemove(cycle.refreshCount);
      if |toRemove| > 0 {
        c.RemoveNodes(toRemove);
        removed := toRemove;
        return;
      }
    }
    KeptNothingRemoved(c.nodes);
  }

  /** The adding step of `tend` (lines 279-282 of cluster.rb): the working
      set's nodes, if any, join the cluster with their aliases. */
  method AddFound(c: Cluster, cycle: Peers) returns (added: seq<Node>)
    requires cycle.Valid()
    modifies c`nodes, c`aliases
    ensures added == cycle.NodeValues()
    ensures forall n | n in added :: n in cycle.nodes.Values
    ensures c.nodes == old(c.nodes) + added
    ensures c.aliases == old(c.aliases) + AliasesOf(added)
  {
    added := cycle.NodeValues();
    if |cycle.nodes| > 0 {
      c.AddNodes(added);
    } else {
      assert added == [] && c.nodes + [] == c.nodes;
    }
  }

  /** The closing part of `tend` (lines 270-290 of cluster.rb): stale nodes
      are removed, the working set's nodes are added, as the array of its
      values (the form the source's own tests expect of the call), and when
      either changed the node array, the common features are recomputed. */
  method Reconcile(c: Cluster, cycle: Peers) returns (removed: seq<Node>, added: seq<Node>)
    requires cycle.Valid()
    modifies c`nodes, c`aliases, c`features, (set n | n in c.nodes)`active
    ensures c.nodes == Kept(old(c.nodes), removed) + added
    ensures removed == [] || removed == old(c.FindNodesToRemove(cycle.refreshCount))
    ensures cycle.generationChanged || !cycle.usePeers ==> removed == old(c.FindNodesToRemove(cycle.refreshCount))
    ensures removed != [] ==> cycle.generationChanged || !cycle.usePeers
    ensures forall n | n in removed :: n in old(c.nodes) && !n.active
    ensures forall n | n in old(c.nodes) && n !in removed :: n.active == old(n.active)
    ensures forall n | n in old(c.nodes) && n !in removed :: Through(n) == old(Through(n))
    ensures cycle.generationChanged || !cycle.usePeers ==> forall n | n in old(c.nodes) :: n in removed <==> !n.active
    ensures added == cycle.NodeValues()
    ensures forall n | n in added :: n in cycle.nodes.Values
    ensures removed != [] || added != [] ==> c.features == CommonFeatures(c.nodes)
    ensures removed == [] && added == [] ==> c.features == old(c.features)
  {
    removed := RemoveStale(c, cycle);
    added := AddFound(c, cycle);
    if |removed| > 0 || |added| > 0 {
      c.UpdateClusterFeatures();
    }
  }

  /** The start of `tend` (lines 242-246 of cluster.rb): an empty cluster is
      seeded first. */
  method SeedIfEmpty(c: Cluster, validate: Validator)
    modifies c`nodes, c`aliases
    ensures old(c.nodes) != [] ==> c.nodes == old(c.nodes) && c.aliases == old(c.aliases)
    ensures old(c.nodes) == [] ==> forall n | n in c.nodes :: fresh(n) && fresh(n.partitionGeneration)
    ensures old(c.nodes) == [] ==> Names(c.nodes) == FreshNames(SeedResults(c.seeds, validate), {})
    ensures forall n | n in c.aliases.Values :: n in old(c.aliases.Values) || fresh(n)
  {
    if |c.nodes| == 0 {
      var seeded := c.SeedNodes(validate);
      assert c.nodes == seeded;
      AliasesOfOwners(seeded);
      assert forall n | n in c.aliases.Values :: n in old(c.aliases.Values) || n in seeded;
    }
  }

  /** `Cluster#tend`, adding the working set's nodes as the array of its
      values. `tended` is the node array the cycle works on (the seeded one
      when the cluster was empty); the other results are `CycleOn`'s. The
      refresh of partition maps is not part of this model; no step here
      raises a node's partition flag, so it never runs. */
  method Tend(c: Cluster, validate: Validator, requestInfo: (Node, seq<string>) -> Probe,
              fetchPeers: Node -> Result<PeerGrammar.PeerList>)
    returns (r: Outcome, tended: seq<Node>, infoOutcomes: seq<Outcome>, peersOutcomes: seq<Outcome>,
             removed: seq<Node>, added: seq<Node>, cycle: Peers, ghost through: seq<bool>)
    modifies c`nodes, c`aliases, c`features
    modifies set n | n in c.nodes
    modifies set n | n in c.nodes :: n.partitionGeneration
    modifies set n | n in c.aliases.Values
    // seeding
    ensures old(c.nodes) != [] ==> tended == old(c.nodes)
    ensures old(c.nodes) == [] ==> forall n | n in tended :: fresh(n)
    ensures old(c.nodes) == [] ==> Names(tended) == FreshNames(SeedResults(c.seeds, validate), {})
    // refreshing
    ensures fresh(cycle) && cycle.Valid()
    ensures cycle.usePeers <==> AllSupportPeers(tended)
    ensures forall n | n in tended :: !n.partitionChanged
    ensures OutcomesAsReplied(tended, |tended|, infoOutcomes, requestInfo, cycle.usePeers)
    ensures cycle.generationChanged ==> cycle.usePeers
    ensures Gated(|tended|, cycle.generationChanged, r, peersOutcomes)
    ensures r.Fail? ==> !r.error.IsAerospike()
    ensures |through| == |tended|
    ensures forall j | 0 <= j < |tended| && tended[j] !in removed :: through[j] == Through(tended[j])
    ensures cycle.refreshCount == PassCount(infoOutcomes) + PeersCounted(tended, peersOutcomes, fetchPeers, through)
    // removing and adding
    ensures c.nodes == Kept(tended, removed) + added
    ensures forall n | n in removed :: n in tended && !n.active
    ensures removed != [] ==> cycle.generationChanged || !cycle.usePeers
    ensures r.Pass? && (cycle.generationChanged || !cycle.usePeers) ==> forall n | n in tended :: n in removed <==> !n.active
    ensures forall n | n in added :: fresh(n)
    ensures r.Pass? ==> added == cycle.NodeValues()
    ensures r.Fail? ==> removed == [] && added == []
    ensures removed != [] || added != [] ==> c.features == CommonFeatures(c.nodes)
    ensures removed == [] && added == [] ==> c.features == old(c.features)
  {
    SeedIfEmpty(c, validate);
    tended := c.nodes;
    r, infoOutcomes, peersOutcomes, removed, added, cycle, through := CycleOn(c, tended, validate, requestInfo, fetchPeers);
  }

  /** The cycle of `tend` over the node array `tended` (lines 248-290 of
      cluster.rb): a fresh working set, the refreshes, then the removal and
      the adding when no error escaped. `through` tells, for each tended
      node, whether the peers guard let it through once the refreshes were
      over. */
  method CycleOn(c: Cluster, tended: seq<Node>, validate: Validator, requestInfo: (Node, seq<string>) -> Probe,
                 fetchPeers: Node -> Result<PeerGrammar.PeerList>)
    returns (r: Outcome, infoOutcomes: seq<Outcome>, peersOutcomes: seq<Outcome>,
             removed: seq<Node>, added: seq<Node>, cycle: Peers, ghost through: seq<bool>)
    requires tended == c.nodes
    modifies c`nodes, c`aliases, c`features
    modifies set n | n in c.nodes
    modifies set n | n in c.nodes :: n.partitionGeneration
    modifies set n | n in c.aliases.Values
    ensures fresh(cycle) && cycle.Valid()
    ensures cycle.usePeers <==> AllSupportPeers(tended)
    ensures forall n | n in tended :: !n.partitionChanged
    ensures OutcomesAsReplied(tended, |tended|, infoOutcomes, requestInfo, cycle.usePeers)
    ensures cycle.generationChanged ==> cycle.usePeers
    ensures Gated(|tended|, cycle.generationChanged, r, peersOutcomes)
    ensures r.Fail? ==> !r.error.IsAerospike()
    ensures |through| == |tended|
    ensures forall j | 0 <= j < |tended| && tended[j] !in removed :: through[j] == Through(tended[j])
    ensures cycle.refreshCount == PassCount(infoOutcomes) + PeersCounted(tended, peersOutcomes, fetchPeers, through)
    ensures c.nodes == Kept(tended, removed) + added
    ensures forall n | n in removed :: n in tended && !n.active
    ensures removed != [] ==> cycle.generationChanged || !cycle.usePeers
    ensures r.Pass? && (cycle.generationChanged || !cycle.usePeers) ==> forall n | n in tended :: n in removed <==> !n.active
    ensures forall n | n in added :: fresh(n)
    ensures r.Pass? ==> added == cycle.NodeValues()
    ensures r.Fail? ==> removed == [] && added == []
    ensures removed != [] || added != [] ==> c.features == CommonFeatures(c.nodes)
    ensures removed == [] && added == [] ==> c.features == old(c.features)
  {
    cycle := new Peers();
    r, infoOutcomes, peersOutcomes := RefreshCycle(c, tended, cycle, validate, requestInfo, fetchPeers);
    through := ThroughOf(tended);
    removed, added := Conclude(c, tended, cycle, r.Pass?, through);
  }

  /** The end of the cycle of `tend` (lines 270-290 of cluster.rb): when no
      error escaped the refreshes (`go`), the stale nodes are removed and the
      found ones added; `through` is the peers guard as the refreshes left
      it, and stays so for every node kept. */
  method Conclude(c: Cluster, tended: seq<Node>, cycle: Peers, go: bool, ghost through: seq<bool>)
    returns (removed: seq<Node>, added: seq<Node>)
    requires tended == c.nodes && cycle.Valid()
    requires through == ThroughOf(tended)
    modifies c`nodes, c`aliases, c`features, (set n | n in c.nodes)`active
    ensures forall j | 0 <= j < |tended| && tended[j] !in removed :: through[j] == Through(tended[j])
    ensures c.nodes == Kept(tended, removed) + added
    ensures forall n | n in removed :: n in tended && !n.active
    ensures removed != [] ==> cycle.generationChanged || !cycle.usePeers
    ensures go && (cycle.generationChanged || !cycle.usePeers) ==> removed == old(c.FindNodesToRemove(cycle.refreshCount))
    ensures go && (cycle.generationChanged || !cycle.usePeers) ==> forall n | n in tended :: n in removed <==> !n.active
    ensures forall n | n in added :: n in cycle.nodes.Values
    ensures go ==> added == cycle.NodeValues()
    ensures !go ==> removed == [] && added == []
    ensures removed != [] || added != [] ==> c.features == CommonFeatures(c.nodes)
    ensures removed == [] && added == [] ==> c.features == old(c.features)
  {
    removed, added := [], [];
    if !go {
      KeptNothingRemoved(tended);
      return;
    }
    removed, added := Reconcile(c, cycle);
    forall j | 0 <= j < |tended| && tended[j] !in removed
      ensures through[j] == Through(tended[j])
    {
      assert tended[j] in old(c.nodes);
    }
  }

  /** `add_nodes(peers.nodes)` as `tend` writes it (cluster.rb line 280): the
      argument is the Hash itself, whose `each` yields `[name, node]` pairs,
      so `add_aliases` calls `get_aliases` on an Array (NoMethodError); an
      empty Hash would instead reach `concat`, which takes no Hash
      (TypeError). Either way nothing is added. */
  method AddPeerNodesAsWritten(pending: map<Option<string>, Node>) returns (r: Outcome)
    ensures r.Fail?
    ensures pending != map[] <==> r.error == NoMethodError
    ensures pending == map[] <==> r.error == TypeError
  {
    if pending != map[] {
      r := Fail(NoMethodError);
    } else {
      r := Fail(TypeError);
    }
  }
}

=== FILE: verify.dfy ===
/** The identity and generation checks run on a node's info reply
    (the files under lib/aerospike/node/verify). Each either passes or fails with the
    exception the source raises, after the state changes it makes first. */
module NodeVerify {
  import opened Base
  import opened NodeState
  import opened WorkingSet

  /** Whether a generation reply can be read: the key is there and the value
      is not empty. */
  predicate GenerationReadable(info: InfoMap, key: string)
  {
    key in info && info[key] != ""
  }

  /** `Verify::Name.call`: the reply must carry the node's own name. */
  method Name(node: Node, info: InfoMap) returns (r: Outcome)
    modifies node`health, node`active
    ensures Get(info, "node").None? ==>
      r == Fail(InvalidNodeError("Node name is empty"))
      && node.health == old(node.health) - 1 && node.active == old(node.active)
    ensures Get(info, "node").Some? && node.name != Get(info, "node") ==>
      r == Fail(InvalidNodeError("Node name has changed"))
      && !node.active && node.health == old(node.health)
    ensures Get(info, "node").Some? && node.name == Get(info, "node") ==>
      r == Pass && node.active == old(node.active) && node.health == old(node.health)
  {
    var infoName := Get(info, "node");
    if infoName.None? {
      node.DecreaseHealth();
      return Fail(InvalidNodeError("Node name is empty"));
    }
    if node.name != infoName {
      node.Deactivate();
      return Fail(InvalidNodeError("Node name has changed"));
    }
    r := Pass;
  }

  /** `Verify::ClusterName.call` as the source has it: the message of the
      exception reads a local variable that does not exist, so a mismatch
      raises NameError, after the node was made inactive. */
  method ClusterNameAsWritten(node: Node, info: InfoMap) returns (r: Outcome)
    modifies node`active
    ensures r.Fail? <==> node.clusterName.Some? && node.clusterName != Get(info, "cluster-name")
    ensures r.Fail? ==> r.error == NameError && !node.active
    ensures r.Pass? ==> node.active == old(node.active)
  {
    if node.clusterName.Some? && node.clusterName != Get(info, "cluster-name") {
      node.Deactivate();
      return Fail(NameError);
    }
    r := Pass;
  }

  /** `Verify::ClusterName.call` as intended: a node whose reply names
      another cluster than the configured filter is made inactive and fails
      with INVALID_NODE_ERROR; without a filter nothing is checked. */
  method ClusterName(node: Node, info: InfoMap) returns (r: Outcome)
    modifies node`active
    ensures r.Fail? <==> node.clusterName.Some? && node.clusterName != Get(info, "cluster-name")
    ensures r.Fail? ==> r.error == InvalidNodeError("Cluster name does not match") && !node.active
    ensures r.Pass? ==> node.active == old(node.active)
  {
    if node.clusterName.Some? && node.clusterName != Get(info, "cluster-name") {
      node.Deactivate();
      return Fail(InvalidNodeError("Cluster name does not match"));
    }
    r := Pass;
  }

  /** `Verify::PartitionGeneration.call`: `fetch` fails on a missing key, an
      empty value is a parse error, otherwise the node's generation is
      updated to the value's `to_i`. */
  method PartitionGeneration(node: Node, info: InfoMap) returns (r: Outcome)
    modifies node.partitionGeneration
    ensures "partition-generation" !in info ==> r == Fail(KeyError)
    ensures "partition-generation" in info && info["partition-generation"] == "" ==> r == Fail(ParseError)
    ensures r.Pass? <==> GenerationReadable(info, "partition-generation")
    ensures r.Fail? ==> unchanged(node.partitionGeneration)
    ensures r.Pass? ==>
      (node.partitionGeneration.number, node.partitionGeneration.changed)
      == Updated(old(node.partitionGeneration.number), old(node.partitionGeneration.changed),
                 ToI(info["partition-generation"]))
  {
    if "partition-generation" !in info {
      return Fail(KeyError);
    }
    var genString := info["partition-generation"];
    if genString == "" {
      return Fail(ParseError);
    }
    node.partitionGeneration.Update(ToI(genString));
    r := Pass;
  }

  /** `Verify::PeersGeneration.call`: a differing value marks the working
      set's generation as changed; the node's own peers generation is not
      written, and an equal value leaves the flag as it was. */
  method PeersGeneration(node: Node, info: InfoMap, peers: Peers) returns (r: Outcome)
    modifies peers`generationChanged
    ensures "peers-generation" !in info ==> r == Fail(KeyError)
    ensures "peers-generation" in info && info["peers-generation"] == "" ==> r == Fail(ParseError)
    ensures r.Pass? <==> GenerationReadable(info, "peers-generation")
    ensures peers.generationChanged ==
      if r.Pass? && ToI(info["peers-generation"]) != node.peersGeneration then true
      else old(peers.generationChanged)
  {
    if "peers-generation" !in info {
      return Fail(KeyError);
    }
    var genString := info["peers-generation"];
    if genString == "" {
      return Fail(ParseError);
    }
    if node.peersGeneration != ToI(genString) {
      peers.generationChanged := true;
    }
    r := Pass;
  }
}

=== FILE: working_set.dfy ===
/** The per-cycle working set `Peers` (lib/aerospike/peers.rb): what one tend
    cycle learns about peers and which new nodes it wants to add. Its
    attributes are public accessors in the source, so the refresh steps assign
    them directly. */
module WorkingSet {
  import opened Base
  import opened NodeState
  import PeerGrammar

  class Peers {
    var peers: seq<PeerGrammar.Peer>
    var hosts: set<Host>
    /** `nodes`, a hash from node name to node; `nodeNames` keeps its
        insertion order. */
    var nodes: map<Option<string>, Node>
    var nodeNames: seq<Option<string>>
    var usePeers: bool
    var refreshCount: int
    var generationChanged: bool

    ghost predicate Valid()
      reads this
    {
      && (forall k :: k in nodes <==> k in nodeNames)
      && (forall i, j | 0 <= i < j < |nodeNames| :: nodeNames[i] != nodeNames[j])
    }

    /** `Peers.new`: nothing known yet; peers are used until a node lacks the
        feature. */
    constructor ()
      ensures Valid()
      ensures peers == [] && hosts == {} && nodes == map[] && nodeNames == []
      ensures usePeers && refreshCount == 0 && !generationChanged
    {
      peers := [];
      hosts := {};
      nodes := map[];
      nodeNames := [];
      usePeers := true;
      refreshCount := 0;
      generationChanged := false;
    }

    /** `find_node_by_name`: a lookup that changes nothing. */
    function FindNodeByName(name: Option<string>): (r: Node?)
      reads this
      ensures r != null <==> name in nodes
      ensures r != null ==> r == nodes[name]
    {
      if name in nodes then nodes[name] else null
    }

    /** `generation_changed?`. */
    function GenerationChanged(): bool
      reads this
    {
      generationChanged
    }

    /** `use_peers?`. */
    function UsePeers(): bool
      reads this
    {
      usePeers
    }

    /** `nodes[name] = node`: a new name goes to the end of the order, a
        known one keeps its place. */
    method PutNode(name: Option<string>, node: Node)
      requires Valid()
      modifies this`nodes, this`nodeNames
      ensures Valid()
      ensures nodes == old(nodes)[name := node]
      ensures nodeNames == if name in old(nodes) then old(nodeNames) else old(nodeNames) + [name]
    {
      if name !in nodes {
        nodeNames := nodeNames + [name];
      }
      nodes := nodes[name := node];
    }

    /** `nodes.values`, in insertion order. */
    function NodeValues(): (r: seq<Node>)
      reads this
      requires Valid()
      ensures |r| == |nodeNames|
      ensures forall i | 0 <= i < |r| :: r[i] == nodes[nodeNames[i]]
      ensures r == [] <==> nodes == map[]
    {
      assert nodeNames != [] ==> nodeNames[0] in nodes;
      ValuesOf(nodeNames, nodes)
    }
  }

  function ValuesOf(names: seq<Option<string>>, m: map<Option<string>, Node>): (r: seq<Node>)
    requires forall k | k in names :: k in m
    ensures |r| == |names|
    ensures forall i | 0 <= i < |r| :: r[i] == m[names[i]]
  {
    if names == [] then [] else [m[names[0]]] + ValuesOf(names[1..], m)
  }
}
